=== FILE: README.md ===
# FleaxovA marketplace core in Dafny

This project models the server core of the FleaxovA freelance marketplace, plus the client pages that shape what reaches it. Clients post jobs and buy services. Students apply to jobs, sell services and keep a profile. Money moves through orders and wallet withdrawals, and every party gets notifications and messages.

The model is built from these pieces:

- **Store.** Both databases (the Mongoose collections and the Supabase tables) are one immutable `Store` of maps keyed by row id (`store.dfy`). The server's in-memory OTP map is part of it.
- **Handlers.** Every Express handler is a pure function or method. It takes the store, the caller (`Principal`, i.e. `req.user`) and an `Io` record of the database's answers. It returns a `Response`: the new store and either a value or an `Error` that carries the HTTP status.
- **`Io`.** It holds the fresh row id, the fresh notification id, the clock, and whether each write succeeded. Writes whose failure the code ignores are separate flags: the wallet debit, the job assignment and the notification insert.
- **Mongoose schemas.** On the Mongoose-backed collections (orders, services, reviews, profiles) validation is modelled at `create`/`save`. On the Supabase-backed tables the controllers never go through the Mongoose models, so those schemas become `Valid` predicates. Lemmas then show which handler paths keep them and which do not.
- **Listings** are methods with loop invariants over `Query.Select` and `Query.SelectOrdered`.
- **Client pages** are pure functions over page state: the service form, the profile editor, the wallet form and the route guard. Lemmas connect what a page posts to what the server accepts.

Some behaviour one might expect is absent from the handlers, and the model follows the handlers. Completing an order moves no money, withdrawals have no approval step, and any signed-in caller can update any order's status.

Identifiers cross the two databases. `req.user.id` is always a Supabase auth id, a 36-character uuid. The Mongoose paths `client`, `freelancer`, `reviewer` and `user` are ObjectIds, and so are the ids looked up with `findById`. Mongoose casts such a string to an ObjectId only when it is 24 hexadecimal digits (`Common.IsObjectId`); any other string raises a CastError, which the error handler answers with 500. The Mongoose-backed handlers model that cast, and the `UuidCaller…` lemmas show what it means for a real caller: creating an order or a service, reading one's orders, and writing or reading a profile all answer 500, and a review is refused with 401.

JavaScript measures string length in UTF-16 code units. The model counts them with `Text.Utf16Length`, where a character outside the Basic Multilingual Plane counts two.

## Model

| member | source | states |
|---|---|---|
| Auth.BearerToken | server/src/middleware/auth.js:7-12 | a token is read only from a present header starting with "Bearer"; it is non-empty and it is exactly the second space-separated field: the text after the first space, up to the next space or the end |
| Auth.BearerSecondField | server/src/middleware/auth.js:7-12 | conversely, every non-empty second space-separated field of a "Bearer" header is the token that is read |
| Auth.BearerRoundTrip | server/src/middleware/auth.js:7-12 | the header "Bearer " + token, as the client writes it, yields that token back |
| Auth.BareBearerRejected | server/src/middleware/auth.js:7-16 | the header "Bearer" alone carries no token |
| Auth.Attach | server/src/middleware/auth.js:26-33 | the caller is the users row when it exists; otherwise the auth id and e-mail with the sign-up metadata |
| Auth.Protect | server/src/middleware/auth.js:4-38 | 401 "Not authorized" without a token, 401 "Invalid token" for an unknown one; it succeeds exactly for a known token, and the caller is then the account attached for that token's session |
| Auth.Authorize | server/src/middleware/auth.js:41-51 | it passes iff the caller's role is one of the listed roles; otherwise 403 naming the role |
| Auth.NoRoleRefusedEverywhere | server/src/middleware/auth.js:33-48 | a caller with no users row and no role in its metadata is refused by every role guard |
| Auth.RowRoleWins | server/src/middleware/auth.js:33-48 | when a users row exists, authorisation depends only on the row's role |
| Registration.EffectiveRole | server/src/controllers/authController.js:20-32 | a missing or empty role becomes "client"; otherwise the given role is kept |
| Registration.OtpText | server/src/controllers/authController.js:36 | the code is six decimal digits with no leading zero |
| Registration.Register | server/src/controllers/authController.js:9-52 | a refused sign-up answers 400 and changes nothing; otherwise the e-mail's entry is replaced by the new code, password and account, and the users row is added only when the insert succeeds and no row exists, with the effective role |
| Registration.VerifyEmail | server/src/controllers/authController.js:83-139 | 400 without an entry (a code-only entry holding the empty string counts as none) or for a wrong code; 400 "Session expired" for a code-only entry or an empty password; 401 when sign-in fails; it succeeds exactly with the right code, a stored password and a successful sign-in, and only then removes the entry |
| Registration.LegacyEntryExpires | server/src/controllers/authController.js:92-97 | an entry that holds only a non-empty code never verifies and is kept |
| Registration.EmptyLegacyEntryNotFound | server/src/controllers/authController.js:86-90 | a code-only entry holding the empty string is falsy and answers as a missing entry, whatever code is sent |
| Registration.RegisterThenVerify | server/src/controllers/authController.js:36-38 | the returned code verifies the new account once; a second verification finds no entry |
| Registration.ReRegisterInvalidatesOldCode | server/src/controllers/authController.js:38 | registering the same e-mail again with a different code makes the first code invalid |
| Registration.DistinctCodes | server/src/controllers/authController.js:36 | different numbers give different codes |
| Registration.DecimalInjective | server/src/controllers/authController.js:36 | decimal rendering of naturals is one-to-one |
| Registration.DecimalLong | server/src/controllers/authController.js:36 | numbers from 10 on render with at least two digits |
| Registration.DefaultRoleIsClient | server/src/controllers/authController.js:20-33 | an account registered without a role passes the client guard and is refused by the student/admin guard |
| ProtectedRoute.Guard | client/src/components/ProtectedRoute.jsx:4-20 | loading shows a placeholder and no user goes to /login; the page is shown iff the user is signed in and the route lists no roles or lists the user's role; other redirects go home |
| ProtectedRoute.UnrestrictedAdmitsEveryone | client/src/components/ProtectedRoute.jsx:15-19 | a route without roles admits every signed-in user |
| ProtectedRoute.MoreRolesAdmitMore | client/src/components/ProtectedRoute.jsx:15 | widening the role list never turns away an admitted user |
| ProtectedRoute.RolelessSentHome | client/src/components/ProtectedRoute.jsx:15-16 | a signed-in user without a role is sent home by every route that lists roles |
| Jobs.WantedStatus | server/src/controllers/jobController.js:18-23 | the listing filters on the requested status, or on "open" when none is given |
| Jobs.GetJobs | server/src/controllers/jobController.js:6-33 | exactly the jobs that match the keyword, category and status filters, each once; open jobs only by default |
| Jobs.GetJob | server/src/controllers/jobController.js:38-54 | the stored job iff it exists, otherwise 404 "Job not found" |
| Jobs.CreateJob | server/src/controllers/jobController.js:59-86 | 403 unless the caller is a client or admin; on success the job is stored under the caller as client with the title, description, category, budget and deadline given, status "open", no freelancer, dated now |
| Jobs.CreatedJobValidIffInputValid | server/src/models/Job.js:9-46 | a created job satisfies the schema exactly when its fields do |
| Jobs.ApplyPatch | server/src/controllers/jobController.js:107-112 | every column named in the body, `created_at` included, is overwritten and every other column is kept |
| Jobs.EmptyPatchIdentity | server/src/controllers/jobController.js:107-112 | an empty body leaves the job unchanged |
| Jobs.UpdateJob | server/src/controllers/jobController.js:91-120 | 404 for a missing job, 401 unless the caller is the owner or an admin; a body naming an unknown column, or a failed write, answers 500 and changes nothing; on success only that job changes, to the patched job |
| Jobs.UpdateCanBreakValidity | server/src/controllers/jobController.js:107-112 | the owner can set a status outside the schema's enum, because the body is not validated |
| Jobs.CreateThenGetJob | server/src/controllers/jobController.js:38-86 | a created job is read back exactly as the create answered it |
| Jobs.UpdateThenGetJob | server/src/controllers/jobController.js:38-120 | an updated job is read back as the stored job with the body applied |
| Jobs.DeleteThenGetJob | server/src/controllers/jobController.js:38-149 | a deleted job reads back as 404, every other job as before |
| Jobs.DeleteJob | server/src/controllers/jobController.js:125-149 | 404 / 401 as for update; on success only that job is removed |
| Applications.ApplyToJob | server/src/controllers/applicationController.js:7-52 | 403 unless student or admin, 404 for a missing job, 400 for a closed job or a second application; on success a pending application from the caller is stored, and the response is exactly the one the successful tail (Applications.RecordApplication) gives |
| Applications.RecordApplication | server/src/controllers/applicationController.js:24-47 | the stored application is the caller's, pending, dated now, for the job with the given letter and bid; when the notification insert succeeds the job's owner gets exactly one new unread "application" notification from the caller naming the caller and the job's title and linking to /job-admin/ and the job's id; no other table changes |
| Applications.ApplyKeepsOnePerJob | server/src/models/Application.js:34-35 | applying keeps at most one application per job and freelancer |
| Applications.GetApplications | server/src/controllers/applicationController.js:56-75 | students see only their own applications, clients those to their jobs, admins all; each once |
| Applications.GetJobApplications | server/src/controllers/applicationController.js:78-97 | 404 / 401 as for jobs; otherwise exactly the job's applications, each once |
| Applications.Assign | server/src/controllers/applicationController.js:132-137 | the job becomes "assigned" to the freelancer and nothing else about it changes |
| Applications.UpdateApplicationStatus | server/src/controllers/applicationController.js:100-143 | 404 / 401 as above; on success the status is stored as given; when the notification insert succeeds the applicant gets exactly one new unread "application" notification from the caller naming the job's title and the new status and linking to /dashboard; accepting also assigns the job when that write succeeds; no other table changes |
| Applications.AcceptReassigns | server/src/controllers/applicationController.js:132-137 | accepting an application for an already assigned job reassigns it to the new freelancer |
| Applications.OtherStatusKeepsJobs | server/src/controllers/applicationController.js:132 | any status but "accepted" leaves every job unchanged |
| Applications.StatusNotValidated | server/src/controllers/applicationController.js:114-120 | a status outside the schema's enum is stored |
| Messages.SendMessage | server/src/controllers/messageController.js:7-35 | the message is stored from the caller; when the notification insert succeeds the receiver gets exactly one new unread "message" notification from the caller, linking to /messages, naming the caller, whose preview is the first 30 characters of the content (the whole content when shorter); otherwise the notifications are unchanged; no other table changes |
| Messages.ShortMessageQuotedWhole | server/src/controllers/messageController.js:27 | a message of at most 30 characters is quoted whole in the notification |
| Messages.SentMessageListed | server/src/controllers/messageController.js:11-18 | a sent message is the one new row, and it lies between the sender and the receiver from either side, so the conversation listing of either user includes it; earlier messages are unchanged |
| Messages.GetMessages | server/src/controllers/messageController.js:40-54 | exactly the messages between the two users, each once, oldest first |
| Messages.GroupSkip | server/src/controllers/messageController.js:73 | a message whose peer is already listed, or has no user row, leaves the grouping invariant intact |
| Messages.AddKeepsDistinct | server/src/controllers/messageController.js:73-78 | adding a conversation for a new peer keeps the peers distinct |
| Messages.AddKeepsEntries | server/src/controllers/messageController.js:73-78 | the new conversation records its peer, user row and message |
| Messages.AddKeepsNoEarlier | server/src/controllers/messageController.js:73-78 | no message before a conversation's first one has that conversation's peer |
| Messages.AddKeepsCovered | server/src/controllers/messageController.js:68-79 | every peer with a user row seen so far has a conversation |
| Messages.GroupAdd | server/src/controllers/messageController.js:73-78 | the grouping invariant survives adding a new peer's conversation |
| Messages.KeptIsLatest | server/src/controllers/messageController.js:62-79 | over a newest-first listing, each conversation keeps the latest message with its peer |
| Messages.EveryPeerListed | server/src/controllers/messageController.js:67-79 | every peer with a user row that the caller has exchanged messages with has a conversation |
| Messages.EntriesWellFormed | server/src/controllers/messageController.js:67-79 | peers are distinct, and each conversation's message involves the caller and that peer |
| Messages.GroupByPeer | server/src/controllers/messageController.js:67-79 | the loop keeps the first listed message per peer: peers are distinct, each entry is a listed message with the peer's user row, and every peer with a user row gets an entry |
| Messages.GroupStep | server/src/controllers/messageController.js:68-78 | one turn keeps the grouping invariant; the list is unchanged, or grows by one entry for this message's peer and user row |
| Messages.GetConversations | server/src/controllers/messageController.js:57-85 | one conversation per peer with a user row, holding the latest message with that peer |
| Notifications.CreateNotification | server/src/controllers/notificationController.js:67-79 | adds one unread notification when the insert succeeds and nothing otherwise; no other table changes |
| Notifications.GetNotifications | server/src/controllers/notificationController.js:6-24 | exactly the caller's notifications, each once, newest first |
| Notifications.MarkAsRead | server/src/controllers/notificationController.js:29-45 | 404 unless the notification exists and is the caller's; on success only its read flag is set |
| Notifications.ReadAllOf | server/src/controllers/notificationController.js:52-56 | every notification of the user ends up read; every other notification and field is unchanged |
| Notifications.MarkAllRead | server/src/controllers/notificationController.js:50-64 | on success the caller's notifications are all read and nothing else changes; on failure nothing changes |
| Notifications.MarkAllReadIdempotent | server/src/controllers/notificationController.js:50-64 | marking all read twice equals doing it once |
| Notifications.MarkAsReadThenAll | server/src/controllers/notificationController.js:29-64 | marking one notification read first makes no difference to marking all read |
| OrderModel.ParseStatus | server/src/models/Order.js:23-27 | a status string is accepted iff it is the name of an enum value, case-sensitively |
| OrderModel.ParsePaymentStatus | server/src/models/Order.js:28-32 | a payment status string is accepted iff it names an enum value |
| OrderModel.StatusRoundTrip | server/src/models/Order.js:25 | every status's name parses back to it |
| OrderModel.PaymentStatusRoundTrip | server/src/models/Order.js:30 | every payment status's name parses back to it |
| OrderModel.MixedCaseStatusRejected | server/src/models/Order.js:25 | "In_Progress" is not a status, while "in_progress" is |
| OrderModel.Create | server/src/models/Order.js:4-46 | a new order starts pending with a pending payment and carries the given parties, service and amount |
| Orders.CreateOrder | server/src/controllers/orderController.js:7-37 | 500 when the service id does not cast, 404 "Service not found", 400 when the caller owns the service, 500 when the caller's id does not cast as the client or the write fails; on success a pending order at the service's price is stored |
| Orders.GetOrders | server/src/controllers/orderController.js:42-60 | 500 when the caller's id does not cast; otherwise exactly the orders where the caller is client or freelancer, each once |
| Orders.CreatedOrderListed | server/src/controllers/orderController.js:21-46 | a created order is listed for its client and its freelancer, and no other order's listing changes |
| Orders.UuidCallerCannotOrder | server/src/controllers/orderController.js:21-28 | a caller with a Supabase uuid id gets 500 for every order of another's service, and nothing is stored |
| Orders.ApplyStatusUpdate | server/src/controllers/orderController.js:77-80 | the save succeeds iff every given status names an enum value; only the given fields change |
| Orders.UpdateOrderStatus | server/src/controllers/orderController.js:65-86 | 500 when the id does not cast, 404 for a missing order; an invalid status gives 500 and no change; on success only that order changes, and no balance ever moves |
| Orders.UpdateOrderStatusIgnoresCaller | server/src/controllers/orderController.js:75-80 | the outcome does not depend on who the caller is |
| Orders.CompletionMovesNoMoney | server/src/controllers/orderController.js:77-80 | completing an order pays nobody |
| Orders.PaymentPageUpdateRejected | client/src/pages/Payment.jsx:32-35 | the payment page's update fails with 500 and leaves the order unchanged |
| Orders.CorrectedPaymentUpdateAccepted | client/src/pages/Payment.jsx:32-35 | with the lower-case status the same update succeeds and marks the order in progress and paid |
| Orders.UpdateFramesOtherOrders | server/src/controllers/orderController.js:69-80 | no other order changes |
| Wallet.NewWithdrawal | server/src/controllers/walletController.js:20-29 | the request is recorded for the caller, pending, with the given amount, method and details |
| Wallet.AfterWithdrawal | server/src/controllers/walletController.js:20-45 | the withdrawal is added; only the caller's balance changes, and only when the debit succeeds; when the notification insert succeeds the caller gets exactly one new unread "payment" notification for the amount, linking to /dashboard, otherwise the notifications are unchanged; no other table changes |
| Wallet.RequestWithdrawal | server/src/controllers/walletController.js:7-51 | 404 without a users row, 400 when the balance is below the amount; it succeeds exactly when the amount is covered and the insert succeeds |
| Wallet.WithdrawalDebits | server/src/controllers/walletController.js:33-37 | a successful request lowers the balance by the amount, and it stays non-negative |
| Wallet.WholeBalanceAccepted | server/src/controllers/walletController.js:18 | the whole balance can be withdrawn, leaving zero |
| Wallet.FailedInsertKeepsBalance | server/src/controllers/walletController.js:31 | a failed insert changes nothing |
| Wallet.BalancesStayNonNegative | server/src/controllers/walletController.js:18-37 | non-negative balances stay non-negative |
| Wallet.NegativeAmountCredits | server/src/controllers/walletController.js:18-37 | a withdrawal of -50 is accepted and raises the balance by 50 |
| Wallet.BelowMinimumStored | server/src/models/Withdrawal.js:9-13 | a withdrawal of 50, below the schema's minimum of 100, is stored |
| Wallet.RequestWithdrawalGuarded | server/src/models/Withdrawal.js:9-27 | with the schema's rules applied first, an invalid request answers 400 and changes nothing, and every stored withdrawal is valid |
| Wallet.GuardedNeverCredits | server/src/models/Withdrawal.js:9-13 | under the guard no balance ever rises and valid withdrawals stay valid |
| Wallet.GetWithdrawals | server/src/controllers/walletController.js:54-67 | exactly the caller's withdrawals, each once, newest first |
| Wallet.GetBalance | server/src/controllers/walletController.js:70-87 | the stored balance when the row exists, otherwise 500 |
| Wallet.BalanceAfterWithdrawal | server/src/controllers/walletController.js:33-37 | after a successful request the balance read back is the old one minus the amount |
| WalletPage.Initial | client/src/pages/Wallet.jsx:8-12 | the form opens with UPI selected and empty amount and details |
| WalletPage.HandleWithdraw | client/src/pages/Wallet.jsx:34-44 | an amount below 100 or above the shown balance only alerts; otherwise exactly one request with the amount, method and details is posted |
| WalletPage.SelectMethod | client/src/pages/Wallet.jsx:109-118 | choosing a method changes only the method |
| WalletPage.ClearAfterSuccess | client/src/pages/Wallet.jsx:46-47 | a submitted form clears amount and details and keeps the method |
| WalletPage.MethodAlwaysListed | server/src/models/Withdrawal.js:19-23 | both buttons set a method the schema accepts |
| WalletPage.ClearedFormAlerts | client/src/pages/Wallet.jsx:36 | submitting a cleared form alerts about the minimum |
| WalletPage.PostedRequestAccepted | client/src/pages/Wallet.jsx:36-44 | what the page posts against the real balance is accepted by the server, and it is schema-valid when details are filled in |
| Services.StripReserved | server/src/controllers/serviceController.js:11-15 | exactly the query entries whose keys are not select, sort, page or limit are kept |
| Services.StripReservedIdempotent | server/src/controllers/serviceController.js:14-15 | removing the reserved keys twice is removing them once |
| Services.WordLength | server/src/controllers/serviceController.js:21 | the longest leading run of word characters |
| Services.WordLengthOfWord | server/src/controllers/serviceController.js:21 | a string of word characters is one whole word |
| Services.WordLengthBeforeBreak | server/src/controllers/serviceController.js:21 | a word ends at the first non-word character |
| Services.Rewrite | server/src/controllers/serviceController.js:21 | the rewritten text is never shorter than the original |
| Services.RewriteOnlyAddsDollars | server/src/controllers/serviceController.js:21 | the rewrite only inserts "$": with every "$" removed, the text before and after is the same |
| Services.RewriteWord | server/src/controllers/serviceController.js:21 | a whole word gets a "$" iff it is gt, gte, lt, lte or in |
| Services.RewriteWordThenRest | server/src/controllers/serviceController.js:21 | a word followed by a non-word character is rewritten on its own |
| Services.RewriteNoWords | server/src/controllers/serviceController.js:21 | text without word characters is unchanged |
| Services.RewriteValue | server/src/controllers/serviceController.js:18-24 | rewriting keeps the shape of a query value |
| Services.RewriteEntries | server/src/controllers/serviceController.js:18-24 | rewriting keeps the number of entries |
| Services.RewriteEntriesAt | server/src/controllers/serviceController.js:18-24 | each entry's key and value are rewritten in place |
| Services.ServiceFilter | server/src/controllers/serviceController.js:11-24 | the filter has one entry per non-reserved query entry |
| Services.ServiceFilterEntries | server/src/controllers/serviceController.js:11-24 | every filter entry is a rewritten non-reserved query entry, and every such entry appears |
| Services.PriceRangeExample | server/src/controllers/serviceController.js:11-24 | price[gte]=100&sort=price filters on price $gte "100" |
| Services.CreateService | server/src/controllers/serviceController.js:38-54 | 500 when the caller's id does not cast as the freelancer; otherwise the service is stored under the caller exactly when the schema accepts the body, a body `_id` (if any) casts and is not taken, and the write succeeds; it is stored under that `_id`, else under a fresh id, and is the one the schema builds; otherwise 500 and no change |
| Services.BodyIdAndDateKept | server/src/controllers/serviceController.js:45 | a body's own `_id` and `createdAt` are kept: the service is stored under that id and carries that date |
| Services.UuidCallerCannotSell | server/src/controllers/serviceController.js:41-43 | a caller with a Supabase uuid id gets 500 and nothing is stored |
| Services.CreateServiceIgnoresBodyFreelancer | server/src/controllers/serviceController.js:41 | a freelancer field in the body has no effect |
| ServiceModel.Create | server/src/models/Service.js:3-50 | accepted iff title (trimmed) and description are present and within 100/1000 UTF-16 units, the category is in the enum, and price and delivery time are given; the service keeps the trimmed title, description, price, category, delivery time and freelancer, and is dated by the body's `createdAt` when it gives one, else now |
| CreateServiceForm.Initial | client/src/pages/CreateService.jsx:6-15 | the form opens empty, with "Development" as category and no messages |
| CreateServiceForm.LengthError | client/src/pages/CreateService.jsx:20-23 | no message iff the length in UTF-16 units is within bounds; too long wins over too short |
| CreateServiceForm.PositiveError | client/src/pages/CreateService.jsx:24-25 | no message iff a positive number is given |
| CreateServiceForm.Validate | client/src/pages/CreateService.jsx:18-29 | each field is flagged iff its check fails |
| CreateServiceForm.Submit | client/src/pages/CreateService.jsx:31-46 | messages are replaced by a fresh check, and the form is posted iff all four checks pass |
| CreateServiceForm.ApplyEdit | client/src/pages/CreateService.jsx:80-160 | editing a field sets it and clears only its own message; the category clears nothing |
| CreateServiceForm.EditOnlyClears | client/src/pages/CreateService.jsx:80-160 | an edit never adds a message |
| CreateServiceForm.InitialNotPosted | client/src/pages/CreateService.jsx:6-35 | the empty form is not posted, and all four fields are flagged |
| CreateServiceForm.OptionsAreCategories | client/src/pages/CreateService.jsx:93-102 | every category option is one the schema accepts |
| CreateServiceForm.Payload | client/src/pages/CreateService.jsx:40 | the posted body carries the form's fields and no cover image |
| CreateServiceForm.PostedFormAccepted | client/src/pages/CreateService.jsx:18-40 | a form that passes the page, with a listed category and a title that is not all blanks, is accepted by the schema |
| CreateServiceForm.BlankTitlePassesPage | client/src/pages/CreateService.jsx:20 | a five-blank title passes the page but the schema rejects it |
| ReviewModel.Create | server/src/models/Review.js:4-37 | accepted iff the rating is within 1..5 and the comment is non-empty; it keeps the order, service and parties |
| Reviews.AddRating | server/src/controllers/reviewController.js:45-48 | the review count rises by one and the rating becomes the running mean; nothing else changes |
| Reviews.AddReview | server/src/controllers/reviewController.js:9-59 | 500 when the order id does not cast, 404 for a missing order, 401 unless the caller is its client; the review is stored iff the caller's id casts and the schema, the one-per-order rule and the insert allow; the freelancer's profile, when it exists, is updated iff the updated profile passes the whole schema and saves, otherwise 500 with the review kept; no table but reviews and profiles changes |
| Reviews.SaveReview | server/src/controllers/reviewController.js:29-50 | the review is kept whatever follows; an existing profile takes the running mean iff the whole updated document validates and saves, otherwise 500 with the profile unchanged; no table but reviews and profiles changes |
| Reviews.UuidCallerCannotReview | server/src/controllers/reviewController.js:14-20 | a caller with a Supabase uuid id never gets a review stored, and gets 401 for an existing order whose client is an ObjectId |
| Reviews.AddReviewKeepsOnePerOrder | server/src/models/Review.js:40-41 | at most one review per order and reviewer is kept |
| Reviews.RunningMean | server/src/controllers/reviewController.js:45-47 | the update equals the mean of all ratings so far |
| Reviews.NextRatingBounded | server/src/models/Profile.js:30-35 | the updated rating stays within the profile schema's 0..5 |
| Reviews.ProfileUpdateLands | server/src/controllers/reviewController.js:43-50 | a review by the order's client with a rating in 1..5 and a comment, for a freelancer whose profile passes the whole schema (non-empty title and bio, rating in 0..5), succeeds, keeps the profile valid and raises the review count by one |
| Reviews.BlankTitleBreaksLaterReview | server/src/controllers/profileController.js:35-53 | after a profile update blanks the title, a review of that freelancer answers 500 although the review is stored |
| Reviews.StatusNotChecked | server/src/controllers/reviewController.js:23-26 | a pending order can be reviewed as well as any other |
| Reviews.StatusNeverConsulted | server/src/controllers/reviewController.js:23-26 | the answer is the same whatever the order's status |
| Reviews.GetServiceReviews | server/src/controllers/reviewController.js:64-78 | 500 when the service id does not cast; otherwise exactly the service's reviews, each once, newest first |
| ProfileModel.Create | server/src/models/Profile.js:10-47 | accepted iff a non-blank title and a bio are given; missing skills are stored as none, since an array path defaults to empty and `required` accepts it; it starts unrated and unverified, and passes the whole schema |
| ProfileModel.Merge | server/src/controllers/profileController.js:49-53 | the given fields replace the stored ones; stats stay |
| Profiles.SkillList | server/src/controllers/profileController.js:37-40 | an array is kept; a string gives trimmed, comma-free pieces, at least one |
| Profiles.TrimmedPieceHasNoComma | server/src/controllers/profileController.js:39 | trimming a comma-free piece keeps it comma-free |
| Profiles.BuildProfileFields | server/src/controllers/profileController.js:32-42 | a field is set iff the body's value is truthy, with skills split |
| Profiles.UpdateProfile | server/src/controllers/profileController.js:23-64 | 500 when the caller's id does not cast; an existing profile is merged, otherwise one is created when the schema allows; only the caller's profile changes |
| Profiles.EmptyUpdateKeepsProfile | server/src/controllers/profileController.js:32-53 | an empty body keeps the profile (500 when the caller's id does not cast) |
| Profiles.UpdateCanStoreInvalid | server/src/controllers/profileController.js:35-53 | a blank title is stored as "" because the update does not validate, leaving a profile the schema refuses |
| Profiles.UpdateKeepsStats | server/src/controllers/profileController.js:32-53 | an update never touches rating or review count |
| Profiles.GetMyProfile | server/src/controllers/profileController.js:6-18 | 500 when the caller's id does not cast; otherwise the caller's profile, or 404 |
| Profiles.UpdateThenRead | server/src/controllers/profileController.js:23-64 | reading back after an update returns the saved profile |
| Profiles.UuidCallerHasNoProfile | server/src/controllers/profileController.js:8-57 | a caller with a Supabase uuid id gets 500 from both the update and the read, and nothing is stored |
| EditProfile.OrEmpty | client/src/pages/EditProfile.jsx:54-56 | a missing social link shows as empty text |
| EditProfile.Urls | client/src/pages/EditProfile.jsx:52 | the links' urls, in order |
| EditProfile.Load | client/src/pages/EditProfile.jsx:45-58 | the form holds title and bio, and the skills and link urls joined with ", " |
| EditProfile.NonEmpty | client/src/pages/EditProfile.jsx:84 | only non-empty pieces are kept, all of them when none is empty |
| EditProfile.NonEmptyKeeps | client/src/pages/EditProfile.jsx:84 | no non-empty piece is dropped |
| EditProfile.Links | client/src/pages/EditProfile.jsx:85 | each url becomes a link titled "Project Link" |
| EditProfile.ParsePortfolio | client/src/pages/EditProfile.jsx:83-85 | the links are the non-blank comma pieces, trimmed, each titled "Project Link" |
| EditProfile.ProfilePayload | client/src/pages/EditProfile.jsx:82-95 | a body is posted iff the user is a student, carrying title, bio, skills text and parsed links |
| EditProfile.PortfolioRoundTrip | client/src/pages/EditProfile.jsx:52-85 | non-empty, trimmed, comma-free links survive being joined and parsed back |
| EditProfile.PiecesOfJoin | client/src/pages/EditProfile.jsx:52-85 | splitting and trimming the joined links gives the links back |
| EditProfile.NonEmptyOfFull | client/src/pages/EditProfile.jsx:84 | dropping blanks keeps a list with none |
| EditProfile.ParsedUrls | client/src/pages/EditProfile.jsx:83-85 | the parsed links' urls are the kept pieces |
| EditProfile.SkillsRoundTrip | client/src/pages/EditProfile.jsx:51-90 | trimmed, comma-free skills survive the page's join and the server's split |
| EditProfile.LoadedFields | client/src/pages/EditProfile.jsx:45-95 | the server fields built from a loaded form carry the profile's title, bio, skills and urls |
| EditProfile.LoadedTitle | client/src/pages/EditProfile.jsx:49 | a trimmed title comes back unchanged |
| EditProfile.LoadedSkills | client/src/pages/EditProfile.jsx:51-90 | a non-empty skills text comes back as the same skills |
| EditProfile.FirstSaveWithoutSkills | client/src/pages/EditProfile.jsx:82-95 | a student's first save with an empty skills box creates the profile, with no skills |
| EditProfile.SaveLoadedKeepsContent | client/src/pages/EditProfile.jsx:45-96 | saving an untouched form lands exactly when the caller's id casts, and then keeps title, bio, skills and link urls; link titles are reset, and link descriptions are dropped (descriptions are not modelled) |
| Query.Select | server/src/controllers/walletController.js:56-59 | exactly the rows that pass the filter, each once |
| Query.InsertOrdered | server/src/controllers/walletController.js:60 | inserting into an ordered listing keeps it ordered and adds exactly one row |
| Query.SelectOrdered | server/src/controllers/walletController.js:56-60 | the filtered rows, each once, in key order |
| Text.Trim | server/src/controllers/profileController.js:39 | the result has no leading or trailing blank; trimmed text is unchanged; empty iff all blanks |
| Text.TrimSlice | server/src/controllers/profileController.js:39 | the trimmed text is a slice with blanks only on either side |
| Text.Split | server/src/controllers/profileController.js:39 | at least one piece, none containing the separator, and joining them with the separator gives the text back |
| Text.LowerAll | server/src/controllers/jobController.js:11 | same length, each character lowered |
| Text.SplitJoin | server/src/middleware/auth.js:11 | splitting the join of separator-free pieces gives the pieces back |
| Text.TrimSplitJoin | server/src/controllers/profileController.js:39 | splitting on ',' and trimming the ", "-join of trimmed comma-free pieces gives them back |
| Text.Decimal | server/src/controllers/authController.js:36 | the rendering is a non-empty string of decimal digits whose value is the number |
| Text.Utf16Length | server/src/models/Service.js:3-50 | a string has between one and two UTF-16 units per character |
| Text.Utf16LengthBmp | server/src/models/Service.js:3-50 | a string of Basic Multilingual Plane characters has one unit per character |
| Text.SplitSecondField | server/src/middleware/auth.js:11 | the second piece of a split is the second field: the text after the first separator, up to the next one or the end |
| Text.SecondFieldSplit | server/src/middleware/auth.js:11 | conversely, a second field is the second piece of the split |
| Text.DecimalLength | server/src/controllers/authController.js:36 | a number in [10^(k-1), 10^k) renders as k digits, the first not '0' when k > 1 |

## Left out

- Supabase read errors: a failed Supabase lookup is modelled as a missing row, and the handler's answer for a missing row is used (404 or 500, depending on the handler). Mongoose lookups by an id that does not cast answer 500 and are modelled (orderController.js:11 and :69, reviewController.js:14); other Mongoose read failures (a lost connection) are not.
- ServiceModel.Create: a body `createdAt` is taken as an already cast date; a value that does not cast to a Date, which Mongoose rejects, is not modelled. Body fields outside the schema, which strict mode drops, are not modelled either.
- ObjectId casting: the 12-character form that Mongoose also accepts as an ObjectId is not modelled; only 24 hexadecimal digits cast.
- Supabase column defaults: the tables' definitions are not part of this model. A new withdrawal is assumed "pending" (Wallet.NewWithdrawal), a new job "open" (Jobs.CreateJob), a new application "pending" (Applications.ApplyToJob) and a new notification unread (Notifications.CreateNotification); the inserts name none of these columns. The applications table is also assumed to hold a unique (job, freelancer) constraint: Applications.ApplyToJob answers "Already applied" through `AlreadyApplied`, where the handler relies on the database's unique-violation error (code 23505).
- Jobs.GetJobs: `ilike` is modelled as a substring test after ASCII lower-casing. The `%` and `_` wildcards inside the keyword are treated as plain characters, and non-ASCII case folding is not modelled.
- Services.ServiceFilter: the filter is built as entries, without JSON string escapes or arrays. Evaluating the resulting Mongo filter against services is not modelled.
- Route wiring: the route files and `protect`/`authorize` chains are not composed with each handler. Handlers take the caller as given, and Auth is modelled separately.
- Jobs.ApplyPatch: a body field set to null, which clears a column, is not modelled; the patch has only "absent" and "set". A body that sets `id` moves the row to another key, which is not modelled either; Jobs.UpdateJob keeps the job under the requested id.
- Cascading deletes and foreign keys in Supabase are not modelled.
- Money and ratings use `real`; JavaScript floating-point rounding is not modelled.
- Non-numeric amounts and JavaScript type coercion in comparisons (`'abc' < 100`) are not modelled; amounts are numbers.
- The `description` field of a portfolio link is not modelled.
- The admin e-mail confirmation call in verify-email has no effect on the store and is left out.
- Registration.Register: the users row starts with a zero balance; the table's actual default is not part of this model.
- login, getMe, forgotPassword, updateUserDetails, getUsers and getProfiles are not modelled; they are pass-through calls to the auth service or plain reads.
- EditProfile: the company fields and the updatedetails call that precedes the profile post are not modelled, and neither are social links beyond carrying them.
- AuthContext's session loading is reduced to the `loading` and `authenticated` flags of ProtectedRoute.Session.
- Auth.Protect: the try/catch that answers 401 when the auth service throws is folded into the unknown-token case.
- `Math.random` is the parameter `n` of Registration.Register; the auth service's sign-up, sign-in and token lookup are parameters (answers and a session map).
- Concurrency and interleaved requests are not modelled; each handler runs atomically on the store.
- Registration.Register: body fields are taken as present strings; missing fields in the JSON body are not modelled.
- Messages.SendMessage: the notification text is modelled as its two parts, the sender's name and the preview, not as the formatted string. The preview takes the first 30 characters, while `substring(0, 30)` takes 30 UTF-16 units, so a text with characters outside the Basic Multilingual Plane gets a longer preview here, and a surrogate pair is never split.
- EditProfile.LoadedSkills: covers only a non-empty skills text, because an empty skill list joins to "" and the page then sends no skills.
- EditProfile.PortfolioRoundTrip: states the round trip element-wise (same length, same url at each index) rather than as one sequence equality.
- Messages.GroupByPeer: a conversation is keyed by the peer's id from the message. This is what messageController.js:71 falls back to, since the join at line 61 selects only the user's name and email, so `otherUser.id` is never set.

## Findings

| source | as written | input that shows it | evidently intended | confidence | as-written member | corrected member |
|---|---|---|---|---|---|---|
| client/src/pages/Payment.jsx:33 | the payment page's handler would send status "In_Progress" | a PUT to an existing order carrying "In_Progress"; the page itself never gets that far, since its GET of /api/orders/:id at Payment.jsx:20 has no route in orderRoutes.js | the schema's lower-case "in_progress", so the order moves to in progress and paid | high; not executed | Orders.PaymentPageUpdateRejected | Orders.CorrectedPaymentUpdateAccepted |
| server/src/controllers/walletController.js:18 | the only amount check is `wallet_balance < amount` | amount -50 from a user with a non-negative balance | reject amounts below the schema's minimum of 100 before debiting | high; not executed | Wallet.NegativeAmountCredits | Wallet.GuardedNeverCredits |

=== FILE: application_model.dfy ===
/** The application document of server/src/models/Application.js. The
    application controller writes the Supabase `applications` table directly, so
    these rules are a validity predicate plus the uniqueness index. */
module ApplicationModel {
  import opened Common
  import Text

  const COVER_LETTER_MAX: nat := 3000
  const STATUSES: set<string> := {"pending", "accepted", "rejected", "withdrawn"}
  const DEFAULT_STATUS: string := "pending"

  datatype Application = Application(
    job: Id,
    freelancer: Id,
    coverLetter: string,
    bidAmount: real,
    status: string,
    createdAt: int)

  /** What the schema admits: a non-empty cover letter of at most 3000
      UTF-16 units and a listed status. */
  predicate Valid(a: Application) {
    && a.coverLetter != ""
    && Text.Utf16Length(a.coverLetter) <= COVER_LETTER_MAX
    && a.status in STATUSES
  }

  /** The unique index on (job, freelancer). */
  predicate OnePerJobAndFreelancer(apps: map<Id, Application>) {
    forall a, b :: a in apps && b in apps && a != b ==>
      apps[a].job != apps[b].job || apps[a].freelancer != apps[b].freelancer
  }
}

=== FILE: applications.dfy ===
/** server/src/controllers/applicationController.js */
module Applications {
  import opened Wrappers
  import opened Common
  import opened Store
  import opened ApplicationModel
  import JobModel
  import Jobs
  import Notifications
  import Query

  /** The body of POST /api/applications. */
  datatype ApplyRequest = ApplyRequest(job: Id, coverLetter: string, bidAmount: real)

  /** Some application already pairs this job with this freelancer. */
  predicate AlreadyApplied(apps: map<Id, Application>, job: Id, freelancer: Id) {
    exists k :: k in apps && apps[k].job == job && apps[k].freelancer == freelancer
  }

  /** POST /api/applications: students and admins; the job must exist and be
      open; a second application to the same job violates the unique index and
      is answered "Already applied". The job's owner is notified. */
  function ApplyToJob(s: Store, p: Principal, req: ApplyRequest, io: Io): (r: Response<Application>)
    requires io.rowId !in s.applications && io.noteId !in s.notifications
    ensures !HasRole(p, STUDENT) && !HasRole(p, ADMIN) ==> r == Response(s, Err(Forbidden("Only students can apply")))
    ensures (HasRole(p, STUDENT) || HasRole(p, ADMIN)) && req.job !in s.jobs ==> r == Response(s, Err(NotFound("Job not found")))
    ensures (HasRole(p, STUDENT) || HasRole(p, ADMIN)) && req.job in s.jobs && s.jobs[req.job].status != "open" ==>
      r == Response(s, Err(BadRequest("Job closed")))
    ensures ((HasRole(p, STUDENT) || HasRole(p, ADMIN)) && req.job in s.jobs && s.jobs[req.job].status == "open"
             && AlreadyApplied(s.applications, req.job, p.id)) ==> r == Response(s, Err(BadRequest("Already applied")))
    ensures r.result.Ok? <==>
      && (HasRole(p, STUDENT) || HasRole(p, ADMIN))
      && req.job in s.jobs && s.jobs[req.job].status == "open"
      && !AlreadyApplied(s.applications, req.job, p.id) && io.writeOk
    ensures r.result.Err? ==> r.store == s
    ensures r.result.Ok? ==>
      var a := r.result.value;
      && a.job == req.job && a.freelancer == p.id && a.coverLetter == req.coverLetter && a.bidAmount == req.bidAmount
      && a.status == DEFAULT_STATUS
      && r.store.applications == s.applications[io.rowId := a]
      && r.store.jobs == s.jobs && r.store.users == s.users
    ensures r.result.Ok? ==> r == RecordApplication(s, p, req, io)
  {
    if !HasRole(p, STUDENT) && !HasRole(p, ADMIN) then Response(s, Err(Forbidden("Only students can apply")))
    else if req.job !in s.jobs then Response(s, Err(NotFound("Job not found")))
    else
      var job := s.jobs[req.job];
      if job.status != "open" then Response(s, Err(BadRequest("Job closed")))
      else if AlreadyApplied(s.applications, req.job, p.id) then Response(s, Err(BadRequest("Already applied")))
      else if !io.writeOk then Response(s, Err(ServerError))
      else RecordApplication(s, p, req, io)
  }

  /** The successful tail of the handler: a pending application from the caller
      is stored, and the job's owner is notified when that insert succeeds. */
  function RecordApplication(s: Store, p: Principal, req: ApplyRequest, io: Io): (r: Response<Application>)
    requires io.rowId !in s.applications && io.noteId !in s.notifications && req.job in s.jobs
    ensures r.result.Ok?
    ensures var a := r.result.value;
      && a.job == req.job && a.freelancer == p.id && a.coverLetter == req.coverLetter && a.bidAmount == req.bidAmount
      && a.status == DEFAULT_STATUS
      && a.createdAt == io.now
      && r.store.applications == s.applications[io.rowId := a]
      && r.store.jobs == s.jobs && r.store.users == s.users
    ensures r.store.(applications := s.applications, notifications := s.notifications) == s
    ensures !io.notifyOk ==> r.store.notifications == s.notifications
    ensures io.notifyOk ==>
      var job := s.jobs[req.job];
      r.store.notifications == s.notifications[io.noteId :=
        Notification(job.client, Some(p.id), "application", Applied(p.name, job.title), "/job-admin/" + req.job, false, io.now)]
  {
    var job := s.jobs[req.job];
    var a := Application(req.job, p.id, req.coverLetter, req.bidAmount, DEFAULT_STATUS, io.now);
    var s1 := s.(applications := s.applications[io.rowId := a]);
    var s2 := Notifications.CreateNotification(s1, job.client, Some(p.id), "application", Applied(p.name, job.title), "/job-admin/" + req.job, io);
    Response(s2, Ok(a))
  }

  /** Applying never creates a second application for the same job and freelancer. */
  lemma {:induction false} ApplyKeepsOnePerJob(s: Store, p: Principal, req: ApplyRequest, io: Io)
    requires io.rowId !in s.applications && io.noteId !in s.notifications
    requires OnePerJobAndFreelancer(s.applications)
    ensures OnePerJobAndFreelancer(ApplyToJob(s, p, req, io).store.applications)
  {
    var r := ApplyToJob(s, p, req, io);
    if r.result.Ok? {
      var apps := r.store.applications;
      forall a, b | a in apps && b in apps && a != b
        ensures apps[a].job != apps[b].job || apps[a].freelancer != apps[b].freelancer
      {
        if a == io.rowId {
          assert b in s.applications;
        } else if b == io.rowId {
          assert a in s.applications;
        }
      }
    }
  }

  /** Which applications a caller may list: a student their own, a client
      those to jobs they own, anyone else (admins, and callers without a role)
      all of them. */
  predicate Visible(s: Store, p: Principal, a: Application) {
    if HasRole(p, STUDENT) then a.freelancer == p.id
    else if HasRole(p, CLIENT) then a.job in s.jobs && s.jobs[a.job].client == p.id
    else true
  }

  /** GET /api/applications */
  method GetApplications(s: Store, p: Principal) returns (ids: seq<Id>)
    ensures Query.Distinct(ids)
    ensures forall k :: k in ids <==> k in s.applications && Visible(s, p, s.applications[k])
    ensures HasRole(p, STUDENT) ==> forall k :: k in ids ==> s.applications[k].freelancer == p.id
    ensures HasRole(p, ADMIN) ==> forall k :: k in s.applications ==> k in ids
  {
    ids := Query.Select(s.applications, (a: Application) => Visible(s, p, a));
  }

  /** GET /api/applications/job/:jobId: the job's owner or an admin sees every
      application to it. */
  method GetJobApplications(s: Store, p: Principal, jobId: Id) returns (r: Result<seq<Id>>)
    ensures jobId !in s.jobs ==> r == Err(NotFound("Job not found"))
    ensures jobId in s.jobs && !Jobs.MayManage(p, s.jobs[jobId]) ==> r == Err(Unauthorized("Not authorized"))
    ensures r.Ok? <==> jobId in s.jobs && Jobs.MayManage(p, s.jobs[jobId])
    ensures r.Ok? ==> Query.Distinct(r.value)
    ensures r.Ok? ==> forall k :: k in r.value <==> k in s.applications && s.applications[k].job == jobId
  {
    if jobId !in s.jobs {
      return Err(NotFound("Job not found"));
    }
    if !Jobs.MayManage(p, s.jobs[jobId]) {
      return Err(Unauthorized("Not authorized"));
    }
    var ids := Query.Select(s.applications, (a: Application) => a.job == jobId);
    r := Ok(ids);
  }

  /** The job after an application to it is accepted. */
  function Assign(j: JobModel.Job, freelancer: Id): (k: JobModel.Job)
    ensures k.status == "assigned" && k.assignedFreelancer == Some(freelancer)
    ensures k.(status := j.status, assignedFreelancer := j.assignedFreelancer) == j
  {
    j.(status := "assigned", assignedFreelancer := Some(freelancer))
  }

  /** PUT /api/applications/:id: the owner of the application's job or an admin
      sets any status string; the applicant is notified; "accepted" also
      assigns the job, by an unchecked second write. An application whose job
      row is gone fails reading the owner and is answered 500. */
  function UpdateApplicationStatus(s: Store, p: Principal, id: Id, status: string, io: Io): (r: Response<Application>)
    requires io.noteId !in s.notifications
    ensures id !in s.applications ==> r == Response(s, Err(NotFound("Not found")))
    ensures id in s.applications && s.applications[id].job in s.jobs && !Jobs.MayManage(p, s.jobs[s.applications[id].job]) ==>
      r == Response(s, Err(Unauthorized("Not authorized")))
    ensures r.result.Ok? <==>
      id in s.applications && s.applications[id].job in s.jobs && Jobs.MayManage(p, s.jobs[s.applications[id].job]) && io.writeOk
    ensures r.result.Err? ==> r.store == s
    ensures r.result.Ok? ==>
      var a := s.applications[id];
      && r.result.value == a.(status := status)
      && r.store.applications == s.applications[id := a.(status := status)]
      && r.store.jobs == (if status == "accepted" && io.followUpOk then s.jobs[a.job := Assign(s.jobs[a.job], a.freelancer)] else s.jobs)
      && r.store.users == s.users && r.store.orders == s.orders && r.store.withdrawals == s.withdrawals
    ensures r.result.Ok? ==> r.store.(applications := s.applications, jobs := s.jobs, notifications := s.notifications) == s
    ensures r.result.Ok? ==>
      var a := s.applications[id];
      r.store.notifications == (if io.notifyOk then s.notifications[io.noteId :=
        Notification(a.freelancer, Some(p.id), "application", ApplicationDecided(s.jobs[a.job].title, status), "/dashboard", false, io.now)]
        else s.notifications)
  {
    if id !in s.applications then Response(s, Err(NotFound("Not found")))
    else
      var a := s.applications[id];
      if a.job !in s.jobs then Response(s, Err(ServerError))
      else
        var job := s.jobs[a.job];
        if !Jobs.MayManage(p, job) then Response(s, Err(Unauthorized("Not authorized")))
        else if !io.writeOk then Response(s, Err(ServerError))
        else
          var a' := a.(status := status);
          var s1 := s.(applications := s.applications[id := a']);
          var s2 := Notifications.CreateNotification(s1, a.freelancer, Some(p.id), "application", ApplicationDecided(job.title, status), "/dashboard", io);
          var s3 := if status == "accepted" && io.followUpOk then s2.(jobs := s2.jobs[a.job := Assign(job, a.freelancer)]) else s2;
          Response(s3, Ok(a'))
  }

  /** Accepting does not look at the job's state: a second application to an
      already assigned job can be accepted and takes the assignment over. */
  lemma AcceptReassigns(s: Store, p: Principal, id: Id, io: Io)
    requires io.noteId !in s.notifications && io.writeOk && io.followUpOk
    requires id in s.applications && s.applications[id].job in s.jobs
    requires s.jobs[s.applications[id].job].status == "assigned" && s.jobs[s.applications[id].job].client == p.id
    ensures UpdateApplicationStatus(s, p, id, "accepted", io).result.Ok?
    ensures UpdateApplicationStatus(s, p, id, "accepted", io).store.jobs[s.applications[id].job].assignedFreelancer
      == Some(s.applications[id].freelancer)
  {
  }

  /** A status other than "accepted" leaves every job as it was. */
  lemma OtherStatusKeepsJobs(s: Store, p: Principal, id: Id, status: string, io: Io)
    requires io.noteId !in s.notifications && status != "accepted"
    ensures UpdateApplicationStatus(s, p, id, status, io).store.jobs == s.jobs
  {
  }

  /** The status is written unchecked, so an application can leave the schema's enum. */
  lemma StatusNotValidated(s: Store, p: Principal, id: Id, io: Io)
    requires io.noteId !in s.notifications && io.writeOk
    requires id in s.applications && s.applications[id].job in s.jobs && s.jobs[s.applications[id].job].client == p.id
    ensures UpdateApplicationStatus(s, p, id, "hired", io).result.Ok?
    ensures !Valid(UpdateApplicationStatus(s, p, id, "hired", io).result.value)
  {
  }
}

=== FILE: auth.dfy ===
/** The request guards of `middleware/auth.js`: `protect` reads the bearer
    token, asks the auth service whom it belongs to and attaches the caller;
    `authorize` admits a fixed list of roles. */
module Auth {
  import opened Wrappers
  import opened Common
  import Text
  import opened Store

  /** The account the auth service reports for a token. */
  datatype AuthUser = AuthUser(id: Id, email: string, name: Option<string>, role: Option<string>)

  /** The token of an `Authorization` header: the header must be present, start
      with "Bearer", and its second blank-separated field must be non-empty. */
  function BearerToken(header: Option<string>): (r: Option<string>)
    ensures r.Some? ==> Truthy(header) && Text.StartsWith(header.value, "Bearer")
    ensures r.Some? ==> r.value != "" && Text.SecondField(header.value, ' ', r.value)
    ensures header.Some? && !Text.StartsWith(header.value, "Bearer") ==> r.None?
  {
    if Truthy(header) && Text.StartsWith(header.value, "Bearer") then
      var fields := Text.Split(header.value, ' ');
      if |fields| >= 2 && fields[1] != "" then
        Text.SplitSecondField(header.value, ' ');
        Some(fields[1])
      else None
    else None
  }

  /** Conversely, a header that starts with "Bearer" yields its second field
      whenever that field is not empty. */
  lemma BearerSecondField(header: string, token: string)
    requires Text.StartsWith(header, "Bearer")
    requires token != "" && Text.SecondField(header, ' ', token)
    ensures BearerToken(Some(header)) == Some(token)
  {
    Text.SecondFieldSplit(header, ' ', token);
  }

  /** A header written the way the client writes it carries its token back. */
  lemma BearerRoundTrip(token: string)
    requires token != "" && ' ' !in token
    ensures BearerToken(Some("Bearer " + token)) == Some(token)
  {
    var h := "Bearer " + token;
    assert Text.Join(["Bearer", token], [' ']) == h;
    Text.SplitJoin(["Bearer", token], ' ');
    assert h[..6] == "Bearer";
  }

  /** "Bearer" with nothing after it carries no token. */
  lemma BareBearerRejected()
    ensures BearerToken(Some("Bearer")) == None
  {
    Text.SplitWithoutSeparator("Bearer", ' ');
  }

  /** `req.user`: the `users` row when there is one, otherwise the auth id and
      e-mail with the sign-up metadata spread over them. */
  function Attach(s: Store, u: AuthUser): (p: Principal)
    ensures p.id == u.id
    ensures u.id in s.users ==>
      p.name == Some(s.users[u.id].name) && p.email == Some(s.users[u.id].email) && p.role == Some(s.users[u.id].role)
    ensures u.id !in s.users ==> p.name == u.name && p.email == Some(u.email) && p.role == u.role
  {
    if u.id in s.users then
      var row := s.users[u.id];
      Principal(u.id, Some(row.name), Some(row.email), Some(row.role))
    else
      Principal(u.id, u.name, Some(u.email), u.role)
  }

  /** `protect`: 401 "Not authorized" without a bearer token, 401 "Invalid token"
      when the auth service knows no account for it, otherwise the caller.
      `sessions` stands for the auth service's token lookup. */
  function Protect(s: Store, sessions: map<string, AuthUser>, header: Option<string>): (r: Result<Principal>)
    ensures BearerToken(header).None? ==> r == Err(Unauthorized("Not authorized"))
    ensures BearerToken(header).Some? && BearerToken(header).value !in sessions ==> r == Err(Unauthorized("Invalid token"))
    ensures r.Ok? <==> BearerToken(header).Some? && BearerToken(header).value in sessions
    ensures r.Ok? ==> r.value == Attach(s, sessions[BearerToken(header).value])
    ensures r.Ok? ==> r.value.id == sessions[BearerToken(header).value].id
  {
    match BearerToken(header)
    case None => Err(Unauthorized("Not authorized"))
    case Some(token) =>
      if token !in sessions then Err(Unauthorized("Invalid token"))
      else Ok(Attach(s, sessions[token]))
  }

  /** How a template literal renders an optional role. */
  function RoleText(role: Option<string>): string {
    if role.Some? then role.value else "undefined"
  }

  /** `authorize(...roles)`: the request passes iff the caller has a role and it
      is one of `roles`; otherwise 403 naming the role. */
  function Authorize(roles: seq<string>, p: Principal): (r: Result<()>)
    ensures r.Ok? <==> exists role :: role in roles && HasRole(p, role)
    ensures r.Err? ==> r.error == Forbidden("User role " + RoleText(p.role) + " is not authorized to access this route")
  {
    if p.role.Some? && p.role.value in roles then Ok(())
    else Err(Forbidden("User role " + RoleText(p.role) + " is not authorized to access this route"))
  }

  /** A caller with neither a `users` row nor a role in its metadata is refused
      by every role guard. */
  lemma NoRoleRefusedEverywhere(s: Store, sessions: map<string, AuthUser>, header: Option<string>, roles: seq<string>)
    requires Protect(s, sessions, header).Ok?
    requires var u := sessions[BearerToken(header).value]; u.id !in s.users && u.role.None?
    ensures Authorize(roles, Protect(s, sessions, header).value).Err?
  {
  }

  /** The role a caller is authorised with is the one in its `users` row when
      that row exists, whatever the sign-up metadata says. */
  lemma RowRoleWins(s: Store, u: AuthUser, roles: seq<string>)
    requires u.id in s.users
    ensures Authorize(roles, Attach(s, u)).Ok? <==> s.users[u.id].role in roles
  {
  }
}

=== FILE: common.dfy ===
/** Vocabulary shared by the schemas and controllers: row identifiers, the
    role names stored on users, and the listing categories. */
module Common {

  /** A row identifier in either store (a MongoDB ObjectId or a Supabase uuid). */
  type Id = string

  const STUDENT: string := "student"
  const CLIENT: string := "client"
  const ADMIN: string := "admin"

  /** The eight categories the job and service schemas enumerate. */
  const CATEGORIES: set<string> :=
    {"Development", "Design", "Writing", "Marketing", "Business", "Video & Animation", "AI Services", "Other"}

  predicate IsHexDigit(c: char) {
    ('0' <= c <= '9') || ('a' <= c <= 'f') || ('A' <= c <= 'F')
  }

  /** A string Mongoose casts to an ObjectId: 24 hexadecimal digits. Any other
      string given to an ObjectId path, or compared with one in a query, raises
      a CastError, which the handlers pass on to the error middleware (500). */
  predicate IsObjectId(id: Id) {
    |id| == 24 && forall i :: 0 <= i < |id| ==> IsHexDigit(id[i])
  }

  /** The shape of a Supabase auth id, which is what `req.user.id` always holds:
      a 36-character uuid with dashes after the 8th, 12th, 16th and 20th digit. */
  predicate IsUuid(id: Id) {
    && |id| == 36
    && id[8] == '-' && id[13] == '-' && id[18] == '-' && id[23] == '-'
    && forall i :: 0 <= i < |id| && i != 8 && i != 13 && i != 18 && i != 23 ==> IsHexDigit(id[i])
  }

  /** No uuid survives the ObjectId cast. */
  lemma UuidIsNotObjectId(id: Id)
    requires IsUuid(id)
    ensures !IsObjectId(id)
  {
  }
}

=== FILE: create_service_form.dfy ===
/** The service form of client/src/pages/CreateService.jsx: the field checks
    run before posting, the submit gate, and the clearing of a field's error
    when that field is edited. */
module CreateServiceForm {
  import opened Wrappers
  import opened Common
  import Text
  import ServiceModel

  const TITLE_MIN: nat := 5
  const TITLE_MAX: nat := 100
  const DESCRIPTION_MIN: nat := 20
  const DESCRIPTION_MAX: nat := 1000
  const DEFAULT_CATEGORY: string := "Development"

  const TITLE_SHORT := "Title must be at least 5 characters long."
  const TITLE_LONG := "Title cannot exceed 100 characters."
  const DESCRIPTION_SHORT := "Description must be at least 20 characters long."
  const DESCRIPTION_LONG := "Description cannot exceed 1000 characters."
  const PRICE_MESSAGE := "Price must be a positive number."
  const DELIVERY_MESSAGE := "Delivery time must be at least 1 day."

  /** The category options of the select, in their listed order. */
  const CATEGORY_OPTIONS: seq<string> :=
    ["Development", "Design", "Writing", "Marketing", "Business", "Video & Animation", "AI Services", "Other"]

  /** The form state. The number inputs are `None` while empty. */
  datatype Form = Form(title: string, description: string, category: string, price: Option<real>, deliveryTime: Option<real>)

  /** The message shown under each field, `None` when there is none. */
  datatype FieldErrors = FieldErrors(title: Option<string>, description: Option<string>, price: Option<string>, deliveryTime: Option<string>)

  const NO_ERRORS := FieldErrors(None, None, None, None)

  /** The whole page state: the form and the messages under its fields. */
  datatype Page = Page(form: Form, errors: FieldErrors)

  /** The page as it opens. */
  function Initial(): (p: Page)
    ensures p.form.category == DEFAULT_CATEGORY && p.form.category in CATEGORIES
    ensures p.form.title == "" && p.form.description == "" && p.form.price.None? && p.form.deliveryTime.None?
    ensures p.errors == NO_ERRORS
  {
    Page(Form("", "", DEFAULT_CATEGORY, None, None), NO_ERRORS)
  }

  /** A length check that reports a too-short and a too-long value differently;
      the too-long check runs second, so its message wins. The length is
      JavaScript's, in UTF-16 code units. */
  function LengthError(s: string, min: nat, max: nat, short: string, long: string): (e: Option<string>)
    ensures e.None? <==> min <= Text.Utf16Length(s) <= max
    ensures Text.Utf16Length(s) > max ==> e == Some(long)
    ensures Text.Utf16Length(s) < min && Text.Utf16Length(s) <= max ==> e == Some(short)
  {
    var n := Text.Utf16Length(s);
    if n > max then Some(long)
    else if n < min then Some(short)
    else None
  }

  /** A number input that is empty or not positive. */
  function PositiveError(v: Option<real>, message: string): (e: Option<string>)
    ensures e.None? <==> v.Some? && v.value > 0.0
    ensures e.Some? ==> e.value == message
  {
    if v.None? || v.value <= 0.0 then Some(message) else None
  }

  /** `validateForm`: one message per flagged field. */
  function Validate(f: Form): (e: FieldErrors)
    ensures e.title.None? <==> TITLE_MIN <= Text.Utf16Length(f.title) <= TITLE_MAX
    ensures e.description.None? <==> DESCRIPTION_MIN <= Text.Utf16Length(f.description) <= DESCRIPTION_MAX
    ensures e.price.None? <==> f.price.Some? && f.price.value > 0.0
    ensures e.deliveryTime.None? <==> f.deliveryTime.Some? && f.deliveryTime.value > 0.0
  {
    FieldErrors(
      LengthError(f.title, TITLE_MIN, TITLE_MAX, TITLE_SHORT, TITLE_LONG),
      LengthError(f.description, DESCRIPTION_MIN, DESCRIPTION_MAX, DESCRIPTION_SHORT, DESCRIPTION_LONG),
      PositiveError(f.price, PRICE_MESSAGE),
      PositiveError(f.deliveryTime, DELIVERY_MESSAGE))
  }

  /** The form passes `validateForm`. */
  predicate Valid(f: Form) {
    Validate(f) == NO_ERRORS
  }

  /** `handleSubmit`: the messages are replaced by the fresh check's, and the
      form is posted exactly when the check found nothing. */
  function Submit(p: Page): (r: (Page, Option<Form>))
    ensures r.0 == Page(p.form, Validate(p.form))
    ensures r.1.Some? <==> (
      && TITLE_MIN <= Text.Utf16Length(p.form.title) <= TITLE_MAX
      && DESCRIPTION_MIN <= Text.Utf16Length(p.form.description) <= DESCRIPTION_MAX
      && p.form.price.Some? && p.form.price.value > 0.0
      && p.form.deliveryTime.Some? && p.form.deliveryTime.value > 0.0)
    ensures r.1.Some? ==> r.1.value == p.form
  {
    var errors := Validate(p.form);
    (Page(p.form, errors), if errors == NO_ERRORS then Some(p.form) else None)
  }

  /** One change event on the page. */
  datatype Edit =
    | SetTitle(title: string)
    | SetDescription(description: string)
    | SetCategory(category: string)
    | SetPrice(price: Option<real>)
    | SetDeliveryTime(deliveryTime: Option<real>)

  /** A change event: the field takes the new value and only that field's
      message is cleared; choosing a category clears nothing. */
  function ApplyEdit(p: Page, e: Edit): (q: Page)
    ensures e.SetTitle? ==> q == Page(p.form.(title := e.title), p.errors.(title := None))
    ensures e.SetDescription? ==> q == Page(p.form.(description := e.description), p.errors.(description := None))
    ensures e.SetCategory? ==> q == Page(p.form.(category := e.category), p.errors)
    ensures e.SetPrice? ==> q == Page(p.form.(price := e.price), p.errors.(price := None))
    ensures e.SetDeliveryTime? ==> q == Page(p.form.(deliveryTime := e.deliveryTime), p.errors.(deliveryTime := None))
  {
    match e
    case SetTitle(t) =>
      Page(p.form.(title := t), if p.errors.title.Some? then p.errors.(title := None) else p.errors)
    case SetDescription(d) =>
      Page(p.form.(description := d), if p.errors.description.Some? then p.errors.(description := None) else p.errors)
    case SetCategory(c) =>
      Page(p.form.(category := c), p.errors)
    case SetPrice(v) =>
      Page(p.form.(price := v), if p.errors.price.Some? then p.errors.(price := None) else p.errors)
    case SetDeliveryTime(v) =>
      Page(p.form.(deliveryTime := v), if p.errors.deliveryTime.Some? then p.errors.(deliveryTime := None) else p.errors)
  }

  /** Editing never adds a message: every message after an edit was there before. */
  lemma EditOnlyClears(p: Page, e: Edit)
    ensures var q := ApplyEdit(p, e);
      && (q.errors.title.Some? ==> q.errors.title == p.errors.title)
      && (q.errors.description.Some? ==> q.errors.description == p.errors.description)
      && (q.errors.price.Some? ==> q.errors.price == p.errors.price)
      && (q.errors.deliveryTime.Some? ==> q.errors.deliveryTime == p.errors.deliveryTime)
  {
  }

  /** The page as it opens cannot be submitted, and submitting it flags all four fields. */
  lemma InitialNotPosted()
    ensures Submit(Initial()).1.None?
    ensures Submit(Initial()).0.errors == FieldErrors(Some(TITLE_SHORT), Some(DESCRIPTION_SHORT), Some(PRICE_MESSAGE), Some(DELIVERY_MESSAGE))
  {
  }

  /** Every category the select offers is one the service schema accepts. */
  lemma OptionsAreCategories()
    ensures forall i :: 0 <= i < |CATEGORY_OPTIONS| ==> CATEGORY_OPTIONS[i] in CATEGORIES
    ensures DEFAULT_CATEGORY in CATEGORY_OPTIONS
  {
  }

  /** The body the page posts, as the server sees its fields. */
  function Payload(f: Form): (input: ServiceModel.ServiceInput)
    ensures input.title == Some(f.title) && input.description == Some(f.description)
    ensures input.price == f.price && input.deliveryTime == f.deliveryTime
    ensures input.coverImage.None? && input.createdAt.None?
  {
    ServiceModel.ServiceInput(Some(f.title), Some(f.description), Some(f.category), f.price, f.deliveryTime, None, None)
  }

  /** A form that passes the page's checks, with a category from the select and
      a title that is not all white space, is a service the schema accepts. */
  lemma {:induction false} PostedFormAccepted(f: Form, freelancer: Id, now: int)
    requires Valid(f) && f.category in CATEGORIES
    requires !Text.AllSpace(f.title)
    ensures ServiceModel.Create(freelancer, Payload(f), now).Some?
  {
    var input := Payload(f);
    var t := Text.Trim(f.title);
    assert ServiceModel.TrimmedTitle(input) == Some(t);
    TitleFits(f);
    assert ServiceModel.RequiredText(Some(t));
    assert ServiceModel.RequiredText(input.description);
  }

  /** The page's length checks imply the schema's, for the trimmed title too. */
  lemma TitleFits(f: Form)
    requires Valid(f) && !Text.AllSpace(f.title)
    ensures Text.Trim(f.title) != "" && Text.Utf16Length(Text.Trim(f.title)) <= ServiceModel.TITLE_MAX
    ensures f.description != "" && Text.Utf16Length(f.description) <= ServiceModel.DESCRIPTION_MAX
  {
    var e := Validate(f);
    assert e.title.None? && e.description.None?;
    Text.Utf16LengthTrim(f.title);
  }

  /** The page checks the untrimmed length, so a title of five blanks passes
      it, and the schema then rejects the empty trimmed title. */
  lemma BlankTitlePassesPage()
    ensures var f := Form(FIVE_BLANKS, TWENTY_CHARACTERS, DEFAULT_CATEGORY, Some(1.0), Some(1.0));
      Valid(f) && ServiceModel.Create("u", Payload(f), 0).None?
  {
    SampleLengths();
  }

  const FIVE_BLANKS: string := "     "
  const TWENTY_CHARACTERS: string := "twenty characters!!!"

  /** Helper for BlankTitlePassesPage: the lengths of its two sample texts,
      kept apart so that the example's own proof stays small. */
  lemma SampleLengths()
    ensures Text.Utf16Length(FIVE_BLANKS) == 5 && Text.AllSpace(FIVE_BLANKS)
    ensures Text.Utf16Length(TWENTY_CHARACTERS) == 20
  {
    Text.Utf16LengthBmp(FIVE_BLANKS);
    Text.Utf16LengthBmp(TWENTY_CHARACTERS);
  }
}

=== FILE: edit_profile.dfy ===
/** The student part of client/src/pages/EditProfile.jsx: how a stored profile
    is turned into form text, and how the form text is turned back into the
    body posted to the profile endpoint. */
module EditProfile {
  import opened Wrappers
  import opened Common
  import Text
  import opened ProfileModel
  import Profiles
  import opened Store

  /** The title every parsed portfolio link is given. */
  const LINK_TITLE: string := "Project Link"

  /** The profile fields of the form, all as the text the inputs hold. */
  datatype Form = Form(title: string, bio: string, skills: string, portfolio: string, linkedin: string, github: string, website: string)

  const EMPTY_FORM := Form("", "", "", "", "", "", "")

  /** `x || ''` for an optional string. */
  function OrEmpty(x: Option<string>): (r: string)
    ensures x.Some? ==> r == x.value
    ensures x.None? ==> r == ""
  {
    if x.Some? then x.value else ""
  }

  function Urls(items: seq<PortfolioItem>): (r: seq<string>)
    ensures |r| == |items|
    ensures forall i :: 0 <= i < |items| ==> r[i] == items[i].url
  {
    if |items| == 0 then [] else [items[0].url] + Urls(items[1..])
  }

  /** Filling the form from a fetched profile: text fields as they are, the
      skills and the portfolio links joined with ", ". */
  function Load(p: Profile): (f: Form)
    ensures f.title == p.title && f.bio == p.bio
    ensures f.skills == Text.Join(p.skills, ", ")
    ensures f.portfolio == Text.Join(Urls(p.portfolio), ", ")
  {
    var socials := if p.socials.Some? then p.socials.value else Socials(None, None, None);
    Form(p.title, p.bio, Text.Join(p.skills, ", "), Text.Join(Urls(p.portfolio), ", "),
         OrEmpty(socials.linkedin), OrEmpty(socials.github), OrEmpty(socials.website))
  }

  /** The non-empty strings of `xs`, in order. */
  function NonEmpty(xs: seq<string>): (r: seq<string>)
    ensures |r| <= |xs|
    ensures forall i :: 0 <= i < |r| ==> r[i] != "" && r[i] in xs
    ensures (forall i :: 0 <= i < |xs| ==> xs[i] != "") ==> r == xs
  {
    if |xs| == 0 then []
    else if xs[0] == "" then NonEmpty(xs[1..])
    else [xs[0]] + NonEmpty(xs[1..])
  }

  /** Every non-empty string of `xs` is kept. */
  lemma {:induction false} NonEmptyKeeps(xs: seq<string>, i: nat)
    requires i < |xs| && xs[i] != ""
    ensures xs[i] in NonEmpty(xs)
  {
    if i > 0 {
      NonEmptyKeeps(xs[1..], i - 1);
    }
  }

  function Links(urls: seq<string>): (items: seq<PortfolioItem>)
    ensures Urls(items) == urls
    ensures forall i :: 0 <= i < |items| ==> items[i].title == LINK_TITLE
  {
    if |urls| == 0 then [] else [PortfolioItem(urls[0], LINK_TITLE)] + Links(urls[1..])
  }

  /** The portfolio text split on ',', blank pieces dropped, each remaining
      piece trimmed into a link titled "Project Link". */
  function ParsePortfolio(text: string): (items: seq<PortfolioItem>)
    ensures Urls(items) == NonEmpty(Text.TrimAll(Text.Split(text, ',')))
    ensures forall i :: 0 <= i < |items| ==>
      && items[i].title == LINK_TITLE && items[i].url != ""
      && Text.IsTrimmed(items[i].url) && ',' !in items[i].url
  {
    var pieces := Text.TrimAll(Text.Split(text, ','));
    PiecesClean(text);
    LinksKeepPieces(pieces);
    Links(NonEmpty(pieces))
  }

  /** The trimmed comma pieces of a text are trimmed and comma-free. */
  lemma PiecesClean(text: string)
    ensures var pieces := Text.TrimAll(Text.Split(text, ','));
      forall i :: 0 <= i < |pieces| ==> ',' !in pieces[i] && Text.IsTrimmed(pieces[i])
  {
    var pieces := Text.TrimAll(Text.Split(text, ','));
    forall i | 0 <= i < |pieces|
      ensures ',' !in pieces[i] && Text.IsTrimmed(pieces[i])
    {
      Profiles.TrimmedPieceHasNoComma(Text.Split(text, ',')[i]);
    }
  }

  /** Every link built from the non-empty pieces is one of the pieces. */
  lemma LinksKeepPieces(pieces: seq<string>)
    ensures var items := Links(NonEmpty(pieces));
      forall i :: 0 <= i < |items| ==> items[i].url in pieces && items[i].url != ""
  {
    var items := Links(NonEmpty(pieces));
    forall i | 0 <= i < |items|
      ensures items[i].url in pieces && items[i].url != ""
    {
      assert Urls(items)[i] == NonEmpty(pieces)[i];
    }
  }

  /** The body posted to the profile endpoint, sent only for a student. */
  function ProfilePayload(f: Form, role: Option<string>): (r: Option<Profiles.ProfileRequest>)
    ensures r.Some? <==> role == Some(STUDENT)
    ensures r.Some? ==>
      && r.value.title == Some(f.title) && r.value.bio == Some(f.bio)
      && r.value.skills == Some(Profiles.SkillsText(f.skills))
      && r.value.portfolio == Some(ParsePortfolio(f.portfolio))
  {
    if role == Some(STUDENT) then
      Some(Profiles.ProfileRequest(
        Some(f.title), Some(f.bio), Some(Profiles.SkillsText(f.skills)), Some(ParsePortfolio(f.portfolio)),
        Some(Socials(Some(f.linkedin), Some(f.github), Some(f.website)))))
    else None
  }

  /** Links that are non-empty, trimmed and comma-free survive being joined
      for the form and parsed back. */
  lemma PortfolioRoundTrip(urls: seq<string>)
    requires forall i :: 0 <= i < |urls| ==> urls[i] != "" && ',' !in urls[i] && Text.IsTrimmed(urls[i])
    ensures var items := ParsePortfolio(Text.Join(urls, ", "));
      |items| == |urls| && forall i :: 0 <= i < |urls| ==> items[i].url == urls[i]
  {
    var text := Text.Join(urls, ", ");
    PiecesOfJoin(urls);
    NonEmptyOfFull(urls);
    ParsedUrls(text);
  }

  lemma PiecesOfJoin(urls: seq<string>)
    requires forall i :: 0 <= i < |urls| ==> ',' !in urls[i] && Text.IsTrimmed(urls[i])
    ensures NonEmpty(Text.TrimAll(Text.Split(Text.Join(urls, ", "), ','))) == NonEmpty(urls)
  {
    if |urls| == 0 {
      assert Text.Split("", ',') == [""];
    } else {
      Text.TrimSplitJoin(urls);
    }
  }

  lemma NonEmptyOfFull(urls: seq<string>)
    requires forall i :: 0 <= i < |urls| ==> urls[i] != ""
    ensures NonEmpty(urls) == urls
  {
  }

  lemma ParsedUrls(text: string)
    ensures Urls(ParsePortfolio(text)) == NonEmpty(Text.TrimAll(Text.Split(text, ',')))
  {
  }

  /** Skills that are trimmed and comma-free survive the page's join and the
      server's split-and-trim. */
  lemma SkillsRoundTrip(skills: seq<string>)
    requires |skills| >= 1
    requires forall i :: 0 <= i < |skills| ==> ',' !in skills[i] && Text.IsTrimmed(skills[i])
    ensures Profiles.SkillList(Profiles.SkillsText(Text.Join(skills, ", "))) == skills
  {
    Text.TrimSplitJoin(skills);
  }

  /** The profile's text as the page can show it: a trimmed title, skills and
      links that are trimmed and comma-free, links that are non-empty. */
  predicate Presentable(p: Profile) {
    && Text.IsTrimmed(p.title)
    && (forall i :: 0 <= i < |p.skills| ==> ',' !in p.skills[i] && Text.IsTrimmed(p.skills[i]))
    && (forall i :: 0 <= i < |p.portfolio| ==>
         p.portfolio[i].url != "" && ',' !in p.portfolio[i].url && Text.IsTrimmed(p.portfolio[i].url))
  }

  /** The fields the server builds from the form a profile was loaded into:
      each one that is named carries the profile's own value back. */
  function LoadedFields(p: Profile): (f: ProfileFields)
    requires Presentable(p)
    ensures f.title.Some? ==> Text.Trim(f.title.value) == p.title
    ensures f.bio.Some? ==> f.bio.value == p.bio
    ensures f.skills.Some? ==> f.skills.value == p.skills
    ensures f.portfolio.Some? && |f.portfolio.value| == |p.portfolio|
    ensures forall i :: 0 <= i < |p.portfolio| ==>
      f.portfolio.value[i].url == p.portfolio[i].url && f.portfolio.value[i].title == LINK_TITLE
  {
    var f := Profiles.BuildProfileFields(ProfilePayload(Load(p), Some(STUDENT)).value);
    LoadedTitle(p);
    LoadedSkills(p);
    PortfolioRoundTrip(Urls(p.portfolio));
    f
  }

  lemma LoadedTitle(p: Profile)
    requires Text.IsTrimmed(p.title)
    ensures p.title != "" ==> Text.Trim(p.title) == p.title
  {
  }

  lemma LoadedSkills(p: Profile)
    requires forall i :: 0 <= i < |p.skills| ==> ',' !in p.skills[i] && Text.IsTrimmed(p.skills[i])
    ensures var sk := Text.Join(p.skills, ", ");
      sk != "" ==> Profiles.SkillList(Profiles.SkillsText(sk)) == p.skills
  {
    if |p.skills| > 0 {
      SkillsRoundTrip(p.skills);
    }
  }

  /** Saving the form a student's profile was loaded into, untouched, keeps
      the profile's title, bio, skills and link urls; the link titles are
      reset to "Project Link", and the links' descriptions, which the page
      does not post, are dropped by the replacing `$set`. The save lands exactly when the caller's id casts
      to an ObjectId. */
  lemma {:induction false} SaveLoadedKeepsContent(s: Store, caller: Principal, io: Io)
    requires caller.id in s.profiles && io.writeOk
    requires Presentable(s.profiles[caller.id])
    ensures var p := s.profiles[caller.id];
      var req := ProfilePayload(Load(p), Some(STUDENT)).value;
      var r := Profiles.UpdateProfile(s, caller, req, io).result;
      && (r.Ok? <==> IsObjectId(caller.id))
      && (r.Ok? ==> var q := r.value;
      && q.title == p.title && q.bio == p.bio && q.skills == p.skills
      && |q.portfolio| == |p.portfolio|
      && forall i :: 0 <= i < |p.portfolio| ==> q.portfolio[i].url == p.portfolio[i].url && q.portfolio[i].title == LINK_TITLE)
  {
    var p := s.profiles[caller.id];
    var req := ProfilePayload(Load(p), Some(STUDENT)).value;
    var f := LoadedFields(p);
    assert Profiles.BuildProfileFields(req) == f;
    if IsObjectId(caller.id) {
      var q := Merge(p, f);
      assert Profiles.UpdateProfile(s, caller, req, io).result.value == q;
    }
  }

  /** A student's first save with the skills box left empty sends no skills,
      and the profile is created with none. */
  lemma FirstSaveWithoutSkills(s: Store, caller: Principal, io: Io)
    requires IsObjectId(caller.id) && caller.id !in s.profiles && io.writeOk
    ensures var req := ProfilePayload(Form("Dev", "A bio", "", "", "", "", ""), Some(STUDENT)).value;
      var r := Profiles.UpdateProfile(s, caller, req, io).result;
      r.Ok? && r.value.title == "Dev" && r.value.bio == "A bio" && r.value.skills == []
  {
    var req := ProfilePayload(Form("Dev", "A bio", "", "", "", "", ""), Some(STUDENT)).value;
    var f := Profiles.BuildProfileFields(req);
    EmptySkillsLeftOut(req);
    DevProfileCreated(f);
  }

  /** The request the page posts for that form: title and bio as typed, and no
      skills once the server has read the empty text. */
  lemma EmptySkillsLeftOut(req: Profiles.ProfileRequest)
    requires req.title == Some("Dev") && req.bio == Some("A bio") && req.skills == Some(Profiles.SkillsText(""))
    ensures var f := Profiles.BuildProfileFields(req);
      f.title == Some("Dev") && f.bio == Some("A bio") && f.skills.None?
  {
  }

  /** A new profile from those fields is accepted, with no skills. */
  lemma DevProfileCreated(f: ProfileFields)
    requires f.title == Some("Dev") && f.bio == Some("A bio") && f.skills.None?
    ensures Create(f).Some? && Create(f).value.title == "Dev" && Create(f).value.bio == "A bio" && Create(f).value.skills == []
  {
    assert Text.IsTrimmed("Dev");
  }
}

=== FILE: job_model.dfy ===
/** The job document of server/src/models/Job.js. The job controller writes the
    Supabase `jobs` table directly, so these rules are a validity predicate. */
module JobModel {
  import opened Wrappers
  import opened Common
  import Text

  const TITLE_MAX: nat := 100
  const DESCRIPTION_MAX: nat := 2000
  const STATUSES: set<string> := {"open", "assigned", "completed", "cancelled"}
  const DEFAULT_STATUS: string := "open"

  datatype Job = Job(
    client: Id,
    title: string,
    description: string,
    category: string,
    budget: real,
    deadline: int,
    status: string,
    assignedFreelancer: Option<Id>,
    createdAt: int)

  /** What the schema admits: a non-blank title of at most 100 UTF-16 units
      after trimming, a non-empty description of at most 2000, a listed category
      and a listed status. Budget and deadline are required and always present here. */
  predicate Valid(j: Job) {
    && Text.Trim(j.title) != ""
    && Text.Utf16Length(Text.Trim(j.title)) <= TITLE_MAX
    && j.description != ""
    && Text.Utf16Length(j.description) <= DESCRIPTION_MAX
    && j.category in CATEGORIES
    && j.status in STATUSES
  }
}

=== FILE: jobs.dfy ===
/** server/src/controllers/jobController.js */
module Jobs {
  import opened Wrappers
  import opened Common
  import opened Store
  import opened JobModel
  import Text
  import Query

  /** The query string of GET /api/jobs; `None` is a parameter left out. */
  datatype JobQuery = JobQuery(keyword: Option<string>, category: Option<string>, status: Option<string>)

  /** The body of POST /api/jobs. */
  datatype JobInput = JobInput(title: string, description: string, category: string, budget: real, deadline: int)

  /** The body of PUT /api/jobs/:id: every column it names is written,
      `created_at` included. `unknownColumns` says the body also names a key
      that is not a column of the table. */
  datatype JobPatch = JobPatch(
    client: Option<Id>,
    title: Option<string>,
    description: Option<string>,
    category: Option<string>,
    budget: Option<real>,
    deadline: Option<int>,
    status: Option<string>,
    assignedFreelancer: Option<Id>,
    createdAt: Option<int>,
    unknownColumns: bool)

  /** A body that names no column. */
  const EMPTY_PATCH: JobPatch := JobPatch(None, None, None, None, None, None, None, None, None, false)

  /** The owner of a job, or an admin. */
  predicate MayManage(p: Principal, j: Job) {
    j.client == p.id || HasRole(p, ADMIN)
  }

  /** The status a listing asks for: the given one, or open when none is given. */
  function WantedStatus(q: JobQuery): (st: string)
    ensures Truthy(q.status) ==> st == q.status.value
    ensures !Truthy(q.status) ==> st == DEFAULT_STATUS
  {
    if Truthy(q.status) then q.status.value else DEFAULT_STATUS
  }

  /** The filters `getJobs` chains: title `ilike %keyword%`, category equality
      and status equality, each keyword or category applied only when given. */
  predicate Matches(q: JobQuery, j: Job) {
    && (Truthy(q.keyword) ==> Text.ContainsIgnoreCase(j.title, q.keyword.value))
    && (Truthy(q.category) ==> j.category == q.category.value)
    && j.status == WantedStatus(q)
  }

  /** GET /api/jobs */
  method GetJobs(s: Store, q: JobQuery) returns (ids: seq<Id>)
    ensures Query.Distinct(ids)
    ensures forall k :: k in ids <==> k in s.jobs && Matches(q, s.jobs[k])
    ensures !Truthy(q.status) ==> forall k :: k in ids ==> s.jobs[k].status == "open"
    ensures Truthy(q.category) ==> forall k :: k in ids ==> s.jobs[k].category == q.category.value
  {
    ids := Query.Select(s.jobs, (j: Job) => Matches(q, j));
  }

  /** GET /api/jobs/:id */
  function GetJob(s: Store, id: Id): (r: Result<Job>)
    ensures r.Ok? <==> id in s.jobs
    ensures r.Ok? ==> r.value == s.jobs[id]
    ensures r.Err? ==> r.error == NotFound("Job not found")
  {
    if id in s.jobs then Ok(s.jobs[id]) else Err(NotFound("Job not found"))
  }

  /** POST /api/jobs: clients and admins only; the caller becomes the owner and
      the table fills in the open status. */
  function CreateJob(s: Store, p: Principal, input: JobInput, io: Io): (r: Response<Job>)
    requires io.rowId !in s.jobs
    ensures !HasRole(p, CLIENT) && !HasRole(p, ADMIN) ==> r == Response(s, Err(Forbidden("Only clients can post jobs")))
    ensures r.result.Ok? <==> (HasRole(p, CLIENT) || HasRole(p, ADMIN)) && io.writeOk
    ensures r.result.Err? ==> r.store == s
    ensures r.result.Ok? ==>
      && r.result.value.client == p.id
      && r.result.value.status == DEFAULT_STATUS
      && r.result.value.assignedFreelancer.None?
      && r.result.value.title == input.title && r.result.value.description == input.description
      && r.result.value.category == input.category && r.result.value.budget == input.budget
      && r.result.value.deadline == input.deadline && r.result.value.createdAt == io.now
      && r.store == s.(jobs := s.jobs[io.rowId := r.result.value])
  {
    if !HasRole(p, CLIENT) && !HasRole(p, ADMIN) then Response(s, Err(Forbidden("Only clients can post jobs")))
    else if !io.writeOk then Response(s, Err(ServerError))
    else
      var j := Job(p.id, input.title, input.description, input.category, input.budget, input.deadline, DEFAULT_STATUS, None, io.now);
      Response(s.(jobs := s.jobs[io.rowId := j]), Ok(j))
  }

  /** The handler does not validate: the row it stores obeys the job schema
      exactly when the body did. */
  lemma CreatedJobValidIffInputValid(s: Store, p: Principal, input: JobInput, io: Io)
    requires io.rowId !in s.jobs
    requires CreateJob(s, p, input, io).result.Ok?
    ensures Valid(CreateJob(s, p, input, io).result.value) <==>
      && Text.Trim(input.title) != "" && Text.Utf16Length(Text.Trim(input.title)) <= TITLE_MAX
      && input.description != "" && Text.Utf16Length(input.description) <= DESCRIPTION_MAX
      && input.category in CATEGORIES
  {
  }

  /** `update(req.body)`: each named column is overwritten, the others kept. */
  function ApplyPatch(j: Job, d: JobPatch): (k: Job)
    ensures k.client == d.client.GetOr(j.client)
    ensures k.title == d.title.GetOr(j.title)
    ensures k.description == d.description.GetOr(j.description)
    ensures k.category == d.category.GetOr(j.category)
    ensures k.budget == d.budget.GetOr(j.budget)
    ensures k.deadline == d.deadline.GetOr(j.deadline)
    ensures k.status == d.status.GetOr(j.status)
    ensures k.assignedFreelancer == (if d.assignedFreelancer.Some? then d.assignedFreelancer else j.assignedFreelancer)
    ensures k.createdAt == d.createdAt.GetOr(j.createdAt)
  {
    Job(d.client.GetOr(j.client), d.title.GetOr(j.title), d.description.GetOr(j.description),
      d.category.GetOr(j.category), d.budget.GetOr(j.budget), d.deadline.GetOr(j.deadline),
      d.status.GetOr(j.status),
      if d.assignedFreelancer.Some? then d.assignedFreelancer else j.assignedFreelancer,
      d.createdAt.GetOr(j.createdAt))
  }

  /** The empty patch changes nothing. */
  lemma EmptyPatchIdentity(j: Job)
    ensures ApplyPatch(j, EMPTY_PATCH) == j
  {
  }

  /** PUT /api/jobs/:id: owner or admin; the body is written as it is. A key
      that is not a column makes the update fail, which answers 500. */
  function UpdateJob(s: Store, p: Principal, id: Id, d: JobPatch, io: Io): (r: Response<Job>)
    ensures id !in s.jobs ==> r == Response(s, Err(NotFound("Job not found")))
    ensures id in s.jobs && !MayManage(p, s.jobs[id]) ==> r == Response(s, Err(Unauthorized("Not authorized")))
    ensures r.result.Ok? <==> id in s.jobs && MayManage(p, s.jobs[id]) && !d.unknownColumns && io.writeOk
    ensures r.result.Err? ==> r.store == s
    ensures r.result.Ok? ==> r.result.value == ApplyPatch(s.jobs[id], d) && r.store == s.(jobs := s.jobs[id := r.result.value])
  {
    if id !in s.jobs then Response(s, Err(NotFound("Job not found")))
    else if !MayManage(p, s.jobs[id]) then Response(s, Err(Unauthorized("Not authorized")))
    else if d.unknownColumns || !io.writeOk then Response(s, Err(ServerError))
    else
      var k := ApplyPatch(s.jobs[id], d);
      Response(s.(jobs := s.jobs[id := k]), Ok(k))
  }

  /** The update is not validated: the owner can write a status the schema does not list. */
  lemma UpdateCanBreakValidity(s: Store, p: Principal, id: Id, io: Io)
    requires id in s.jobs && s.jobs[id].client == p.id && io.writeOk
    ensures UpdateJob(s, p, id, EMPTY_PATCH.(status := Some("closed")), io).result.Ok?
    ensures !Valid(UpdateJob(s, p, id, EMPTY_PATCH.(status := Some("closed")), io).result.value)
  {
    assert "closed" !in STATUSES;
  }

  /** A created job reads back as stored. */
  lemma CreateThenGetJob(s: Store, p: Principal, input: JobInput, io: Io)
    requires io.rowId !in s.jobs
    requires CreateJob(s, p, input, io).result.Ok?
    ensures GetJob(CreateJob(s, p, input, io).store, io.rowId) == CreateJob(s, p, input, io).result
  {
  }

  /** An updated job reads back as the patched job. */
  lemma UpdateThenGetJob(s: Store, p: Principal, id: Id, d: JobPatch, io: Io)
    requires UpdateJob(s, p, id, d, io).result.Ok?
    ensures GetJob(UpdateJob(s, p, id, d, io).store, id) == Ok(ApplyPatch(s.jobs[id], d))
  {
  }

  /** A deleted job is gone, and every other job reads back unchanged. */
  lemma DeleteThenGetJob(s: Store, p: Principal, id: Id, io: Io, other: Id)
    requires DeleteJob(s, p, id, io).result.Ok? && other != id
    ensures GetJob(DeleteJob(s, p, id, io).store, id) == Err(NotFound("Job not found"))
    ensures GetJob(DeleteJob(s, p, id, io).store, other) == GetJob(s, other)
  {
  }

  /** DELETE /api/jobs/:id: owner or admin; exactly the one job goes. */
  function DeleteJob(s: Store, p: Principal, id: Id, io: Io): (r: Response<()>)
    ensures id !in s.jobs ==> r == Response(s, Err(NotFound("Job not found")))
    ensures id in s.jobs && !MayManage(p, s.jobs[id]) ==> r == Response(s, Err(Unauthorized("Not authorized")))
    ensures r.result.Ok? <==> id in s.jobs && MayManage(p, s.jobs[id]) && io.writeOk
    ensures r.result.Err? ==> r.store == s
    ensures r.result.Ok? ==>
      && r.store.(jobs := s.jobs) == s
      && r.store.jobs.Keys == s.jobs.Keys - {id}
      && forall k :: k in r.store.jobs ==> r.store.jobs[k] == s.jobs[k]
  {
    if id !in s.jobs then Response(s, Err(NotFound("Job not found")))
    else if !MayManage(p, s.jobs[id]) then Response(s, Err(Unauthorized("Not authorized")))
    else if !io.writeOk then Response(s, Err(ServerError))
    else Response(s.(jobs := s.jobs - {id}), Ok(()))
  }
}

=== FILE: messages.dfy ===
/** server/src/controllers/messageController.js */
module Messages {
  import opened Wrappers
  import opened Common
  import opened Store
  import Notifications
  import Query
  import Text

  /** The body of POST /api/messages. */
  datatype MessageRequest = MessageRequest(receiver: Id, content: string)

  /** How much of the content the notification quotes. */
  const PREVIEW_LENGTH: nat := 30

  /** POST /api/messages: the caller is the sender; the receiver is notified
      with the first 30 characters of the content. */
  function SendMessage(s: Store, p: Principal, req: MessageRequest, io: Io): (r: Response<Message>)
    requires io.rowId !in s.messages && io.noteId !in s.notifications
    ensures r.result.Ok? <==> io.writeOk
    ensures r.result.Err? ==> r.store == s && r.result.error == ServerError
    ensures r.result.Ok? ==>
      && r.result.value.sender == p.id && r.result.value.receiver == req.receiver && r.result.value.content == req.content
      && r.store.messages == s.messages[io.rowId := r.result.value]
    ensures r.result.Ok? && io.notifyOk ==> io.noteId in r.store.notifications
    ensures r.result.Ok? && io.notifyOk ==>
      var n := r.store.notifications[io.noteId];
      && n.user == req.receiver && n.sender == Some(p.id) && !n.isRead
      && n.notice.NewMessage? && |n.notice.preview| <= PREVIEW_LENGTH && n.notice.preview <= req.content
      && n.notice.preview == Text.Prefix(req.content, PREVIEW_LENGTH) && n.notice.senderName == p.name
    ensures r.store.users == s.users && r.store.jobs == s.jobs && r.store.orders == s.orders
    ensures r.store.(messages := s.messages, notifications := s.notifications) == s
    ensures r.result.Ok? ==>
      r.store.notifications ==
        if io.notifyOk then s.notifications[io.noteId :=
          Notification(req.receiver, Some(p.id), "message", NewMessage(p.name, Text.Prefix(req.content, PREVIEW_LENGTH)), "/messages", false, io.now)]
        else s.notifications
  {
    if !io.writeOk then Response(s, Err(ServerError))
    else
      var m := Message(p.id, req.receiver, req.content, io.now);
      var s1 := s.(messages := s.messages[io.rowId := m]);
      var notice := NewMessage(p.name, Text.Prefix(req.content, PREVIEW_LENGTH));
      Response(Notifications.CreateNotification(s1, req.receiver, Some(p.id), "message", notice, "/messages", io), Ok(m))
  }

  /** The preview of a short message is the whole message. */
  lemma ShortMessageQuotedWhole(s: Store, p: Principal, req: MessageRequest, io: Io)
    requires io.rowId !in s.messages && io.noteId !in s.notifications
    requires io.writeOk && io.notifyOk && |req.content| <= PREVIEW_LENGTH
    ensures SendMessage(s, p, req, io).store.notifications[io.noteId].notice.preview == req.content
  {
  }

  /** The message was sent by one of the two users to the other. */
  predicate Between(m: Message, a: Id, b: Id) {
    (m.sender == a && m.receiver == b) || (m.sender == b && m.receiver == a)
  }

  /** GET /api/messages/:userId: the conversation with one peer, oldest first. */
  method GetMessages(s: Store, p: Principal, peer: Id) returns (ids: seq<Id>)
    ensures Query.Distinct(ids)
    ensures forall k :: k in ids <==> k in s.messages && Between(s.messages[k], p.id, peer)
    ensures forall i, j :: 0 <= i < j < |ids| ==> s.messages[ids[i]].createdAt <= s.messages[ids[j]].createdAt
  {
    ids := Query.SelectOrdered(s.messages, (m: Message) => Between(m, p.id, peer), (m: Message) => m.createdAt);
  }

  /** A sent message belongs to the conversation GET /api/messages/:userId
      reads, from either side, and every other message keeps its place in
      whatever conversation it was in. */
  lemma SentMessageListed(s: Store, p: Principal, req: MessageRequest, io: Io)
    requires io.rowId !in s.messages && io.noteId !in s.notifications && io.writeOk
    ensures var t := SendMessage(s, p, req, io).store;
      && io.rowId in t.messages
      && Between(t.messages[io.rowId], p.id, req.receiver) && Between(t.messages[io.rowId], req.receiver, p.id)
      && t.messages.Keys == s.messages.Keys + {io.rowId}
      && forall k :: k in s.messages ==> t.messages[k] == s.messages[k]
  {
  }

  /** The caller sent or received the message. */
  predicate Involves(m: Message, me: Id) {
    m.sender == me || m.receiver == me
  }

  /** The other party of a message, from the caller's side. */
  function PeerOf(m: Message, me: Id): Id {
    if m.sender == me then m.receiver else m.sender
  }

  /** One entry of the conversation list: the peer, their user row, and the
      message shown as the latest. */
  datatype Conversation = Conversation(peer: Id, user: User, lastMessage: Id)

  /** The caller's messages as the conversation query lists them: each once,
      exactly those involving the caller, newest first. */
  ghost predicate NewestFirst(s: Store, me: Id, ids: seq<Id>) {
    && (forall k :: k in ids <==> k in s.messages && Involves(s.messages[k], me))
    && (forall a, b :: 0 <= a < b < |ids| ==> s.messages[ids[a]].createdAt >= s.messages[ids[b]].createdAt)
  }

  /** The peer of each listed message, position by position. */
  ghost predicate PeersOf(s: Store, me: Id, ids: seq<Id>, ps: seq<Id>) {
    && |ps| == |ids|
    && (forall k :: k in ids ==> k in s.messages)
    && (forall j :: 0 <= j < |ids| ==> ps[j] == PeerOf(s.messages[ids[j]], me))
  }

  /** The grouping after the first `i` peers: `firsts[t]` is the position of the
      message kept for entry `t`, no earlier position has that entry's peer,
      and every peer seen so far that has a user row has an entry. */
  ghost predicate FirstPerPeer(users: map<Id, User>, ps: seq<Id>, ids: seq<Id>, i: nat, convs: seq<Conversation>, firsts: seq<nat>) {
    && |ps| == |ids| && i <= |ps|
    && |firsts| == |convs|
    && PeersDistinct(convs)
    && EntriesFrom(users, ps, ids, i, convs, firsts)
    && NoEarlierPeer(ps, convs, firsts)
    && PeersCovered(users, ps, i, convs)
  }

  ghost predicate PeersDistinct(convs: seq<Conversation>) {
    forall a, b :: 0 <= a < b < |convs| ==> convs[a].peer != convs[b].peer
  }

  ghost predicate EntriesFrom(users: map<Id, User>, ps: seq<Id>, ids: seq<Id>, i: nat, convs: seq<Conversation>, firsts: seq<nat>)
    requires |ps| == |ids| && i <= |ps| && |firsts| == |convs|
  {
    forall t :: 0 <= t < |convs| ==>
      && firsts[t] < i && ids[firsts[t]] == convs[t].lastMessage && ps[firsts[t]] == convs[t].peer
      && convs[t].peer in users && convs[t].user == users[convs[t].peer]
  }

  ghost predicate NoEarlierPeer(ps: seq<Id>, convs: seq<Conversation>, firsts: seq<nat>)
    requires |firsts| == |convs|
  {
    forall t, j :: 0 <= t < |convs| && 0 <= j < firsts[t] && j < |ps| ==> ps[j] != convs[t].peer
  }

  ghost predicate PeersCovered(users: map<Id, User>, ps: seq<Id>, i: nat, convs: seq<Conversation>)
    requires i <= |ps|
  {
    forall j :: 0 <= j < i && ps[j] in users ==> exists t :: 0 <= t < |convs| && convs[t].peer == ps[j]
  }

  /** A peer without a user row, or with an entry already, is passed over. */
  lemma GroupSkip(users: map<Id, User>, ps: seq<Id>, ids: seq<Id>, i: nat, convs: seq<Conversation>, firsts: seq<nat>)
    requires i < |ps| && FirstPerPeer(users, ps, ids, i, convs, firsts)
    requires ps[i] in users ==> exists t :: 0 <= t < |convs| && convs[t].peer == ps[i]
    ensures FirstPerPeer(users, ps, ids, i + 1, convs, firsts)
  {
  }

  lemma AddKeepsDistinct(convs: seq<Conversation>, c: Conversation)
    requires PeersDistinct(convs)
    requires forall t :: 0 <= t < |convs| ==> convs[t].peer != c.peer
    ensures PeersDistinct(convs + [c])
  {
  }

  lemma AddKeepsEntries(users: map<Id, User>, ps: seq<Id>, ids: seq<Id>, i: nat, convs: seq<Conversation>, firsts: seq<nat>)
    requires |ps| == |ids| && i < |ps| && |firsts| == |convs|
    requires EntriesFrom(users, ps, ids, i, convs, firsts)
    requires ps[i] in users
    ensures EntriesFrom(users, ps, ids, i + 1, convs + [Conversation(ps[i], users[ps[i]], ids[i])], firsts + [i])
  {
  }

  lemma AddKeepsNoEarlier(users: map<Id, User>, ps: seq<Id>, ids: seq<Id>, i: nat, convs: seq<Conversation>, firsts: seq<nat>)
    requires |ps| == |ids| && i < |ps| && |firsts| == |convs|
    requires NoEarlierPeer(ps, convs, firsts)
    requires PeersCovered(users, ps, i, convs)
    requires ps[i] in users
    requires forall t :: 0 <= t < |convs| ==> convs[t].peer != ps[i]
    ensures NoEarlierPeer(ps, convs + [Conversation(ps[i], users[ps[i]], ids[i])], firsts + [i])
  {
    var n := |convs|;
    var convs' := convs + [Conversation(ps[i], users[ps[i]], ids[i])];
    var firsts' := firsts + [i];
    forall t, j | 0 <= t < |convs'| && 0 <= j < firsts'[t] && j < |ps|
      ensures ps[j] != convs'[t].peer
    {
      if t < n {
        assert convs'[t] == convs[t] && firsts'[t] == firsts[t];
      } else if ps[j] in users {
        var u :| 0 <= u < n && convs[u].peer == ps[j];
        assert convs[u].peer != ps[i];
      }
    }
  }

  lemma AddKeepsCovered(users: map<Id, User>, ps: seq<Id>, i: nat, convs: seq<Conversation>, c: Conversation)
    requires i < |ps|
    requires PeersCovered(users, ps, i, convs)
    requires c.peer == ps[i]
    ensures PeersCovered(users, ps, i + 1, convs + [c])
  {
    var n := |convs|;
    var convs' := convs + [c];
    forall j | 0 <= j < i + 1 && ps[j] in users
      ensures exists t :: 0 <= t < |convs'| && convs'[t].peer == ps[j]
    {
      if j == i {
        assert convs'[n].peer == ps[i];
      } else {
        var t :| 0 <= t < n && convs[t].peer == ps[j];
        assert convs'[t].peer == ps[j];
      }
    }
  }

  /** A new peer with a user row opens that peer's entry. */
  lemma GroupAdd(users: map<Id, User>, ps: seq<Id>, ids: seq<Id>, i: nat, convs: seq<Conversation>, firsts: seq<nat>)
    requires i < |ps| && FirstPerPeer(users, ps, ids, i, convs, firsts)
    requires ps[i] in users
    requires forall t :: 0 <= t < |convs| ==> convs[t].peer != ps[i]
    ensures FirstPerPeer(users, ps, ids, i + 1, convs + [Conversation(ps[i], users[ps[i]], ids[i])], firsts + [i])
  {
    var c := Conversation(ps[i], users[ps[i]], ids[i]);
    AddKeepsDistinct(convs, c);
    AddKeepsEntries(users, ps, ids, i, convs, firsts);
    AddKeepsNoEarlier(users, ps, ids, i, convs, firsts);
    AddKeepsCovered(users, ps, i, convs, c);
  }

  /** The message kept for a peer is the latest one with that peer. */
  lemma KeptIsLatest(s: Store, me: Id, ids: seq<Id>, ps: seq<Id>, convs: seq<Conversation>, firsts: seq<nat>)
    requires NewestFirst(s, me, ids) && PeersOf(s, me, ids, ps)
    requires FirstPerPeer(s.users, ps, ids, |ids|, convs, firsts)
    ensures forall c, k :: c in convs && k in s.messages && Involves(s.messages[k], me) && PeerOf(s.messages[k], me) == c.peer ==>
      s.messages[k].createdAt <= s.messages[c.lastMessage].createdAt
  {
    forall c, k | c in convs && k in s.messages && Involves(s.messages[k], me) && PeerOf(s.messages[k], me) == c.peer
      ensures s.messages[k].createdAt <= s.messages[c.lastMessage].createdAt
    {
      var t :| 0 <= t < |convs| && convs[t] == c;
      var j :| 0 <= j < |ids| && ids[j] == k;
      assert ps[j] == c.peer;
      KeptIsLatestAt(s, me, ids, ps, convs, firsts, t, j);
    }
  }

  /** One listed message with an entry's peer is no later than the entry's. */
  lemma KeptIsLatestAt(s: Store, me: Id, ids: seq<Id>, ps: seq<Id>, convs: seq<Conversation>, firsts: seq<nat>, t: nat, j: nat)
    requires NewestFirst(s, me, ids) && PeersOf(s, me, ids, ps)
    requires FirstPerPeer(s.users, ps, ids, |ids|, convs, firsts)
    requires t < |convs| && j < |ids| && ps[j] == convs[t].peer
    ensures s.messages[ids[j]].createdAt <= s.messages[convs[t].lastMessage].createdAt
  {
    assert firsts[t] <= j;
    assert ids[firsts[t]] == convs[t].lastMessage;
    if firsts[t] < j {
      assert s.messages[ids[firsts[t]]].createdAt >= s.messages[ids[j]].createdAt;
    }
  }

  /** Every peer with a user row gets an entry. */
  lemma EveryPeerListed(s: Store, me: Id, ids: seq<Id>, ps: seq<Id>, convs: seq<Conversation>, firsts: seq<nat>)
    requires NewestFirst(s, me, ids) && PeersOf(s, me, ids, ps)
    requires FirstPerPeer(s.users, ps, ids, |ids|, convs, firsts)
    ensures forall k :: k in s.messages && Involves(s.messages[k], me) && PeerOf(s.messages[k], me) in s.users ==>
      exists c :: c in convs && c.peer == PeerOf(s.messages[k], me)
  {
    forall k | k in s.messages && Involves(s.messages[k], me) && PeerOf(s.messages[k], me) in s.users
      ensures exists c :: c in convs && c.peer == PeerOf(s.messages[k], me)
    {
      var j :| 0 <= j < |ids| && ids[j] == k;
      assert ps[j] in s.users;
      var t :| 0 <= t < |convs| && convs[t].peer == ps[j];
      assert convs[t] in convs;
    }
  }

  /** The entries name distinct peers, each with its user row and a message
      exchanged with that peer. */
  lemma EntriesWellFormed(s: Store, me: Id, ids: seq<Id>, ps: seq<Id>, convs: seq<Conversation>, firsts: seq<nat>)
    requires NewestFirst(s, me, ids) && PeersOf(s, me, ids, ps)
    requires FirstPerPeer(s.users, ps, ids, |ids|, convs, firsts)
    ensures forall a, b :: 0 <= a < b < |convs| ==> convs[a].peer != convs[b].peer
    ensures forall c :: c in convs ==>
      && c.peer in s.users && c.user == s.users[c.peer]
      && c.lastMessage in s.messages
      && Involves(s.messages[c.lastMessage], me) && PeerOf(s.messages[c.lastMessage], me) == c.peer
  {
    forall c | c in convs
      ensures c.lastMessage in s.messages && Involves(s.messages[c.lastMessage], me)
      ensures PeerOf(s.messages[c.lastMessage], me) == c.peer
    {
      var t :| 0 <= t < |convs| && convs[t] == c;
      assert ids[firsts[t]] in ids;
    }
  }

  /** The grouping loop over the listed messages: first message per peer wins. */
  method GroupByPeer(users: map<Id, User>, ps: seq<Id>, ids: seq<Id>) returns (convs: seq<Conversation>, ghost firsts: seq<nat>)
    requires |ps| == |ids|
    ensures FirstPerPeer(users, ps, ids, |ids|, convs, firsts)
    ensures forall a, b :: 0 <= a < b < |convs| ==> convs[a].peer != convs[b].peer
    ensures forall t :: 0 <= t < |convs| ==>
      convs[t].peer in users && convs[t].user == users[convs[t].peer] && convs[t].lastMessage in ids
    ensures forall j :: 0 <= j < |ps| && ps[j] in users ==> exists t :: 0 <= t < |convs| && convs[t].peer == ps[j]
  {
    convs := [];
    firsts := [];
    var i := 0;
    while i < |ids|
      invariant 0 <= i <= |ids|
      invariant FirstPerPeer(users, ps, ids, i, convs, firsts)
    {
      convs, firsts := GroupStep(users, ps, ids, i, convs, firsts);
      i := i + 1;
    }
    GroupedFacts(users, ps, ids, convs, firsts);
  }

  /** One turn of the loop: the message at position `i` opens a conversation
      when its peer has a user row and no entry yet, and is skipped otherwise. */
  method GroupStep(users: map<Id, User>, ps: seq<Id>, ids: seq<Id>, i: nat, convs: seq<Conversation>, ghost firsts: seq<nat>)
    returns (convs': seq<Conversation>, ghost firsts': seq<nat>)
    requires i < |ps| && FirstPerPeer(users, ps, ids, i, convs, firsts)
    ensures FirstPerPeer(users, ps, ids, i + 1, convs', firsts')
    ensures convs' == convs || (ps[i] in users && convs' == convs + [Conversation(ps[i], users[ps[i]], ids[i])])
  {
    var peer := ps[i];
    if peer in users && !(exists t | 0 <= t < |convs| :: convs[t].peer == peer) {
      GroupAdd(users, ps, ids, i, convs, firsts);
      convs' := convs + [Conversation(peer, users[peer], ids[i])];
      firsts' := firsts + [i];
    } else {
      GroupSkip(users, ps, ids, i, convs, firsts);
      convs', firsts' := convs, firsts;
    }
  }

  /** What the finished grouping gives: distinct peers, each entry a listed
      message with its peer's user row, and an entry for every such peer. */
  lemma GroupedFacts(users: map<Id, User>, ps: seq<Id>, ids: seq<Id>, convs: seq<Conversation>, firsts: seq<nat>)
    requires FirstPerPeer(users, ps, ids, |ids|, convs, firsts)
    ensures forall a, b :: 0 <= a < b < |convs| ==> convs[a].peer != convs[b].peer
    ensures forall t :: 0 <= t < |convs| ==>
      convs[t].peer in users && convs[t].user == users[convs[t].peer] && convs[t].lastMessage in ids
    ensures forall j :: 0 <= j < |ps| && ps[j] in users ==> exists t :: 0 <= t < |convs| && convs[t].peer == ps[j]
  {
    forall t | 0 <= t < |convs|
      ensures convs[t].lastMessage in ids
    {
      assert ids[firsts[t]] == convs[t].lastMessage;
    }
  }

  /** GET /api/messages/conversations: the caller's messages newest first,
      grouped by peer, the first message seen for a peer kept. Messages whose
      peer has no user row are skipped. */
  method GetConversations(s: Store, p: Principal) returns (convs: seq<Conversation>)
    ensures forall a, b :: 0 <= a < b < |convs| ==> convs[a].peer != convs[b].peer
    ensures forall c :: c in convs ==>
      && c.peer in s.users && c.user == s.users[c.peer]
      && c.lastMessage in s.messages
      && Involves(s.messages[c.lastMessage], p.id) && PeerOf(s.messages[c.lastMessage], p.id) == c.peer
    ensures forall k :: k in s.messages && Involves(s.messages[k], p.id) && PeerOf(s.messages[k], p.id) in s.users ==>
      exists c :: c in convs && c.peer == PeerOf(s.messages[k], p.id)
    ensures forall c, k :: c in convs && k in s.messages && Involves(s.messages[k], p.id) && PeerOf(s.messages[k], p.id) == c.peer ==>
      s.messages[k].createdAt <= s.messages[c.lastMessage].createdAt
  {
    var ids := Query.SelectOrdered(s.messages, (m: Message) => Involves(m, p.id), (m: Message) => -m.createdAt);
    assert NewestFirst(s, p.id, ids);
    var ps := seq(|ids|, j requires 0 <= j < |ids| => PeerOf(s.messages[ids[j]], p.id));
    assert PeersOf(s, p.id, ids, ps);
    ghost var firsts;
    convs, firsts := GroupByPeer(s.users, ps, ids);
    EntriesWellFormed(s, p.id, ids, ps, convs, firsts);
    KeptIsLatest(s, p.id, ids, ps, convs, firsts);
    EveryPeerListed(s, p.id, ids, ps, convs, firsts);
  }
}

=== FILE: notifications.dfy ===
/** server/src/controllers/notificationController.js */
module Notifications {
  import opened Wrappers
  import opened Common
  import opened Store
  import Query

  /** The internal helper other handlers call. It swallows every failure, so it
      returns a state and never an error; only the notifications table can change. */
  function CreateNotification(s: Store, user: Id, sender: Option<Id>, kind: string, notice: Notice, link: string, io: Io): (t: Store)
    requires io.noteId !in s.notifications
    ensures t.(notifications := s.notifications) == s
    ensures !io.notifyOk ==> t == s
    ensures io.notifyOk ==> io.noteId in t.notifications && t.notifications.Keys == s.notifications.Keys + {io.noteId}
    ensures io.notifyOk ==> t.notifications[io.noteId] == Notification(user, sender, kind, notice, link, false, io.now)
    ensures forall k :: k in s.notifications ==> k in t.notifications && t.notifications[k] == s.notifications[k]
  {
    if io.notifyOk then
      s.(notifications := s.notifications[io.noteId := Notification(user, sender, kind, notice, link, false, io.now)])
    else s
  }

  /** GET /api/notifications: the caller's notifications, newest first. */
  method GetNotifications(s: Store, p: Principal) returns (ids: seq<Id>)
    ensures Query.Distinct(ids)
    ensures forall k :: k in ids <==> k in s.notifications && s.notifications[k].user == p.id
    ensures forall i, j :: 0 <= i < j < |ids| ==> s.notifications[ids[i]].createdAt >= s.notifications[ids[j]].createdAt
  {
    ids := Query.SelectOrdered(s.notifications, (n: Notification) => n.user == p.id, (n: Notification) => -n.createdAt);
  }

  /** PUT /api/notifications/:id. The update is filtered on both the id and the
      owner, so a foreign or missing notification reads as not found. */
  function MarkAsRead(s: Store, p: Principal, id: Id, io: Io): (r: Response<Notification>)
    ensures r.result.Ok? <==> id in s.notifications && s.notifications[id].user == p.id && io.writeOk
    ensures r.result.Err? ==> r.store == s && r.result.error == NotFound("Notification not found")
    ensures r.result.Ok? ==>
      && r.result.value.isRead
      && r.result.value.(isRead := false) == s.notifications[id].(isRead := false)
      && r.store == s.(notifications := s.notifications[id := r.result.value])
  {
    if id in s.notifications && s.notifications[id].user == p.id && io.writeOk then
      var n := s.notifications[id].(isRead := true);
      Response(s.(notifications := s.notifications[id := n]), Ok(n))
    else Response(s, Err(NotFound("Notification not found")))
  }

  /** The caller's unread notifications become read. */
  function ReadAllOf(ns: map<Id, Notification>, user: Id): (r: map<Id, Notification>)
    ensures r.Keys == ns.Keys
    ensures forall k :: k in ns ==> r[k].(isRead := false) == ns[k].(isRead := false)
    ensures forall k :: k in ns && ns[k].user == user ==> r[k].isRead
    ensures forall k :: k in ns && ns[k].user != user ==> r[k] == ns[k]
    ensures forall k :: k in ns && ns[k].isRead ==> r[k] == ns[k]
  {
    map k | k in ns :: if ns[k].user == user && !ns[k].isRead then ns[k].(isRead := true) else ns[k]
  }

  /** PUT /api/notifications/readall. A failed update is thrown to the error handler. */
  function MarkAllRead(s: Store, p: Principal, io: Io): (r: Response<()>)
    ensures r.result.Ok? <==> io.writeOk
    ensures r.result.Err? ==> r.store == s && r.result.error == ServerError
    ensures r.store.(notifications := s.notifications) == s
    ensures r.result.Ok? ==> r.store.notifications == ReadAllOf(s.notifications, p.id)
  {
    if io.writeOk then Response(s.(notifications := ReadAllOf(s.notifications, p.id)), Ok(()))
    else Response(s, Err(ServerError))
  }

  /** Marking everything read twice is the same as once. */
  lemma MarkAllReadIdempotent(s: Store, p: Principal, io: Io)
    requires io.writeOk
    ensures MarkAllRead(MarkAllRead(s, p, io).store, p, io) == MarkAllRead(s, p, io)
  {
    var once := ReadAllOf(s.notifications, p.id);
    assert ReadAllOf(once, p.id) == once;
  }

  /** Marking one notification first changes nothing about marking them all. */
  lemma MarkAsReadThenAll(s: Store, p: Principal, id: Id, io: Io)
    requires io.writeOk
    ensures MarkAllRead(MarkAsRead(s, p, id, io).store, p, io) == MarkAllRead(s, p, io)
  {
    var r := MarkAsRead(s, p, id, io);
    if r.result.Ok? {
      assert ReadAllOf(r.store.notifications, p.id) == ReadAllOf(s.notifications, p.id);
    }
  }
}

=== FILE: order_model.dfy ===
/** The order document of server/src/models/Order.js. */
module OrderModel {
  import opened Wrappers
  import opened Common

  /** The six values the `status` enum admits. */
  datatype Status = Pending | Paid | InProgress | Delivered | Completed | Cancelled

  /** The three values the `paymentStatus` enum admits. */
  datatype PaymentStatus = PaymentPending | PaymentCompleted | PaymentFailed

  /** An order as stored. Client, freelancer, service and amount are required,
      so they are plain fields; `requirements` is optional. */
  datatype Order = Order(
    client: Id,
    freelancer: Id,
    service: Id,
    amount: real,
    status: Status,
    paymentStatus: PaymentStatus,
    requirements: Option<string>,
    createdAt: int)

  function StatusName(st: Status): string {
    match st
    case Pending => "pending"
    case Paid => "paid"
    case InProgress => "in_progress"
    case Delivered => "delivered"
    case Completed => "completed"
    case Cancelled => "cancelled"
  }

  function PaymentStatusName(ps: PaymentStatus): string {
    match ps
    case PaymentPending => "pending"
    case PaymentCompleted => "completed"
    case PaymentFailed => "failed"
  }

  /** The enum validator on `status`: a string is accepted exactly when it is
      the name of one of the six statuses. */
  function ParseStatus(s: string): (r: Option<Status>)
    ensures r.Some? ==> StatusName(r.value) == s
    ensures r.None? ==> forall st :: StatusName(st) != s
  {
    if s == "pending" then Some(Pending)
    else if s == "paid" then Some(Paid)
    else if s == "in_progress" then Some(InProgress)
    else if s == "delivered" then Some(Delivered)
    else if s == "completed" then Some(Completed)
    else if s == "cancelled" then Some(Cancelled)
    else None
  }

  /** The enum validator on `paymentStatus`. */
  function ParsePaymentStatus(s: string): (r: Option<PaymentStatus>)
    ensures r.Some? ==> PaymentStatusName(r.value) == s
    ensures r.None? ==> forall ps :: PaymentStatusName(ps) != s
  {
    if s == "pending" then Some(PaymentPending)
    else if s == "completed" then Some(PaymentCompleted)
    else if s == "failed" then Some(PaymentFailed)
    else None
  }

  /** Every status name is accepted and denotes that status. */
  lemma StatusRoundTrip(st: Status)
    ensures ParseStatus(StatusName(st)) == Some(st)
  {
  }

  lemma PaymentStatusRoundTrip(ps: PaymentStatus)
    ensures ParsePaymentStatus(PaymentStatusName(ps)) == Some(ps)
  {
  }

  /** The spelling the payment page sends is not a status; the lower-case one is. */
  lemma MixedCaseStatusRejected()
    ensures ParseStatus("In_Progress") == None
    ensures ParseStatus("in_progress") == Some(InProgress)
  {
  }

  /** `Order.create` with the schema defaults for the fields the caller leaves out. */
  function Create(client: Id, freelancer: Id, service: Id, amount: real, requirements: Option<string>, now: int): (o: Order)
    ensures o.status == Pending && o.paymentStatus == PaymentPending
    ensures o.client == client && o.freelancer == freelancer && o.service == service && o.amount == amount
  {
    Order(client, freelancer, service, amount, Pending, PaymentPending, requirements, now)
  }
}

=== FILE: orders.dfy ===
/** server/src/controllers/orderController.js */
module Orders {
  import opened Wrappers
  import opened Common
  import opened Store
  import opened OrderModel
  import Query

  datatype CreateOrderRequest = CreateOrderRequest(serviceId: Id, requirements: Option<string>)

  /** The body of PUT /api/orders/:id/status; `None` is a field left out. */
  datatype StatusUpdate = StatusUpdate(status: Option<string>, paymentStatus: Option<string>)

  /** The caller is a party to the order, as client or as freelancer. */
  predicate Party(o: Order, who: Id) {
    o.client == who || o.freelancer == who
  }

  /** POST /api/orders: the service must exist and belong to someone else; the
      order snapshots the service's price at this moment. `Service.findById`
      casts the service id and `Order.create` casts the caller's id, each to an
      ObjectId; a failed cast answers 500. */
  function CreateOrder(s: Store, p: Principal, req: CreateOrderRequest, io: Io): (r: Response<Order>)
    requires io.rowId !in s.orders
    ensures !IsObjectId(req.serviceId) ==> r == Response(s, Err(ServerError))
    ensures IsObjectId(req.serviceId) && req.serviceId !in s.services ==> r == Response(s, Err(NotFound("Service not found")))
    ensures IsObjectId(req.serviceId) && req.serviceId in s.services && s.services[req.serviceId].freelancer == p.id ==>
      r == Response(s, Err(BadRequest("You cannot order your own service")))
    ensures r.result.Ok? <==>
      && IsObjectId(req.serviceId) && req.serviceId in s.services && s.services[req.serviceId].freelancer != p.id
      && IsObjectId(p.id) && io.writeOk
    ensures r.result.Err? ==> r.store == s
    ensures r.result.Ok? ==>
      var o := r.result.value;
      && o.client == p.id
      && o.freelancer == s.services[req.serviceId].freelancer
      && o.service == req.serviceId
      && o.amount == s.services[req.serviceId].price
      && o.status == Pending && o.paymentStatus == PaymentPending
      && o.requirements == req.requirements
      && r.store == s.(orders := s.orders[io.rowId := o])
  {
    if !IsObjectId(req.serviceId) then Response(s, Err(ServerError))
    else if req.serviceId !in s.services then Response(s, Err(NotFound("Service not found")))
    else
      var svc := s.services[req.serviceId];
      if svc.freelancer == p.id then Response(s, Err(BadRequest("You cannot order your own service")))
      else if !IsObjectId(p.id) || !io.writeOk then Response(s, Err(ServerError))
      else
        var o := OrderModel.Create(p.id, svc.freelancer, req.serviceId, svc.price, req.requirements, io.now);
        Response(s.(orders := s.orders[io.rowId := o]), Ok(o))
  }

  /** GET /api/orders: the orders in which the caller is the client or the
      freelancer. The filter compares the caller's id with two ObjectId paths,
      so an id that does not cast answers 500. */
  method GetOrders(s: Store, p: Principal) returns (r: Result<seq<Id>>)
    ensures r.Err? <==> !IsObjectId(p.id)
    ensures r.Err? ==> r.error == ServerError
    ensures r.Ok? ==> Query.Distinct(r.value)
    ensures r.Ok? ==> forall k :: k in r.value <==> k in s.orders && Party(s.orders[k], p.id)
  {
    if !IsObjectId(p.id) {
      return Err(ServerError);
    }
    var ids := Query.Select(s.orders, (o: Order) => Party(o, p.id));
    r := Ok(ids);
  }

  /** A placed order is listed for its client and for its freelancer, and no
      one's listing changes otherwise. */
  lemma CreatedOrderListed(s: Store, p: Principal, req: CreateOrderRequest, io: Io, who: Id)
    requires io.rowId !in s.orders
    requires CreateOrder(s, p, req, io).result.Ok?
    ensures var t := CreateOrder(s, p, req, io).store;
      && io.rowId in t.orders
      && Party(t.orders[io.rowId], p.id)
      && Party(t.orders[io.rowId], s.services[req.serviceId].freelancer)
    ensures var t := CreateOrder(s, p, req, io).store;
      forall k :: k != io.rowId ==> (k in t.orders && Party(t.orders[k], who) <==> k in s.orders && Party(s.orders[k], who))
  {
  }

  /** A caller signed in through the auth service, whose id is a uuid, can
      never place an order: the request fails with 500 before anything is
      stored, even for an existing service of somebody else. */
  lemma UuidCallerCannotOrder(s: Store, p: Principal, req: CreateOrderRequest, io: Io)
    requires io.rowId !in s.orders
    requires IsUuid(p.id)
    ensures CreateOrder(s, p, req, io).store == s
    ensures IsObjectId(req.serviceId) && req.serviceId in s.services && s.services[req.serviceId].freelancer != p.id ==>
      CreateOrder(s, p, req, io).result == Err(ServerError)
  {
    UuidIsNotObjectId(p.id);
  }

  /** The document after the assignments `if (status) order.status = status`
      and the same for `paymentStatus`, then the enum validation `save` runs.
      `None` is a validation failure. */
  function ApplyStatusUpdate(o: Order, u: StatusUpdate): (r: Option<Order>)
    ensures r.Some? <==>
      && (Truthy(u.status) ==> ParseStatus(u.status.value).Some?)
      && (Truthy(u.paymentStatus) ==> ParsePaymentStatus(u.paymentStatus.value).Some?)
    ensures r.Some? ==>
      && r.value.client == o.client && r.value.freelancer == o.freelancer
      && r.value.service == o.service && r.value.amount == o.amount
      && r.value.requirements == o.requirements && r.value.createdAt == o.createdAt
      && (if Truthy(u.status) then StatusName(r.value.status) == u.status.value else r.value.status == o.status)
      && (if Truthy(u.paymentStatus) then PaymentStatusName(r.value.paymentStatus) == u.paymentStatus.value
          else r.value.paymentStatus == o.paymentStatus)
  {
    var st := if Truthy(u.status) then ParseStatus(u.status.value) else Some(o.status);
    var ps := if Truthy(u.paymentStatus) then ParsePaymentStatus(u.paymentStatus.value) else Some(o.paymentStatus);
    if st.None? || ps.None? then None
    else Some(o.(status := st.value, paymentStatus := ps.value))
  }

  /** PUT /api/orders/:id/status. There is no ownership check and no settlement:
      only the one order can change, and only its two status fields. An id that
      does not cast to an ObjectId, and a value outside an enum, both throw, and
      the error handler answers 500. */
  function UpdateOrderStatus(s: Store, p: Principal, id: Id, u: StatusUpdate, io: Io): (r: Response<Order>)
    ensures !IsObjectId(id) ==> r == Response(s, Err(ServerError))
    ensures IsObjectId(id) && id !in s.orders ==> r == Response(s, Err(NotFound("Order not found")))
    ensures r.result.Err? ==> r.store == s
    ensures r.result.Ok? <==> IsObjectId(id) && id in s.orders && ApplyStatusUpdate(s.orders[id], u).Some? && io.writeOk
    ensures r.result.Ok? ==> r.store == s.(orders := s.orders[id := r.result.value])
    ensures r.result.Ok? ==> Some(r.result.value) == ApplyStatusUpdate(s.orders[id], u)
    ensures r.store.users == s.users
  {
    if !IsObjectId(id) then Response(s, Err(ServerError))
    else if id !in s.orders then Response(s, Err(NotFound("Order not found")))
    else
      match ApplyStatusUpdate(s.orders[id], u)
      case None => Response(s, Err(ServerError))
      case Some(o) =>
        if io.writeOk then Response(s.(orders := s.orders[id := o]), Ok(o)) else Response(s, Err(ServerError))
  }

  /** Nobody's identity matters: any two callers get the same outcome. */
  lemma UpdateOrderStatusIgnoresCaller(s: Store, p: Principal, q: Principal, id: Id, u: StatusUpdate, io: Io)
    ensures UpdateOrderStatus(s, p, id, u, io) == UpdateOrderStatus(s, q, id, u, io)
  {
  }

  /** Completing an order moves no money: every wallet balance is as before. */
  lemma CompletionMovesNoMoney(s: Store, p: Principal, id: Id, io: Io)
    ensures UpdateOrderStatus(s, p, id, StatusUpdate(Some("completed"), Some("completed")), io).store.users == s.users
    ensures IsObjectId(id) && id in s.orders && io.writeOk ==>
      UpdateOrderStatus(s, p, id, StatusUpdate(Some("completed"), Some("completed")), io).result.Ok?
  {
  }

  /** The body client/src/pages/Payment.jsx would send after a simulated payment, as written. */
  const PAYMENT_PAGE_UPDATE: StatusUpdate := StatusUpdate(Some("In_Progress"), Some("completed"))

  /** The same body with the status spelled as the schema defines it. */
  const CORRECTED_PAYMENT_UPDATE: StatusUpdate := StatusUpdate(Some("in_progress"), Some("completed"))

  /** As written: "In_Progress" is not in the enum, so `save` fails, the
      request answers 500, and the payment status is not recorded either. */
  lemma PaymentPageUpdateRejected(s: Store, p: Principal, id: Id, io: Io)
    requires id in s.orders
    ensures UpdateOrderStatus(s, p, id, PAYMENT_PAGE_UPDATE, io) == Response(s, Err(ServerError))
  {
    MixedCaseStatusRejected();
  }

  /** Corrected: an existing order moves to in progress with its payment completed. */
  lemma CorrectedPaymentUpdateAccepted(s: Store, p: Principal, id: Id, io: Io)
    requires IsObjectId(id) && id in s.orders && io.writeOk
    ensures UpdateOrderStatus(s, p, id, CORRECTED_PAYMENT_UPDATE, io).result.Ok?
    ensures UpdateOrderStatus(s, p, id, CORRECTED_PAYMENT_UPDATE, io).result.value.status == InProgress
    ensures UpdateOrderStatus(s, p, id, CORRECTED_PAYMENT_UPDATE, io).result.value.paymentStatus == PaymentCompleted
  {
    MixedCaseStatusRejected();
  }

  /** The update keeps every other order as it was. */
  lemma UpdateFramesOtherOrders(s: Store, p: Principal, id: Id, u: StatusUpdate, io: Io, k: Id)
    requires k in s.orders && k != id
    ensures k in UpdateOrderStatus(s, p, id, u, io).store.orders
    ensures UpdateOrderStatus(s, p, id, u, io).store.orders[k] == s.orders[k]
  {
  }
}

=== FILE: profile_model.dfy ===
/** The profile document of server/src/models/Profile.js. Profiles are stored
    keyed by their user, which is how the model keeps `user` unique. */
module ProfileModel {
  import opened Wrappers
  import Text

  const RATING_MAX: real := 5.0

  datatype PortfolioItem = PortfolioItem(url: string, title: string)

  datatype Socials = Socials(linkedin: Option<string>, github: Option<string>, website: Option<string>)

  datatype Profile = Profile(
    title: string,
    bio: string,
    skills: seq<string>,
    portfolio: seq<PortfolioItem>,
    rating: real,
    numReviews: nat,
    hourlyRate: Option<real>,
    isVerified: bool,
    socials: Option<Socials>)

  /** The fields an update names; `None` leaves a field out. */
  datatype ProfileFields = ProfileFields(
    title: Option<string>,
    bio: Option<string>,
    skills: Option<seq<string>>,
    portfolio: Option<seq<PortfolioItem>>,
    socials: Option<Socials>)

  /** The schema's bounds on the review statistics. */
  predicate StatsValid(p: Profile) {
    0.0 <= p.rating <= RATING_MAX
  }

  /** What `save()` checks of a whole profile: the required strings are not
      empty and the rating is within the schema's bounds. */
  predicate Valid(p: Profile) {
    p.title != "" && p.bio != "" && StatsValid(p)
  }

  /** `new Profile(fields).save()`: title and bio are required and the title
      is trimmed. `skills` is required too, but an array path defaults to `[]`
      and `required` accepts the empty array, so missing skills are stored as
      none. Rating, review count and verification take their defaults. */
  function Create(f: ProfileFields): (r: Option<Profile>)
    ensures r.Some? <==> f.title.Some? && Text.Trim(f.title.value) != "" && Truthy(f.bio)
    ensures r.Some? ==> r.value.rating == 0.0 && r.value.numReviews == 0 && !r.value.isVerified && Valid(r.value)
    ensures r.Some? ==> r.value.title == Text.Trim(f.title.value) && r.value.bio == f.bio.value && r.value.skills == f.skills.GetOr([])
  {
    match (f.title, f.bio)
    case (Some(t), Some(b)) =>
      if Text.Trim(t) == "" || b == "" then None
      else
        var portfolio := if f.portfolio.Some? then f.portfolio.value else [];
        Some(Profile(Text.Trim(t), b, f.skills.GetOr([]), portfolio, 0.0, 0, None, false, f.socials))
    case _ => None
  }

  /** The `$set` update: every named field is overwritten, every other field
      keeps its value. */
  function Merge(p: Profile, f: ProfileFields): (q: Profile)
    ensures q.title == (if f.title.Some? then Text.Trim(f.title.value) else p.title)
    ensures q.bio == (if f.bio.Some? then f.bio.value else p.bio)
    ensures q.skills == (if f.skills.Some? then f.skills.value else p.skills)
    ensures q.portfolio == (if f.portfolio.Some? then f.portfolio.value else p.portfolio)
    ensures q.socials == (if f.socials.Some? then f.socials else p.socials)
    ensures q.rating == p.rating && q.numReviews == p.numReviews && q.isVerified == p.isVerified && q.hourlyRate == p.hourlyRate
  {
    p.(title := if f.title.Some? then Text.Trim(f.title.value) else p.title,
       bio := if f.bio.Some? then f.bio.value else p.bio,
       skills := if f.skills.Some? then f.skills.value else p.skills,
       portfolio := if f.portfolio.Some? then f.portfolio.value else p.portfolio,
       socials := if f.socials.Some? then f.socials else p.socials)
  }
}

=== FILE: profiles.dfy ===
/** server/src/controllers/profileController.js */
module Profiles {
  import opened Wrappers
  import opened Common
  import opened Store
  import opened ProfileModel
  import Text

  /** `skills` as the body carries it: a comma-separated string or an array. */
  datatype SkillsInput = SkillsText(text: string) | SkillsList(items: seq<string>)

  /** The body of POST /api/profiles; `None` is a field left out. */
  datatype ProfileRequest = ProfileRequest(
    title: Option<string>,
    bio: Option<string>,
    skills: Option<SkillsInput>,
    portfolio: Option<seq<PortfolioItem>>,
    socials: Option<Socials>)

  /** JavaScript truthiness of the skills field: an empty string is falsy,
      every array is truthy. */
  predicate SkillsGiven(sk: Option<SkillsInput>) {
    sk.Some? && (sk.value.SkillsText? ==> sk.value.text != "")
  }

  /** A string is split on ',' and each piece trimmed; an array passes unchanged. */
  function SkillList(sk: SkillsInput): (r: seq<string>)
    ensures sk.SkillsList? ==> r == sk.items
    ensures sk.SkillsText? ==> |r| >= 1 && forall i :: 0 <= i < |r| ==> ',' !in r[i] && Text.IsTrimmed(r[i])
  {
    match sk
    case SkillsList(xs) => xs
    case SkillsText(t) =>
      var parts := Text.Split(t, ',');
      var r := Text.TrimAll(parts);
      assert forall i :: 0 <= i < |r| ==> ',' !in r[i] by {
        forall i | 0 <= i < |r|
          ensures ',' !in r[i]
        {
          TrimmedPieceHasNoComma(parts[i]);
        }
      }
      r
  }

  /** Trimming keeps a piece free of the separator. */
  lemma TrimmedPieceHasNoComma(x: string)
    requires ',' !in x
    ensures ',' !in Text.Trim(x)
  {
    var u := Text.TrimStart(x);
    NotInSlice(x, ',', |x| - |u|, |x|);
    NotInSlice(u, ',', 0, |Text.TrimEnd(u)|);
  }

  lemma NotInSlice(x: string, c: char, a: nat, b: nat)
    requires a <= b <= |x| && c !in x
    ensures c !in x[a..b]
  {
    forall i | 0 <= i < b - a
      ensures x[a..b][i] != c
    {
      assert x[a..b][i] == x[a + i];
    }
  }

  /** `profileFields`: the truthy fields of the body, skills normalised. The
      caller's id is the key the fields are stored under. */
  function BuildProfileFields(req: ProfileRequest): (f: ProfileFields)
    ensures f.title.Some? <==> Truthy(req.title)
    ensures f.title.Some? ==> f.title == req.title
    ensures f.bio.Some? <==> Truthy(req.bio)
    ensures f.bio.Some? ==> f.bio == req.bio
    ensures f.skills.Some? <==> SkillsGiven(req.skills)
    ensures f.skills.Some? ==> f.skills.value == SkillList(req.skills.value)
    ensures f.portfolio == req.portfolio && f.socials == req.socials
  {
    ProfileFields(
      if Truthy(req.title) then req.title else None,
      if Truthy(req.bio) then req.bio else None,
      if SkillsGiven(req.skills) then Some(SkillList(req.skills.value)) else None,
      req.portfolio,
      req.socials)
  }

  /** POST /api/profiles: an existing profile gets the built fields `$set` on
      it; otherwise a new profile is made from exactly those fields and
      validated. The caller's id must cast to the `user` ObjectId. A failed
      cast, validation or write reaches the error handler. */
  function UpdateProfile(s: Store, p: Principal, req: ProfileRequest, io: Io): (r: Response<Profile>)
    ensures !IsObjectId(p.id) ==> r == Response(s, Err(ServerError))
    ensures r.result.Err? ==> r.store == s && r.result.error == ServerError
    ensures r.result.Ok? ==> r.store == s.(profiles := s.profiles[p.id := r.result.value])
    ensures IsObjectId(p.id) && p.id in s.profiles ==>
      (r.result.Ok? <==> io.writeOk) &&
      (r.result.Ok? ==> r.result.value == Merge(s.profiles[p.id], BuildProfileFields(req)))
    ensures IsObjectId(p.id) && p.id !in s.profiles ==>
      (r.result.Ok? <==> Create(BuildProfileFields(req)).Some? && io.writeOk) &&
      (r.result.Ok? ==> Some(r.result.value) == Create(BuildProfileFields(req)))
  {
    var f := BuildProfileFields(req);
    if !IsObjectId(p.id) then Response(s, Err(ServerError))
    else if p.id in s.profiles then
      if io.writeOk then
        var q := Merge(s.profiles[p.id], f);
        Response(s.(profiles := s.profiles[p.id := q]), Ok(q))
      else Response(s, Err(ServerError))
    else
      match Create(f)
      case None => Response(s, Err(ServerError))
      case Some(q) =>
        if io.writeOk then Response(s.(profiles := s.profiles[p.id := q]), Ok(q)) else Response(s, Err(ServerError))
  }

  /** A body that names nothing leaves an existing profile exactly as it was. */
  lemma EmptyUpdateKeepsProfile(s: Store, p: Principal, io: Io)
    requires p.id in s.profiles && io.writeOk
    requires Text.IsTrimmed(s.profiles[p.id].title)
    ensures UpdateProfile(s, p, ProfileRequest(None, None, None, None, None), io) ==
      Response(s, if IsObjectId(p.id) then Ok(s.profiles[p.id]) else Err(ServerError))
  {
    assert s.profiles[p.id := s.profiles[p.id]] == s.profiles;
  }

  /** The update never touches the review statistics. */
  lemma UpdateKeepsStats(s: Store, p: Principal, req: ProfileRequest, io: Io)
    requires p.id in s.profiles
    requires UpdateProfile(s, p, req, io).result.Ok?
    ensures UpdateProfile(s, p, req, io).result.value.rating == s.profiles[p.id].rating
    ensures UpdateProfile(s, p, req, io).result.value.numReviews == s.profiles[p.id].numReviews
  {
  }

  /** The update does not validate: a blank title is written as "" after trimming,
      which the schema would refuse on the next full save. */
  lemma UpdateCanStoreInvalid(s: Store, p: Principal, io: Io)
    requires IsObjectId(p.id) && p.id in s.profiles && io.writeOk
    ensures var r := UpdateProfile(s, p, ProfileRequest(Some(" "), None, None, None, None), io);
      r.result.Ok? && r.result.value.title == "" && !Valid(r.result.value)
  {
    assert Text.AllSpace(" ");
  }

  /** GET /api/profiles/me: the caller's id must cast to the `user` ObjectId. */
  function GetMyProfile(s: Store, p: Principal): (r: Result<Profile>)
    ensures r.Ok? <==> IsObjectId(p.id) && p.id in s.profiles
    ensures r.Ok? ==> r.value == s.profiles[p.id]
    ensures r.Err? ==> r.error == (if IsObjectId(p.id) then NotFound("There is no profile for this user") else ServerError)
  {
    if !IsObjectId(p.id) then Err(ServerError)
    else if p.id in s.profiles then Ok(s.profiles[p.id])
    else Err(NotFound("There is no profile for this user"))
  }

  /** What the caller reads back after a successful update is what was stored. */
  lemma UpdateThenRead(s: Store, p: Principal, req: ProfileRequest, io: Io)
    requires UpdateProfile(s, p, req, io).result.Ok?
    ensures GetMyProfile(UpdateProfile(s, p, req, io).store, p) == UpdateProfile(s, p, req, io).result
  {
  }

  /** A caller signed in through Supabase can neither write nor read a profile:
      both handlers answer 500 and nothing is stored. */
  lemma UuidCallerHasNoProfile(s: Store, p: Principal, req: ProfileRequest, io: Io)
    requires IsUuid(p.id)
    ensures UpdateProfile(s, p, req, io) == Response(s, Err(ServerError))
    ensures GetMyProfile(s, p) == Err(ServerError)
  {
    UuidIsNotObjectId(p.id);
  }
}

=== FILE: protected_route.dfy ===
/** The route guard of client/src/components/ProtectedRoute.jsx: what a
    guarded page shows for the signed-in state. */
module ProtectedRoute {
  import opened Wrappers
  import opened Common

  /** What the guard renders. */
  datatype View = Loading | Redirect(to: string) | Children

  const LOGIN_PATH: string := "/login"
  const HOME_PATH: string := "/"

  /** The auth state the guard reads: whether the session is still loading,
      whether there is a user, and the user's role. */
  datatype Session = Session(loading: bool, authenticated: bool, role: Option<string>)

  /** The guard: a placeholder while loading, the login page without a user,
      the home page when the route lists roles and the user's is not among
      them, and the page itself otherwise. `allowedRoles` is `None` when the
      route lists no roles. */
  function Guard(s: Session, allowedRoles: Option<seq<string>>): (v: View)
    ensures s.loading ==> v == Loading
    ensures !s.loading && !s.authenticated ==> v == Redirect(LOGIN_PATH)
    ensures v == Children <==> (
      && !s.loading && s.authenticated
      && (allowedRoles.Some? ==> s.role.Some? && s.role.value in allowedRoles.value))
    ensures v.Redirect? ==> v.to == LOGIN_PATH || v.to == HOME_PATH
  {
    if s.loading then Loading
    else if !s.authenticated then Redirect(LOGIN_PATH)
    else if allowedRoles.Some? && !(s.role.Some? && s.role.value in allowedRoles.value) then Redirect(HOME_PATH)
    else Children
  }

  /** A route that lists no roles admits every signed-in user. */
  lemma UnrestrictedAdmitsEveryone(s: Session)
    requires !s.loading && s.authenticated
    ensures Guard(s, None) == Children
  {
  }

  /** Listing more roles never turns an admitted user away. */
  lemma MoreRolesAdmitMore(s: Session, roles: seq<string>, more: seq<string>)
    requires Guard(s, Some(roles)) == Children
    requires forall r :: r in roles ==> r in more
    ensures Guard(s, Some(more)) == Children
  {
  }

  /** A signed-in user without a role is sent home from every route that lists roles. */
  lemma RolelessSentHome(s: Session, roles: seq<string>)
    requires !s.loading && s.authenticated && s.role.None?
    ensures Guard(s, Some(roles)) == Redirect(HOME_PATH)
  {
  }
}

=== FILE: query.dfy ===
/** Database listings: a table filtered by a row predicate, either in no
    particular order or sorted by a numeric key (a creation timestamp). */
module Query {
  import opened Common

  /** No identifier appears twice. */
  predicate Distinct(ks: seq<Id>) {
    forall i, j :: 0 <= i < j < |ks| ==> ks[i] != ks[j]
  }

  /** The rows named by `ks` appear in non-decreasing order of `key`. */
  predicate Ordered<R>(m: map<Id, R>, ks: seq<Id>, key: R -> int) {
    forall i, j :: 0 <= i < j < |ks| && ks[i] in m && ks[j] in m ==> key(m[ks[i]]) <= key(m[ks[j]])
  }

  /** The identifiers of exactly the rows of `m` that satisfy `keep`, each once. */
  method Select<R>(m: map<Id, R>, keep: R -> bool) returns (ks: seq<Id>)
    ensures Distinct(ks)
    ensures forall k :: k in ks <==> k in m && keep(m[k])
  {
    ks := [];
    var rest := m.Keys;
    while rest != {}
      invariant rest <= m.Keys
      invariant Distinct(ks)
      invariant forall k :: k in ks ==> k in m && keep(m[k]) && k !in rest
      invariant forall k :: k in m && k !in rest && keep(m[k]) ==> k in ks
      decreases rest
    {
      var k :| k in rest;
      if keep(m[k]) {
        ks := ks + [k];
      }
      rest := rest - {k};
    }
  }

  /** Inserts `k` into an ordered listing, keeping it ordered. */
  function InsertOrdered<R>(m: map<Id, R>, ks: seq<Id>, k: Id, key: R -> int): (r: seq<Id>)
    requires k in m
    requires forall i :: 0 <= i < |ks| ==> ks[i] in m
    requires Ordered(m, ks, key)
    ensures |r| == |ks| + 1
    ensures forall x :: x in r <==> x in ks || x == k
    ensures forall i :: 0 <= i < |r| ==> r[i] in m
    ensures Ordered(m, r, key)
    ensures k !in ks && Distinct(ks) ==> Distinct(r)
  {
    if |ks| == 0 then [k]
    else if key(m[k]) <= key(m[ks[0]]) then [k] + ks
    else
      var tail := InsertOrdered(m, ks[1..], k, key);
      HeadBelowTail(m, ks, k, key, tail);
      HeadNotInRest(ks);
      [ks[0]] + tail
  }

  /** When the inserted row sorts after the head, the head stays at or below
      every row of the rebuilt tail. */
  lemma HeadBelowTail<R>(m: map<Id, R>, ks: seq<Id>, k: Id, key: R -> int, tail: seq<Id>)
    requires |ks| > 0 && k in m && ks[0] in m
    requires forall i :: 0 <= i < |ks| ==> ks[i] in m
    requires Ordered(m, ks, key) && key(m[ks[0]]) < key(m[k])
    requires forall x :: x in tail ==> x in ks[1..] || x == k
    requires forall i :: 0 <= i < |tail| ==> tail[i] in m
    ensures forall j :: 0 <= j < |tail| ==> key(m[ks[0]]) <= key(m[tail[j]])
  {
    forall j | 0 <= j < |tail|
      ensures key(m[ks[0]]) <= key(m[tail[j]])
    {
      var x := tail[j];
      assert x in tail;
      if x != k {
        var idx :| 0 <= idx < |ks[1..]| && ks[1..][idx] == x;
        assert ks[idx + 1] == x;
      }
    }
  }

  /** In a listing without repeats the head does not recur. */
  lemma HeadNotInRest(ks: seq<Id>)
    requires |ks| > 0
    ensures Distinct(ks) ==> ks[0] !in ks[1..]
  {
    if Distinct(ks) {
      forall idx | 0 <= idx < |ks[1..]|
        ensures ks[1..][idx] != ks[0]
      {
        assert ks[1..][idx] == ks[idx + 1];
      }
    }
  }

  /** The identifiers of exactly the rows of `m` that satisfy `keep`, each once,
      in non-decreasing order of `key`. */
  method SelectOrdered<R>(m: map<Id, R>, keep: R -> bool, key: R -> int) returns (ks: seq<Id>)
    ensures Distinct(ks)
    ensures forall k :: k in ks <==> k in m && keep(m[k])
    ensures Ordered(m, ks, key)
  {
    ks := [];
    var rest := m.Keys;
    while rest != {}
      invariant rest <= m.Keys
      invariant Distinct(ks)
      invariant forall i :: 0 <= i < |ks| ==> ks[i] in m
      invariant Ordered(m, ks, key)
      invariant forall k :: k in ks ==> k in m && keep(m[k]) && k !in rest
      invariant forall k :: k in m && k !in rest && keep(m[k]) ==> k in ks
      decreases rest
    {
      var k :| k in rest;
      if keep(m[k]) {
        ks := InsertOrdered(m, ks, k, key);
      }
      rest := rest - {k};
    }
  }
}

=== FILE: registration.dfy ===
/** Sign-up and e-mail verification (`controllers/authController.js`): the
    server keeps an in-memory map from e-mail to the pending one-time code,
    and the code is consumed only by a verification that also signs in. */
module Registration {
  import opened Wrappers
  import opened Common
  import Text
  import opened Store
  import Auth

  const OTP_MIN := 100000
  const OTP_MAX := 999999

  const NO_OTP_MESSAGE := "No OTP found for this email (or it expired)."
  const INVALID_OTP_MESSAGE := "Invalid OTP."
  const SESSION_EXPIRED_MESSAGE := "Session expired, please login manually."

  datatype RegisterRequest = RegisterRequest(name: string, email: string, password: string, role: Option<string>)

  /** The auth service's answer to a sign-up or a password sign-in. */
  datatype SignUpAnswer = SignUpFailed(message: string) | SignedUp(userId: Id)
  datatype SignInAnswer = SignInFailed(message: string) | SignedIn(token: string)

  /** What a successful registration returns: the new account and the code. */
  datatype Registered = Registered(userId: Id, otp: string)

  /** `role || 'client'` */
  function EffectiveRole(role: Option<string>): (r: string)
    ensures Truthy(role) ==> r == role.value
    ensures !Truthy(role) ==> r == CLIENT
  {
    if Truthy(role) then role.value else CLIENT
  }

  /** The one-time code as the server renders it: six decimal digits, no
      leading zero. `n` stands for `Math.floor(100000 + Math.random() * 900000)`. */
  function OtpText(n: nat): (r: string)
    requires OTP_MIN <= n <= OTP_MAX
    ensures |r| == 6 && r[0] != '0'
    ensures forall i :: 0 <= i < |r| ==> Text.IsDigit(r[i])
  {
    assert Text.Pow10(6) == 1000000 by {
      assert Text.Pow10(1) == 10;
      assert Text.Pow10(2) == 100;
      assert Text.Pow10(3) == 1000;
      assert Text.Pow10(4) == 10000;
      assert Text.Pow10(5) == 100000;
    }
    Text.DecimalLength(n, 6);
    Text.Decimal(n)
  }

  /** POST /api/auth/register. A refused sign-up answers 400 with the auth
      service's message and changes nothing. Otherwise the `users` row is
      inserted when the insert succeeds (its failure is only logged), and the
      e-mail's OTP entry is set to the new code with the password and account,
      replacing any earlier entry. `writeOk` is the insert's outcome. */
  function Register(s: Store, req: RegisterRequest, signUp: SignUpAnswer, n: nat, writeOk: bool): (r: Response<Registered>)
    requires OTP_MIN <= n <= OTP_MAX
    ensures signUp.SignUpFailed? ==> r == Response(s, Err(BadRequest(signUp.message)))
    ensures signUp.SignedUp? ==>
      && r.result == Ok(Registered(signUp.userId, OtpText(n)))
      && r.store.otps == s.otps[req.email := PendingSignup(OtpText(n), req.password, signUp.userId)]
      && r.store.(users := s.users, otps := s.otps) == s
    ensures signUp.SignedUp? && writeOk && signUp.userId !in s.users ==>
      r.store.users == s.users[signUp.userId := User(req.name, req.email, EffectiveRole(req.role), 0.0)]
    ensures !(signUp.SignedUp? && writeOk && signUp.userId !in s.users) ==> r.store.users == s.users
  {
    match signUp
    case SignUpFailed(message) => Response(s, Err(BadRequest(message)))
    case SignedUp(userId) =>
      var users :=
        if writeOk && userId !in s.users
        then s.users[userId := User(req.name, req.email, EffectiveRole(req.role), 0.0)]
        else s.users;
      var otp := OtpText(n);
      Response(s.(users := users, otps := s.otps[req.email := PendingSignup(otp, req.password, userId)]), Ok(Registered(userId, otp)))
  }

  /** The handler finds an entry: one is stored and it is truthy. A code-only
      entry holding the empty string reads as no entry at all. */
  predicate HasEntry(s: Store, email: string) {
    email in s.otps && !(s.otps[email].LegacyOtp? && s.otps[email].otp == "")
  }

  /** POST /api/auth/verify-email. Without an entry: 400. With a code that is
      not the stored one: 400. With the right code but no stored password (an
      entry written by older code, or an empty password): 400 "Session
      expired". A refused sign-in: 401 with the service's message. Only a
      successful sign-in removes the entry and returns the session token. */
  function VerifyEmail(s: Store, email: string, otp: Option<string>, signIn: SignInAnswer): (r: Response<string>)
    ensures !HasEntry(s, email) ==> r == Response(s, Err(BadRequest(NO_OTP_MESSAGE)))
    ensures HasEntry(s, email) && otp != Some(s.otps[email].Code()) ==> r == Response(s, Err(BadRequest(INVALID_OTP_MESSAGE)))
    ensures r.result.Err? ==> r.store == s
    ensures r.result.Ok? <==>
      && email in s.otps && otp == Some(s.otps[email].Code())
      && s.otps[email].PendingSignup? && s.otps[email].password != ""
      && signIn.SignedIn?
    ensures r.result.Ok? ==> r.result.value == signIn.token && r.store == s.(otps := s.otps - {email})
  {
    if !HasEntry(s, email) then Response(s, Err(BadRequest(NO_OTP_MESSAGE)))
    else
      var entry := s.otps[email];
      if otp != Some(entry.Code()) then Response(s, Err(BadRequest(INVALID_OTP_MESSAGE)))
      else if entry.LegacyOtp? || entry.password == "" then Response(s, Err(BadRequest(SESSION_EXPIRED_MESSAGE)))
      else
        match signIn
        case SignInFailed(message) => Response(s, Err(Unauthorized(message)))
        case SignedIn(token) => Response(s.(otps := s.otps - {email}), Ok(token))
  }

  /** An entry written by older code, holding only the code, never verifies:
      the right code answers "Session expired" and the entry stays. */
  lemma LegacyEntryExpires(s: Store, email: string, signIn: SignInAnswer)
    requires email in s.otps && s.otps[email].LegacyOtp? && s.otps[email].otp != ""
    ensures VerifyEmail(s, email, Some(s.otps[email].otp), signIn) == Response(s, Err(BadRequest(SESSION_EXPIRED_MESSAGE)))
  {
  }

  /** A code-only entry holding the empty string is falsy, so whatever code is
      sent the answer is the one for a missing entry. */
  lemma EmptyLegacyEntryNotFound(s: Store, email: string, otp: Option<string>, signIn: SignInAnswer)
    requires email in s.otps && s.otps[email] == LegacyOtp("")
    ensures VerifyEmail(s, email, otp, signIn) == Response(s, Err(BadRequest(NO_OTP_MESSAGE)))
  {
  }

  /** The code a registration returns verifies the account when the sign-in
      with the stored password succeeds, and the entry is gone afterwards, so a
      second verification finds nothing. */
  lemma {:induction false} RegisterThenVerify(s: Store, req: RegisterRequest, userId: Id, n: nat, writeOk: bool, token: string)
    requires OTP_MIN <= n <= OTP_MAX
    requires req.password != ""
    ensures var s1 := Register(s, req, SignedUp(userId), n, writeOk);
      var v := VerifyEmail(s1.store, req.email, Some(s1.result.value.otp), SignedIn(token));
      && v.result == Ok(token)
      && req.email !in v.store.otps
      && VerifyEmail(v.store, req.email, Some(s1.result.value.otp), SignedIn(token)).result == Err(BadRequest(NO_OTP_MESSAGE))
  {
    var s1 := Register(s, req, SignedUp(userId), n, writeOk);
    assert s1.store.otps[req.email] == PendingSignup(OtpText(n), req.password, userId);
  }

  /** Registering the same e-mail again replaces the pending code: the first
      code is then refused and the entry kept. */
  lemma {:induction false} ReRegisterInvalidatesOldCode(s: Store, req: RegisterRequest, req2: RegisterRequest, u1: Id, u2: Id, n1: nat, n2: nat, w1: bool, w2: bool, signIn: SignInAnswer)
    requires OTP_MIN <= n1 <= OTP_MAX && OTP_MIN <= n2 <= OTP_MAX && n1 != n2
    requires req2.email == req.email
    ensures var s1 := Register(s, req, SignedUp(u1), n1, w1);
      var s2 := Register(s1.store, req2, SignedUp(u2), n2, w2);
      VerifyEmail(s2.store, req.email, Some(s1.result.value.otp), signIn) == Response(s2.store, Err(BadRequest(INVALID_OTP_MESSAGE)))
  {
    var s1 := Register(s, req, SignedUp(u1), n1, w1);
    var s2 := Register(s1.store, req2, SignedUp(u2), n2, w2);
    DistinctCodes(n1, n2);
    assert s2.store.otps[req.email].Code() == OtpText(n2);
  }

  /** Different numbers render as different codes. */
  lemma DistinctCodes(n1: nat, n2: nat)
    requires OTP_MIN <= n1 <= OTP_MAX && OTP_MIN <= n2 <= OTP_MAX && n1 != n2
    ensures OtpText(n1) != OtpText(n2)
  {
    DecimalInjective(n1, n2);
  }

  /** Decimal rendering is one-to-one. */
  lemma {:induction false} DecimalInjective(a: nat, b: nat)
    ensures Text.Decimal(a) == Text.Decimal(b) ==> a == b
  {
    var da, db := Text.Decimal(a), Text.Decimal(b);
    if da == db {
      if a < 10 && b < 10 {
        assert da[0] == db[0];
      } else if a >= 10 && b >= 10 {
        assert da[..|da| - 1] == Text.Decimal(a / 10);
        assert db[..|db| - 1] == Text.Decimal(b / 10);
        DecimalInjective(a / 10, b / 10);
        assert da[|da| - 1] == db[|db| - 1];
      } else if a < 10 {
        DecimalLong(b);
      } else {
        DecimalLong(a);
      }
    }
  }

  /** Numbers from 10 on render with at least two digits. */
  lemma DecimalLong(n: nat)
    requires n >= 10
    ensures |Text.Decimal(n)| >= 2
  {
  }

  /** An account registered without a role is stored, and therefore
      authorised, as a client. */
  lemma {:induction false} DefaultRoleIsClient(s: Store, req: RegisterRequest, userId: Id, n: nat, sessions: map<string, Auth.AuthUser>, header: Option<string>)
    requires OTP_MIN <= n <= OTP_MAX
    requires req.role.None? && userId !in s.users
    requires var t := Register(s, req, SignedUp(userId), n, true).store;
      Auth.Protect(t, sessions, header).Ok? && Auth.Protect(t, sessions, header).value.id == userId
    ensures var t := Register(s, req, SignedUp(userId), n, true).store;
      && Auth.Authorize([CLIENT], Auth.Protect(t, sessions, header).value).Ok?
      && Auth.Authorize([STUDENT, ADMIN], Auth.Protect(t, sessions, header).value).Err?
  {
    var t := Register(s, req, SignedUp(userId), n, true).store;
    assert t.users[userId].role == CLIENT;
    Auth.RowRoleWins(t, sessions[Auth.BearerToken(header).value], [CLIENT]);
    Auth.RowRoleWins(t, sessions[Auth.BearerToken(header).value], [STUDENT, ADMIN]);
  }
}

=== FILE: review_model.dfy ===
/** The review document of server/src/models/Review.js and the validation
    Mongoose runs when one is created. */
module ReviewModel {
  import opened Wrappers
  import opened Common

  const RATING_MIN: real := 1.0
  const RATING_MAX: real := 5.0

  datatype Review = Review(
    order: Id,
    service: Id,
    reviewer: Id,
    freelancer: Id,
    rating: real,
    comment: string,
    createdAt: int)

  /** `Review.create`: the rating must be present and within [1, 5], the
      comment present and non-empty. */
  function Create(order: Id, service: Id, reviewer: Id, freelancer: Id, rating: Option<real>, comment: Option<string>, now: int): (r: Option<Review>)
    ensures r.Some? <==> rating.Some? && RATING_MIN <= rating.value <= RATING_MAX && Truthy(comment)
    ensures r.Some? ==> RATING_MIN <= r.value.rating <= RATING_MAX && r.value.comment != ""
    ensures r.Some? ==> r.value.order == order && r.value.service == service && r.value.reviewer == reviewer && r.value.freelancer == freelancer
  {
    match (rating, comment)
    case (Some(x), Some(c)) =>
      if x < RATING_MIN || x > RATING_MAX || c == "" then None
      else Some(Review(order, service, reviewer, freelancer, x, c, now))
    case _ => None
  }

  /** The unique index on (order, reviewer). */
  predicate OnePerOrderAndReviewer(reviews: map<Id, Review>) {
    forall a, b :: a in reviews && b in reviews && a != b ==>
      reviews[a].order != reviews[b].order || reviews[a].reviewer != reviews[b].reviewer
  }
}

=== FILE: reviews.dfy ===
/** server/src/controllers/reviewController.js */
module Reviews {
  import opened Wrappers
  import opened Common
  import opened Store
  import opened ReviewModel
  import ProfileModel
  import Profiles
  import OrderModel
  import Query

  /** The body of POST /api/reviews. */
  datatype ReviewRequest = ReviewRequest(orderId: Id, rating: Option<real>, comment: Option<string>)

  /** Some review already pairs this order with this reviewer: the unique
      index rejects another. */
  predicate AlreadyReviewed(reviews: map<Id, Review>, order: Id, reviewer: Id) {
    exists k :: k in reviews && reviews[k].order == order && reviews[k].reviewer == reviewer
  }

  /** The running average: the old total plus the new rating, over one more review. */
  function NextRating(rating: real, numReviews: nat, r: real): real {
    (rating * numReviews as real + r) / (numReviews as real + 1.0)
  }

  /** The profile after one more review of `r`. */
  function AddRating(prof: ProfileModel.Profile, r: real): (q: ProfileModel.Profile)
    ensures q.numReviews == prof.numReviews + 1
    ensures q.rating == NextRating(prof.rating, prof.numReviews, r)
    ensures q.(rating := prof.rating, numReviews := prof.numReviews) == prof
  {
    prof.(rating := NextRating(prof.rating, prof.numReviews, r), numReviews := prof.numReviews + 1)
  }

  /** POST /api/reviews. The order id must cast to an ObjectId, and so must the
      caller's id once it is written as the reviewer. The order's status is not
      consulted. The review is written before the freelancer's profile, and
      the profile's save validates the whole document, so a profile that fails
      validation or to save leaves the review in place and answers 500. */
  function AddReview(s: Store, p: Principal, req: ReviewRequest, io: Io): (r: Response<Review>)
    requires io.rowId !in s.reviews
    ensures !IsObjectId(req.orderId) ==> r == Response(s, Err(ServerError))
    ensures IsObjectId(req.orderId) && req.orderId !in s.orders ==> r == Response(s, Err(NotFound("Order not found")))
    ensures IsObjectId(req.orderId) && req.orderId in s.orders && s.orders[req.orderId].client != p.id ==>
      r == Response(s, Err(Unauthorized("Not authorized to review this order")))
    ensures r.store != s <==>
      && IsObjectId(req.orderId) && req.orderId in s.orders && s.orders[req.orderId].client == p.id
      && IsObjectId(p.id)
      && Create(req.orderId, s.orders[req.orderId].service, p.id, s.orders[req.orderId].freelancer, req.rating, req.comment, io.now).Some?
      && !AlreadyReviewed(s.reviews, req.orderId, p.id) && io.writeOk
    ensures r.store != s ==> io.rowId in r.store.reviews
    ensures r.store != s ==>
      var o := s.orders[req.orderId];
      var rev := r.store.reviews[io.rowId];
      && r.store.reviews == s.reviews[io.rowId := rev]
      && rev.order == req.orderId && rev.service == o.service && rev.reviewer == p.id && rev.freelancer == o.freelancer
      && rev.rating == req.rating.value
      && (o.freelancer !in s.profiles ==> r.store.profiles == s.profiles && r.result == Ok(rev))
      && (o.freelancer in s.profiles ==>
            (r.result.Ok? <==> ProfileModel.Valid(AddRating(s.profiles[o.freelancer], rev.rating)) && io.followUpOk))
      && (o.freelancer in s.profiles && r.result.Ok? ==>
            r.store.profiles == s.profiles[o.freelancer := AddRating(s.profiles[o.freelancer], rev.rating)])
      && (r.result.Err? ==> r.store.profiles == s.profiles && r.result.error == ServerError)
    ensures r.store.(reviews := s.reviews, profiles := s.profiles) == s
  {
    if !IsObjectId(req.orderId) then Response(s, Err(ServerError))
    else if req.orderId !in s.orders then Response(s, Err(NotFound("Order not found")))
    else
      var o := s.orders[req.orderId];
      if o.client != p.id then Response(s, Err(Unauthorized("Not authorized to review this order")))
      else if !IsObjectId(p.id) then Response(s, Err(ServerError))
      else
        match Create(req.orderId, o.service, p.id, o.freelancer, req.rating, req.comment, io.now)
        case None => Response(s, Err(ServerError))
        case Some(rev) =>
          if AlreadyReviewed(s.reviews, req.orderId, p.id) || !io.writeOk then Response(s, Err(ServerError))
          else
            var r := SaveReview(s, o.freelancer, rev, io);
            assert r.store != s by {
              assert io.rowId in r.store.reviews;
            }
            r
  }

  /** The tail of the handler once the review is created: the review is kept
      whatever follows, and the freelancer's profile, when there is one, takes
      the new rating only if the whole document still validates and saves. */
  function SaveReview(s: Store, freelancer: Id, rev: Review, io: Io): (r: Response<Review>)
    requires io.rowId !in s.reviews
    ensures r.store.reviews == s.reviews[io.rowId := rev]
    ensures r.store.(reviews := s.reviews, profiles := s.profiles) == s
    ensures r.result.Ok? ==> r.result.value == rev
    ensures r.result.Err? ==> r.result.error == ServerError && r.store.profiles == s.profiles
    ensures freelancer !in s.profiles ==> r.store.profiles == s.profiles && r.result == Ok(rev)
    ensures freelancer in s.profiles ==>
      (r.result.Ok? <==> ProfileModel.Valid(AddRating(s.profiles[freelancer], rev.rating)) && io.followUpOk)
    ensures freelancer in s.profiles && r.result.Ok? ==>
      r.store.profiles == s.profiles[freelancer := AddRating(s.profiles[freelancer], rev.rating)]
  {
    var s1 := s.(reviews := s.reviews[io.rowId := rev]);
    if freelancer !in s.profiles then Response(s1, Ok(rev))
    else
      var q := AddRating(s.profiles[freelancer], rev.rating);
      if ProfileModel.Valid(q) && io.followUpOk then Response(s1.(profiles := s.profiles[freelancer := q]), Ok(rev))
      else Response(s1, Err(ServerError))
  }

  /** A caller signed in through Supabase never gets a review written: the
      order's client is an ObjectId, so such a caller is turned away with 401. */
  lemma UuidCallerCannotReview(s: Store, p: Principal, req: ReviewRequest, io: Io)
    requires io.rowId !in s.reviews && IsUuid(p.id)
    ensures AddReview(s, p, req, io).store == s && AddReview(s, p, req, io).result.Err?
    ensures IsObjectId(req.orderId) && req.orderId in s.orders && IsObjectId(s.orders[req.orderId].client) ==>
      AddReview(s, p, req, io).result == Err(Unauthorized("Not authorized to review this order"))
  {
    UuidIsNotObjectId(p.id);
  }

  /** Reviewing never creates a second review of an order by the same reviewer. */
  lemma {:induction false} AddReviewKeepsOnePerOrder(s: Store, p: Principal, req: ReviewRequest, io: Io)
    requires io.rowId !in s.reviews
    requires OnePerOrderAndReviewer(s.reviews)
    ensures OnePerOrderAndReviewer(AddReview(s, p, req, io).store.reviews)
  {
    var r := AddReview(s, p, req, io);
    if r.store != s {
      var rs := r.store.reviews;
      forall a, b | a in rs && b in rs && a != b
        ensures rs[a].order != rs[b].order || rs[a].reviewer != rs[b].reviewer
      {
        if a == io.rowId {
          assert b in s.reviews;
        } else if b == io.rowId {
          assert a in s.reviews;
        }
      }
    }
  }

  function Sum(rs: seq<real>): real {
    if |rs| == 0 then 0.0 else Sum(rs[..|rs| - 1]) + rs[|rs| - 1]
  }

  /** The mean of the ratings, 0 when there are none (the profile default). */
  function Mean(rs: seq<real>): real {
    if |rs| == 0 then 0.0 else Sum(rs) / |rs| as real
  }

  /** When the stored rating is the mean of the earlier ratings and the count is
      their number, the update stores the mean of all of them. */
  lemma RunningMean(rs: seq<real>, r: real)
    ensures NextRating(Mean(rs), |rs|, r) == Mean(rs + [r])
  {
    var n := |rs| as real;
    assert (rs + [r])[..|rs|] == rs;
    assert Sum(rs + [r]) == Sum(rs) + r;
    if |rs| > 0 {
      assert Mean(rs) * n == Sum(rs);
    }
  }

  /** A rating in [1, 5] added to a rating in [0, 5] keeps the profile in [0, 5]. */
  lemma NextRatingBounded(rating: real, n: nat, r: real)
    requires 0.0 <= rating <= ProfileModel.RATING_MAX && RATING_MIN <= r <= RATING_MAX
    ensures 0.0 < NextRating(rating, n, r) <= ProfileModel.RATING_MAX
  {
    var m := n as real;
    var d := m + 1.0;
    var total := rating * m + r;
    assert 0.0 <= rating * m <= 5.0 * m;
    assert 0.0 < total <= 5.0 * d;
    var q := total / d;
    assert q * d == total;
    assert (5.0 - q) * d == 5.0 * d - total;
  }

  /** So a profile that passes the schema's validation before the review
      passes it after: the review and the profile update land together. */
  lemma ProfileUpdateLands(s: Store, p: Principal, req: ReviewRequest, io: Io)
    requires io.rowId !in s.reviews && io.writeOk && io.followUpOk
    requires IsObjectId(req.orderId) && IsObjectId(p.id)
    requires req.orderId in s.orders && s.orders[req.orderId].client == p.id
    requires req.rating.Some? && RATING_MIN <= req.rating.value <= RATING_MAX && Truthy(req.comment)
    requires !AlreadyReviewed(s.reviews, req.orderId, p.id)
    requires s.orders[req.orderId].freelancer in s.profiles
    requires ProfileModel.Valid(s.profiles[s.orders[req.orderId].freelancer])
    ensures AddReview(s, p, req, io).result.Ok?
    ensures var f := s.orders[req.orderId].freelancer;
      && ProfileModel.Valid(AddReview(s, p, req, io).store.profiles[f])
      && AddReview(s, p, req, io).store.profiles[f].numReviews == s.profiles[f].numReviews + 1
  {
    var o := s.orders[req.orderId];
    var prof := s.profiles[o.freelancer];
    NextRatingBounded(prof.rating, prof.numReviews, req.rating.value);
  }

  /** A profile whose title was blanked by an update makes every later review
      of its owner's orders answer 500, although the review itself is kept. */
  lemma BlankTitleBreaksLaterReview(s: Store, freelancer: Principal, client: Principal, req: ReviewRequest, io1: Io, io2: Io)
    requires IsObjectId(freelancer.id) && freelancer.id in s.profiles && io1.writeOk
    requires io2.rowId !in s.reviews && io2.writeOk
    requires IsObjectId(req.orderId) && IsObjectId(client.id)
    requires req.orderId in s.orders && s.orders[req.orderId].client == client.id
    requires s.orders[req.orderId].freelancer == freelancer.id
    requires req.rating.Some? && RATING_MIN <= req.rating.value <= RATING_MAX && Truthy(req.comment)
    requires !AlreadyReviewed(s.reviews, req.orderId, client.id)
    ensures var t := Profiles.UpdateProfile(s, freelancer, Profiles.ProfileRequest(Some(" "), None, None, None, None), io1).store;
      var r := AddReview(t, client, req, io2);
      r.result == Err(ServerError) && io2.rowId in r.store.reviews && r.store.profiles == t.profiles
  {
    Profiles.UpdateCanStoreInvalid(s, freelancer, io1);
  }

  /** The order's status is irrelevant: a pending order can be reviewed. */
  lemma StatusNotChecked(s: Store, p: Principal, req: ReviewRequest, io: Io)
    requires io.rowId !in s.reviews && io.writeOk
    requires IsObjectId(req.orderId) && IsObjectId(p.id)
    requires req.orderId in s.orders && s.orders[req.orderId].client == p.id
    requires s.orders[req.orderId].freelancer !in s.profiles
    requires req.rating == Some(4.0) && req.comment == Some("Great")
    requires !AlreadyReviewed(s.reviews, req.orderId, p.id)
    ensures AddReview(s, p, req, io).result.Ok?
    ensures AddReview(s.(orders := s.orders[req.orderId := s.orders[req.orderId].(status := OrderModel.Pending)]), p, req, io).result.Ok?
  {
  }

  /** More generally, whatever the order's status, the answer is the same. */
  lemma StatusNeverConsulted(s: Store, p: Principal, req: ReviewRequest, io: Io, st: OrderModel.Status)
    requires io.rowId !in s.reviews && req.orderId in s.orders
    ensures AddReview(s.(orders := s.orders[req.orderId := s.orders[req.orderId].(status := st)]), p, req, io).result ==
      AddReview(s, p, req, io).result
  {
  }

  /** GET /api/reviews/service/:serviceId: the service's reviews, newest first.
      An id that does not cast to an ObjectId answers 500. */
  method GetServiceReviews(s: Store, serviceId: Id) returns (r: Result<seq<Id>>)
    ensures r.Err? <==> !IsObjectId(serviceId)
    ensures r.Err? ==> r.error == ServerError
    ensures r.Ok? ==> Query.Distinct(r.value)
    ensures r.Ok? ==> forall k :: k in r.value <==> k in s.reviews && s.reviews[k].service == serviceId
    ensures r.Ok? ==> forall i, j :: 0 <= i < j < |r.value| ==> s.reviews[r.value[i]].createdAt >= s.reviews[r.value[j]].createdAt
  {
    if !IsObjectId(serviceId) {
      return Err(ServerError);
    }
    var ids := Query.SelectOrdered(s.reviews, (v: Review) => v.service == serviceId, (v: Review) => -v.createdAt);
    r := Ok(ids);
  }
}

=== FILE: service_model.dfy ===
/** The service document of server/src/models/Service.js and the validation
    Mongoose runs when one is created. */
module ServiceModel {
  import opened Wrappers
  import opened Common
  import Text

  const TITLE_MAX: nat := 100
  const DESCRIPTION_MAX: nat := 1000
  const DEFAULT_COVER_IMAGE: string := "no-photo.jpg"

  datatype Service = Service(
    freelancer: Id,
    title: string,
    description: string,
    category: string,
    price: real,
    deliveryTime: real,
    coverImage: string,
    createdAt: int)

  /** The fields of a create request; `None` is a field the body leaves out.
      A body may carry its own `createdAt`, which the schema default only fills
      in when it is absent. */
  datatype ServiceInput = ServiceInput(
    title: Option<string>,
    description: Option<string>,
    category: Option<string>,
    price: Option<real>,
    deliveryTime: Option<real>,
    coverImage: Option<string>,
    createdAt: Option<int>)

  /** Mongoose `required` on a string path: present and non-empty. */
  predicate RequiredText(s: Option<string>) {
    Truthy(s)
  }

  /** The title after the schema's `trim` setter. */
  function TrimmedTitle(input: ServiceInput): Option<string> {
    if input.title.Some? then Some(Text.Trim(input.title.value)) else None
  }

  /** `Service.create`: casts and validates the input. It fails exactly when a
      validator rejects a path; price positivity is not one of them. `maxlength`
      counts UTF-16 code units, as JavaScript's `length` does. */
  function Create(freelancer: Id, input: ServiceInput, now: int): (r: Option<Service>)
    ensures r.Some? <==>
      && RequiredText(TrimmedTitle(input)) && Text.Utf16Length(TrimmedTitle(input).value) <= TITLE_MAX
      && RequiredText(input.description) && Text.Utf16Length(input.description.value) <= DESCRIPTION_MAX
      && input.category.Some? && input.category.value in CATEGORIES
      && input.price.Some? && input.deliveryTime.Some?
    ensures r.Some? ==>
      && r.value.freelancer == freelancer
      && r.value.title == Text.Trim(input.title.value)
      && r.value.description == input.description.value
      && r.value.category == input.category.value
      && r.value.price == input.price.value
      && r.value.deliveryTime == input.deliveryTime.value
      && r.value.coverImage == (if input.coverImage.Some? then input.coverImage.value else DEFAULT_COVER_IMAGE)
      && r.value.createdAt == (if input.createdAt.Some? then input.createdAt.value else now)
  {
    match (input.title, input.description, input.category, input.price, input.deliveryTime)
    case (Some(t), Some(d), Some(c), Some(p), Some(days)) =>
      var title := Text.Trim(t);
      if title == "" || Text.Utf16Length(title) > TITLE_MAX then None
      else if d == "" || Text.Utf16Length(d) > DESCRIPTION_MAX then None
      else if c !in CATEGORIES then None
      else
        var cover := if input.coverImage.Some? then input.coverImage.value else DEFAULT_COVER_IMAGE;
        Some(Service(freelancer, title, d, c, p, days, cover, input.createdAt.GetOr(now)))
    case _ => None
  }
}

=== FILE: services.dfy ===
/** server/src/controllers/serviceController.js */
module Services {
  import opened Wrappers
  import opened Common
  import opened Store
  import opened ServiceModel
  import Text

  /** A parsed query-string value: a string, or a nested object such as the
      one `price[gte]=100` produces. */
  datatype QueryValue = Str(text: string) | Obj(entries: seq<Entry>)

  datatype Entry = Entry(key: string, value: QueryValue)

  /** The query keys removed before the rest becomes a filter. */
  const RESERVED: set<string> := {"select", "sort", "page", "limit"}

  /** The whole words that gain a `$` and become query operators. */
  const OPERATORS: set<string> := {"gt", "gte", "lt", "lte", "in"}

  /** The top-level entries whose key is not reserved, in their order. */
  function StripReserved(q: seq<Entry>): (r: seq<Entry>)
    ensures |r| <= |q|
    ensures forall e :: e in r <==> e in q && e.key !in RESERVED
  {
    if |q| == 0 then []
    else if q[0].key in RESERVED then StripReserved(q[1..])
    else [q[0]] + StripReserved(q[1..])
  }

  /** Dropping the reserved keys twice is dropping them once. */
  lemma {:induction false} StripReservedIdempotent(q: seq<Entry>)
    ensures StripReserved(StripReserved(q)) == StripReserved(q)
  {
    if |q| > 0 {
      StripReservedIdempotent(q[1..]);
      if q[0].key !in RESERVED {
        assert ([q[0]] + StripReserved(q[1..]))[1..] == StripReserved(q[1..]);
      }
    }
  }

  /** Every character of `w` is a word character. */
  predicate AllWord(w: string) {
    forall i :: 0 <= i < |w| ==> Text.IsWordChar(w[i])
  }

  /** The length of the run of word characters `s` starts with. */
  function WordLength(s: string): (n: nat)
    ensures n <= |s| && AllWord(s[..n])
    ensures n < |s| ==> !Text.IsWordChar(s[n])
  {
    if |s| == 0 || !Text.IsWordChar(s[0]) then 0
    else
      var m := WordLength(s[1..]);
      assert s[..m + 1] == [s[0]] + s[1..][..m];
      m + 1
  }

  /** One word as the replacement leaves it. */
  function RewriteToken(w: string): string {
    if w in OPERATORS then "$" + w else w
  }

  /** `replace(/\b(gt|gte|lt|lte|in)\b/g, m => "$" + m)` on one string: every
      maximal run of word characters that is an operator name gets a `$`. */
  function Rewrite(s: string): (r: string)
    ensures |r| >= |s|
    decreases |s|
  {
    if |s| == 0 then ""
    else if !Text.IsWordChar(s[0]) then [s[0]] + Rewrite(s[1..])
    else
      var n := WordLength(s);
      RewriteToken(s[..n]) + Rewrite(s[n..])
  }

  lemma {:induction false} WordLengthOfWord(w: string)
    requires AllWord(w)
    ensures WordLength(w) == |w|
  {
    if |w| > 0 {
      WordLengthOfWord(w[1..]);
    }
  }

  lemma {:induction false} WordLengthBeforeBreak(a: string, c: char, b: string)
    requires AllWord(a) && !Text.IsWordChar(c)
    ensures WordLength(a + [c] + b) == |a|
  {
    if |a| > 0 {
      assert (a + [c] + b)[1..] == a[1..] + [c] + b;
      WordLengthBeforeBreak(a[1..], c, b);
    }
  }

  /** One unfolding of `Rewrite` at a string that starts with a word of length `n`. */
  lemma RewriteLeadingWord(s: string, n: nat)
    requires 0 < |s| && Text.IsWordChar(s[0]) && WordLength(s) == n
    ensures Rewrite(s) == RewriteToken(s[..n]) + Rewrite(s[n..])
  {
  }

  /** A whole word is rewritten exactly when it is an operator name; a word
      that merely contains one, such as "gtx" or "print", is left alone. */
  lemma RewriteWord(w: string)
    requires |w| > 0 && AllWord(w)
    ensures Rewrite(w) == if w in OPERATORS then "$" + w else w
  {
    RewriteWholeWord(w);
    assert RewriteToken(w) + "" == RewriteToken(w);
  }

  lemma RewriteWholeWord(w: string)
    requires |w| > 0 && AllWord(w)
    ensures Rewrite(w) == RewriteToken(w) + Rewrite("")
  {
    WordLengthOfWord(w);
    assert Text.IsWordChar(w[0]);
    RewriteLeadingWord(w, |w|);
    assert w[..|w|] == w;
    assert w[|w|..] == "";
  }

  /** A word and what follows a non-word character are rewritten independently. */
  lemma RewriteWordThenRest(w: string, c: char, b: string)
    requires |w| > 0 && AllWord(w) && !Text.IsWordChar(c)
    ensures Rewrite(w + [c] + b) == (if w in OPERATORS then "$" + w else w) + [c] + Rewrite(b)
  {
    RewriteSplitsAtBreak(w, c, b);
    RewriteBreak(c, b);
  }

  lemma RewriteSplitsAtBreak(w: string, c: char, b: string)
    requires |w| > 0 && AllWord(w) && !Text.IsWordChar(c)
    ensures Rewrite(w + [c] + b) == RewriteToken(w) + Rewrite([c] + b)
  {
    var s := w + [c] + b;
    WordLengthBeforeBreak(w, c, b);
    assert Text.IsWordChar(s[0]);
    RewriteLeadingWord(s, |w|);
    assert s[..|w|] == w;
    assert s[|w|..] == [c] + b;
  }

  lemma RewriteBreak(c: char, b: string)
    requires !Text.IsWordChar(c)
    ensures Rewrite([c] + b) == [c] + Rewrite(b)
  {
    assert ([c] + b)[1..] == b;
  }

  /** Text without word characters passes through unchanged. */
  lemma {:induction false} RewriteNoWords(s: string)
    requires forall i :: 0 <= i < |s| ==> !Text.IsWordChar(s[i])
    ensures Rewrite(s) == s
  {
    if |s| > 0 {
      RewriteNoWords(s[1..]);
      assert [s[0]] + s[1..] == s;
    }
  }

  /** The text with every `$` removed. */
  function DropDollars(s: string): string {
    if |s| == 0 then "" else (if s[0] == '$' then "" else [s[0]]) + DropDollars(s[1..])
  }

  lemma {:induction false} DropDollarsAppend(a: string, b: string)
    ensures DropDollars(a + b) == DropDollars(a) + DropDollars(b)
    decreases |a|
  {
    if |a| > 0 {
      assert (a + b)[1..] == a[1..] + b;
      DropDollarsAppend(a[1..], b);
    } else {
      assert a + b == b;
    }
  }

  /** The rewrite only inserts `$` signs: removing them from the result and
      from the input gives the same text. */
  lemma {:induction false} RewriteOnlyAddsDollars(s: string)
    ensures DropDollars(Rewrite(s)) == DropDollars(s)
    decreases |s|
  {
    if |s| == 0 {
    } else if !Text.IsWordChar(s[0]) {
      RewriteOnlyAddsDollars(s[1..]);
      DropDollarsAppend([s[0]], Rewrite(s[1..]));
      DropDollarsAppend([s[0]], s[1..]);
      assert [s[0]] + s[1..] == s;
    } else {
      var n := WordLength(s);
      RewriteOnlyAddsDollars(s[n..]);
      DropDollarsAppend(RewriteToken(s[..n]), Rewrite(s[n..]));
      TokenDropsToWord(s[..n]);
      DropDollarsAppend(s[..n], s[n..]);
      assert s[..n] + s[n..] == s;
    }
  }

  lemma TokenDropsToWord(w: string)
    ensures DropDollars(RewriteToken(w)) == DropDollars(w)
  {
    if w in OPERATORS {
      DropDollarsAppend("$", w);
    }
  }

  function RewriteValue(v: QueryValue): (r: QueryValue)
    ensures r.Str? <==> v.Str?
    ensures r.Obj? ==> |r.entries| == |v.entries|
    decreases v
  {
    match v
    case Str(x) => Str(Rewrite(x))
    case Obj(es) => Obj(RewriteEntries(es))
  }

  /** The rewrite of the JSON text, entry by entry: keys and string values
      alike, at every depth. */
  function RewriteEntries(es: seq<Entry>): (r: seq<Entry>)
    ensures |r| == |es|
    decreases es
  {
    if |es| == 0 then []
    else [Entry(Rewrite(es[0].key), RewriteValue(es[0].value))] + RewriteEntries(es[1..])
  }

  lemma {:induction false} RewriteEntriesAt(es: seq<Entry>, i: nat)
    requires i < |es|
    ensures RewriteEntries(es)[i] == Entry(Rewrite(es[i].key), RewriteValue(es[i].value))
  {
    if i > 0 {
      RewriteEntriesAt(es[1..], i - 1);
    }
  }

  /** GET /api/services: the filter handed to `Service.find`. */
  function ServiceFilter(q: seq<Entry>): (f: seq<Entry>)
    ensures |f| == |StripReserved(q)|
  {
    RewriteEntries(StripReserved(q))
  }

  /** No reserved key reaches the filter, every other key does (rewritten),
      with its value rewritten alongside. */
  lemma ServiceFilterEntries(q: seq<Entry>)
    ensures forall i :: 0 <= i < |ServiceFilter(q)| ==>
      exists e :: e in q && e.key !in RESERVED && ServiceFilter(q)[i] == Entry(Rewrite(e.key), RewriteValue(e.value))
    ensures forall e :: e in q && e.key !in RESERVED ==>
      Entry(Rewrite(e.key), RewriteValue(e.value)) in ServiceFilter(q)
  {
    var st := StripReserved(q);
    forall i | 0 <= i < |ServiceFilter(q)|
      ensures exists e :: e in q && e.key !in RESERVED && ServiceFilter(q)[i] == Entry(Rewrite(e.key), RewriteValue(e.value))
    {
      RewriteEntriesAt(st, i);
      assert st[i] in st;
    }
    forall e | e in q && e.key !in RESERVED
      ensures Entry(Rewrite(e.key), RewriteValue(e.value)) in ServiceFilter(q)
    {
      var i :| 0 <= i < |st| && st[i] == e;
      RewriteEntriesAt(st, i);
    }
  }

  /** A single entry with a word key and a string value. */
  lemma RewriteSingleEntry(k: string, v: QueryValue)
    ensures RewriteEntries([Entry(k, v)]) == [Entry(Rewrite(k), RewriteValue(v))]
  {
    assert [Entry(k, v)][1..] == [];
  }

  /** `price[gte]=100&sort=price` filters on `{price: {$gte: "100"}}`. */
  lemma PriceRangeExample()
    ensures ServiceFilter([Entry("price", Obj([Entry("gte", Str("100"))])), Entry("sort", Str("price"))])
      == [Entry("price", Obj([Entry("$gte", Str("100"))]))]
  {
    var inner := Obj([Entry("gte", Str("100"))]);
    SortStripped(inner);
    PriceKeyKept();
    GteRewritten();
    RewriteSingleEntry("price", inner);
  }

  lemma SortStripped(inner: QueryValue)
    ensures StripReserved([Entry("price", inner), Entry("sort", Str("price"))]) == [Entry("price", inner)]
  {
    var q := [Entry("price", inner), Entry("sort", Str("price"))];
    assert q[1..][1..] == [];
    assert StripReserved(q[1..]) == [];
  }

  lemma PriceKeyKept()
    ensures Rewrite("price") == "price"
  {
    assert AllWord("price") && "price" !in OPERATORS;
    RewriteWord("price");
  }

  lemma GteRewritten()
    ensures RewriteValue(Obj([Entry("gte", Str("100"))])) == Obj([Entry("$gte", Str("100"))])
  {
    assert Rewrite("gte") == "$gte" by {
      assert AllWord("gte") && "gte" in OPERATORS;
      RewriteWord("gte");
    }
    assert Rewrite("100") == "100" by {
      assert AllWord("100") && "100" !in OPERATORS;
      RewriteWord("100");
    }
    RewriteSingleEntry("gte", Str("100"));
  }

  /** The body of POST /api/services: the service fields, whatever
      `freelancer` the client put there, and an `_id` it may have chosen. */
  datatype ServiceBody = ServiceBody(freelancer: Option<Id>, id: Option<Id>, fields: ServiceInput)

  /** The key the new document is saved under: the body's `_id` when it gives
      one, otherwise a freshly generated ObjectId. */
  function ServiceKey(body: ServiceBody, io: Io): Id {
    body.id.GetOr(io.rowId)
  }

  /** A body `_id` is usable when it casts to an ObjectId and no service holds
      it yet; otherwise the cast or the unique index fails. */
  predicate KeyUsable(s: Store, body: ServiceBody) {
    body.id.Some? ==> IsObjectId(body.id.value) && body.id.value !in s.services
  }

  /** POST /api/services: the caller is stamped as the freelancer over anything
      the body says; schema validation failures, including a caller id that
      does not cast to the ObjectId `freelancer` path, and an unusable `_id`
      reach the error handler. */
  function CreateService(s: Store, p: Principal, body: ServiceBody, io: Io): (r: Response<Service>)
    requires io.rowId !in s.services
    ensures !IsObjectId(p.id) ==> r == Response(s, Err(ServerError))
    ensures r.result.Ok? <==> IsObjectId(p.id) && Create(p.id, body.fields, io.now).Some? && KeyUsable(s, body) && io.writeOk
    ensures r.result.Err? ==> r.store == s && r.result.error == ServerError
    ensures r.result.Ok? ==> Some(r.result.value) == Create(p.id, body.fields, io.now)
    ensures r.result.Ok? ==>
      && r.result.value.freelancer == p.id
      && ServiceKey(body, io) !in s.services
      && r.store == s.(services := s.services[ServiceKey(body, io) := r.result.value])
  {
    if !IsObjectId(p.id) then Response(s, Err(ServerError))
    else
      match Create(p.id, body.fields, io.now)
      case None => Response(s, Err(ServerError))
      case Some(svc) =>
        if KeyUsable(s, body) && io.writeOk then Response(s.(services := s.services[ServiceKey(body, io) := svc]), Ok(svc))
        else Response(s, Err(ServerError))
  }

  /** A body that names its own `_id` and `createdAt` gets exactly those: the
      service is stored under that id and carries that date. */
  lemma BodyIdAndDateKept(s: Store, p: Principal, body: ServiceBody, io: Io, k: Id, when: int)
    requires io.rowId !in s.services
    requires body.id == Some(k) && body.fields.createdAt == Some(when)
    requires CreateService(s, p, body, io).result.Ok?
    ensures k in CreateService(s, p, body, io).store.services
    ensures CreateService(s, p, body, io).store.services[k].createdAt == when
  {
  }

  /** A caller signed in through the auth service, whose id is a uuid, cannot
      create a service, whatever the body holds. */
  lemma UuidCallerCannotSell(s: Store, p: Principal, body: ServiceBody, io: Io)
    requires io.rowId !in s.services && IsUuid(p.id)
    ensures CreateService(s, p, body, io) == Response(s, Err(ServerError))
  {
    UuidIsNotObjectId(p.id);
  }

  /** The `freelancer` in the body makes no difference. */
  lemma CreateServiceIgnoresBodyFreelancer(s: Store, p: Principal, body: ServiceBody, other: Option<Id>, io: Io)
    requires io.rowId !in s.services
    ensures CreateService(s, p, body.(freelancer := other), io) == CreateService(s, p, body, io)
  {
  }
}

=== FILE: store.dfy ===
/** The abstract state both back ends share: the Supabase tables and the
    Mongoose collections as maps from row id to row, plus the server's
    in-memory OTP store. */
module Store {
  import opened Wrappers
  import opened Common
  import OrderModel
  import ServiceModel
  import ReviewModel
  import ProfileModel
  import WithdrawalModel
  import JobModel
  import ApplicationModel

  /** A row of the `users` table. */
  datatype User = User(name: string, email: string, role: string, walletBalance: real)

  /** `req.user` as the auth middleware leaves it: the `users` row when there is
      one, otherwise the auth id, e-mail and whatever the sign-up metadata held. */
  datatype Principal = Principal(id: Id, name: Option<string>, email: Option<string>, role: Option<string>)

  datatype Message = Message(sender: Id, receiver: Id, content: string, createdAt: int)

  /** The text of a notification, kept as the arguments of the template that
      renders it. */
  datatype Notice =
    | WithdrawalSubmitted(amount: real)
    | NewMessage(senderName: Option<string>, preview: string)
    | Applied(applicantName: Option<string>, jobTitle: string)
    | ApplicationDecided(jobTitle: string, status: string)

  datatype Notification = Notification(
    user: Id,
    sender: Option<Id>,
    kind: string,
    notice: Notice,
    link: string,
    isRead: bool,
    createdAt: int)

  /** An entry of the OTP store: a bare code written by older code, or the code
      with the credentials kept for the sign-in that follows verification. */
  datatype OtpEntry =
    | LegacyOtp(otp: string)
    | PendingSignup(otp: string, password: string, userId: Id)
  {
    function Code(): string {
      match this
      case LegacyOtp(c) => c
      case PendingSignup(c, _, _) => c
    }
  }

  datatype Store = Store(
    users: map<Id, User>,
    services: map<Id, ServiceModel.Service>,
    orders: map<Id, OrderModel.Order>,
    reviews: map<Id, ReviewModel.Review>,
    profiles: map<Id, ProfileModel.Profile>,
    withdrawals: map<Id, WithdrawalModel.Withdrawal>,
    jobs: map<Id, JobModel.Job>,
    applications: map<Id, ApplicationModel.Application>,
    messages: map<Id, Message>,
    notifications: map<Id, Notification>,
    otps: map<string, OtpEntry>)

  /** What the database answers that the handler cannot choose: the id a new
      row gets, the id a new notification gets, the current time, whether the
      handler's main write succeeds, whether its unchecked follow-up write
      succeeds, and whether the notification insert succeeds. */
  datatype Io = Io(rowId: Id, noteId: Id, now: int, writeOk: bool, followUpOk: bool, notifyOk: bool)

  /** The state after a request and the answer sent. */
  datatype Response<T> = Response(store: Store, result: Result<T>)

  /** The caller's role, when it has one, is `role`. */
  predicate HasRole(p: Principal, role: string) {
    p.role == Some(role)
  }
}

=== FILE: text.dfy ===
/** The JavaScript string operations the controllers and pages rely on:
    `trim`, `split` on one character, `join`, `substring(0, n)`,
    `startsWith`, case-insensitive containment and decimal rendering. */
module Text {

  /** ECMAScript WhiteSpace and LineTerminator code points, the set `trim` removes. */
  predicate IsSpace(c: char) {
    || c == ' ' || c == '\t' || c == '\n' || c == '\r'
    || c == '\U{000B}' || c == '\U{000C}' || c == '\U{00A0}' || c == '\U{FEFF}'
    || c == '\U{1680}' || ('\U{2000}' <= c <= '\U{200A}')
    || c == '\U{2028}' || c == '\U{2029}' || c == '\U{202F}' || c == '\U{205F}' || c == '\U{3000}'
  }

  predicate AllSpace(s: string) {
    forall i :: 0 <= i < |s| ==> IsSpace(s[i])
  }

  /** A string `trim` leaves alone: no white space at either end. */
  predicate IsTrimmed(s: string) {
    |s| == 0 || (!IsSpace(s[0]) && !IsSpace(s[|s| - 1]))
  }

  /** `s.trimStart()` */
  function TrimStart(s: string): (r: string)
    ensures |r| <= |s| && r == s[|s| - |r|..]
    ensures AllSpace(s[..|s| - |r|])
    ensures |r| > 0 ==> !IsSpace(r[0])
  {
    if |s| > 0 && IsSpace(s[0]) then TrimStart(s[1..]) else s
  }

  /** `s.trimEnd()` */
  function TrimEnd(s: string): (r: string)
    ensures |r| <= |s| && r == s[..|r|]
    ensures AllSpace(s[|r|..])
    ensures |r| > 0 ==> !IsSpace(r[|r| - 1])
  {
    if |s| > 0 && IsSpace(s[|s| - 1]) then TrimEnd(s[..|s| - 1]) else s
  }

  /** `s.trim()`: white space removed from both ends. */
  function Trim(s: string): (r: string)
    ensures IsTrimmed(r) && |r| <= |s|
    ensures IsTrimmed(s) ==> r == s
    ensures r == "" <==> AllSpace(s)
  {
    TrimEnd(TrimStart(s))
  }

  /** What `trim` leaves is the slice of `s` between two all-blank ends. */
  lemma TrimSlice(s: string)
    ensures exists a, b :: 0 <= a <= b <= |s| && Trim(s) == s[a..b] && AllSpace(s[..a]) && AllSpace(s[b..])
  {
    var t := TrimStart(s);
    var r := TrimEnd(t);
    var a := |s| - |t|;
    var b := a + |r|;
    assert Trim(s) == r == s[a..b];
    assert AllSpace(s[b..]) by {
      assert s[b..] == t[|r|..];
    }
    assert AllSpace(s[..a]);
  }

  /** Trimming one extra leading blank off an already trimmed string gives it back. */
  lemma {:induction false} TrimBlankPrefix(x: string)
    requires IsTrimmed(x)
    ensures Trim(" " + x) == x
  {
    assert (" " + x)[1..] == x;
    assert TrimStart(" " + x) == TrimStart(x);
  }

  /** `xs.map(x => x.trim())` */
  function TrimAll(xs: seq<string>): (r: seq<string>)
    ensures |r| == |xs|
    ensures forall i :: 0 <= i < |xs| ==> r[i] == Trim(xs[i])
  {
    if |xs| == 0 then [] else [Trim(xs[0])] + TrimAll(xs[1..])
  }

  /** `parts.join(sep)` */
  function Join(parts: seq<string>, sep: string): string {
    if |parts| == 0 then ""
    else if |parts| == 1 then parts[0]
    else parts[0] + sep + Join(parts[1..], sep)
  }

  /** `s.split(sep)` for a one-character separator: at least one piece, no piece
      holds the separator, and joining the pieces back gives `s`. */
  function Split(s: string, sep: char): (parts: seq<string>)
    ensures |parts| >= 1
    ensures forall i :: 0 <= i < |parts| ==> sep !in parts[i]
    ensures Join(parts, [sep]) == s
  {
    if |s| == 0 then [""]
    else
      var rest := Split(s[1..], sep);
      assert s == [s[0]] + s[1..];
      if s[0] == sep then
        JoinEmptyHead(rest, sep);
        [""] + rest
      else
        JoinConsHead(s[0], rest, sep);
        [[s[0]] + rest[0]] + rest[1..]
  }

  lemma {:induction false} JoinEmptyHead(rest: seq<string>, sep: char)
    requires |rest| >= 1
    ensures Join([""] + rest, [sep]) == [sep] + Join(rest, [sep])
  {
    assert ([""] + rest)[1..] == rest;
  }

  lemma {:induction false} JoinConsHead(c: char, rest: seq<string>, sep: char)
    requires |rest| >= 1
    ensures Join([[c] + rest[0]] + rest[1..], [sep]) == [c] + Join(rest, [sep])
  {
    var parts := [[c] + rest[0]] + rest[1..];
    var x := rest[0];
    if |rest| > 1 {
      var j := Join(rest[1..], [sep]);
      assert parts[1..] == rest[1..];
      assert Join(parts, [sep]) == ([c] + x) + [sep] + j;
      assert Join(rest, [sep]) == x + [sep] + j;
      assert ([c] + x) + [sep] + j == [c] + (x + [sep] + j);
    }
  }

  lemma {:induction false} SplitWithoutSeparator(x: string, sep: char)
    requires sep !in x
    ensures Split(x, sep) == [x]
    decreases |x|
  {
    if |x| > 0 {
      SplitWithoutSeparator(x[1..], sep);
      assert [x[0]] + x[1..] == x;
    }
  }

  lemma {:induction false} SplitAfterFirstPiece(x: string, rest: string, sep: char)
    requires sep !in x
    ensures Split(x + [sep] + rest, sep) == [x] + Split(rest, sep)
    decreases |x|
  {
    var s := x + [sep] + rest;
    if |x| == 0 {
      assert s[1..] == rest;
    } else {
      assert s[1..] == x[1..] + [sep] + rest;
      SplitAfterFirstPiece(x[1..], rest, sep);
      assert [x[0]] + x[1..] == x;
    }
  }

  /** Splitting undoes joining when no piece contains the separator. */
  lemma {:induction false} SplitJoin(xs: seq<string>, sep: char)
    requires |xs| >= 1
    requires forall i :: 0 <= i < |xs| ==> sep !in xs[i]
    ensures Split(Join(xs, [sep]), sep) == xs
    decreases |xs|
  {
    if |xs| == 1 {
      SplitWithoutSeparator(xs[0], sep);
    } else {
      SplitJoin(xs[1..], sep);
      SplitAfterFirstPiece(xs[0], Join(xs[1..], [sep]), sep);
      assert [xs[0]] + xs[1..] == xs;
    }
  }

  /** Every piece with one blank in front of it. */
  function Spaced(ys: seq<string>): (r: seq<string>)
    ensures |r| == |ys|
  {
    if |ys| == 0 then [] else [" " + ys[0]] + Spaced(ys[1..])
  }

  lemma {:induction false} SpacedAt(ys: seq<string>, i: nat)
    requires i < |ys|
    ensures Spaced(ys)[i] == " " + ys[i]
  {
    if i > 0 {
      SpacedAt(ys[1..], i - 1);
    }
  }

  /** Splitting `pre` followed by a ", "-joined list on ',' yields `pre` glued to the
      first item, then the other items each with a leading blank. */
  lemma {:induction false} SplitAfterCommaBlankJoin(xs: seq<string>, pre: string)
    requires |xs| >= 1
    requires ',' !in pre
    requires forall i :: 0 <= i < |xs| ==> ',' !in xs[i]
    ensures Split(pre + Join(xs, ", "), ',') == [pre + xs[0]] + Spaced(xs[1..])
    decreases |xs|
  {
    if |xs| == 1 {
      SplitWithoutSeparator(pre + xs[0], ',');
    } else {
      var j := Join(xs[1..], ", ");
      assert pre + Join(xs, ", ") == (pre + xs[0]) + [','] + (" " + j) by {
        assert Join(xs, ", ") == xs[0] + ", " + j;
      }
      SplitAfterFirstPiece(pre + xs[0], " " + j, ',');
      SplitAfterCommaBlankJoin(xs[1..], " ");
      assert xs[1..][1..] == xs[2..];
    }
  }

  /** Splitting a ", "-joined list on ',' yields the first item and the others with a leading blank. */
  lemma SplitCommaBlank(xs: seq<string>)
    requires |xs| >= 1
    requires forall i :: 0 <= i < |xs| ==> ',' !in xs[i]
    ensures Split(Join(xs, ", "), ',') == [xs[0]] + Spaced(xs[1..])
  {
    SplitAfterCommaBlankJoin(xs, "");
    assert "" + Join(xs, ", ") == Join(xs, ", ");
    assert "" + xs[0] == xs[0];
  }

  lemma TrimUnspaces(xs: seq<string>)
    requires |xs| >= 1
    requires forall i :: 0 <= i < |xs| ==> IsTrimmed(xs[i])
    ensures TrimAll([xs[0]] + Spaced(xs[1..])) == xs
  {
    var ys := [xs[0]] + Spaced(xs[1..]);
    var ts := TrimAll(ys);
    assert |ts| == |xs|;
    forall i | 0 <= i < |xs|
      ensures ts[i] == xs[i]
    {
      TrimUnspacedAt(xs, i);
    }
  }

  lemma {:induction false} TrimUnspacedAt(xs: seq<string>, i: nat)
    requires i < |xs| && IsTrimmed(xs[i])
    ensures Trim(([xs[0]] + Spaced(xs[1..]))[i]) == xs[i]
  {
    if i > 0 {
      SpacedAt(xs[1..], i - 1);
      assert ([xs[0]] + Spaced(xs[1..]))[i] == " " + xs[i];
      TrimBlankPrefix(xs[i]);
    }
  }

  /** Trimming the pieces of a ", "-joined list of trimmed, comma-free items gives the items back. */
  lemma TrimSplitJoin(xs: seq<string>)
    requires |xs| >= 1
    requires forall i :: 0 <= i < |xs| ==> ',' !in xs[i] && IsTrimmed(xs[i])
    ensures TrimAll(Split(Join(xs, ", "), ',')) == xs
  {
    assert Split(Join(xs, ", "), ',') == [xs[0]] + Spaced(xs[1..]) by {
      SplitCommaBlank(xs);
    }
    TrimUnspaces(xs);
  }

  /** `s.substring(0, n)` for `n >= 0`. */
  function Prefix(s: string, n: nat): (r: string)
    ensures |r| == if n <= |s| then n else |s|
    ensures r <= s
  {
    if n <= |s| then s[..n] else s
  }

  /** The number of UTF-16 code units in `s`, which is what JavaScript's
      `length` counts: a character outside the Basic Multilingual Plane takes two. */
  function Utf16Length(s: string): (n: nat)
    ensures |s| <= n <= 2 * |s|
  {
    if |s| == 0 then 0 else Utf16Length(s[..|s| - 1]) + (if s[|s| - 1] as int >= 0x1_0000 then 2 else 1)
  }

  lemma {:induction false} Utf16LengthAppend(a: string, b: string)
    ensures Utf16Length(a + b) == Utf16Length(a) + Utf16Length(b)
    decreases |b|
  {
    if |b| == 0 {
      assert a + b == a;
    } else {
      assert (a + b)[..|a + b| - 1] == a + b[..|b| - 1];
      Utf16LengthAppend(a, b[..|b| - 1]);
    }
  }

  /** Text made only of Basic Multilingual Plane characters has one unit per character. */
  lemma {:induction false} Utf16LengthBmp(s: string)
    requires forall i :: 0 <= i < |s| ==> s[i] as int < 0x1_0000
    ensures Utf16Length(s) == |s|
    decreases |s|
  {
    if |s| > 0 {
      Utf16LengthBmp(s[..|s| - 1]);
    }
  }

  lemma {:induction false} Utf16LengthPrefix(s: string, k: nat)
    requires k <= |s|
    ensures Utf16Length(s[..k]) <= Utf16Length(s)
  {
    assert s == s[..k] + s[k..];
    Utf16LengthAppend(s[..k], s[k..]);
  }

  lemma {:induction false} Utf16LengthSuffix(s: string, k: nat)
    requires k <= |s|
    ensures Utf16Length(s[k..]) <= Utf16Length(s)
  {
    assert s == s[..k] + s[k..];
    Utf16LengthAppend(s[..k], s[k..]);
  }

  /** Trimming never makes a string longer in UTF-16 units. */
  lemma {:induction false} Utf16LengthTrim(s: string)
    ensures Utf16Length(Trim(s)) <= Utf16Length(s)
  {
    var t := TrimStart(s);
    Utf16LengthSuffix(s, |s| - |t|);
    Utf16LengthPrefix(t, |TrimEnd(t)|);
  }

  /** The position of the first `c` in `s`, or `|s|` when there is none. */
  function IndexOf(s: string, c: char): (i: nat)
    ensures i <= |s| && c !in s[..i]
    ensures i < |s| ==> s[i] == c
  {
    if |s| == 0 || s[0] == c then 0
    else
      var j := IndexOf(s[1..], c);
      assert s[..j + 1] == [s[0]] + s[1..][..j];
      j + 1
  }

  /** `t` is the second `sep`-separated field of `s`: it runs from just after
      the first `sep` up to the next one or to the end. */
  predicate SecondField(s: string, sep: char, t: string) {
    var i := IndexOf(s, sep);
    && i < |s| && i + 1 + |t| <= |s|
    && s[i + 1..i + 1 + |t|] == t && sep !in t
    && (i + 1 + |t| == |s| || s[i + 1 + |t|] == sep)
  }

  /** With at least two pieces, the join is the first piece, the separator, the
      second piece, and then either nothing or the separator and the rest. */
  lemma {:induction false} JoinFirstTwo(parts: seq<string>, sep: char)
    requires |parts| >= 2
    ensures var rest := if |parts| == 2 then "" else [sep] + Join(parts[2..], [sep]);
      Join(parts, [sep]) == parts[0] + [sep] + parts[1] + rest
  {
    if |parts| == 2 {
      JoinOfTwo(parts, sep);
    } else {
      JoinOfMore(parts, sep);
    }
  }

  lemma {:induction false} JoinOfTwo(parts: seq<string>, sep: char)
    requires |parts| == 2
    ensures Join(parts, [sep]) == parts[0] + [sep] + parts[1] + ""
  {
    assert Join(parts[1..], [sep]) == parts[1];
  }

  lemma {:induction false} JoinOfMore(parts: seq<string>, sep: char)
    requires |parts| > 2
    ensures Join(parts, [sep]) == parts[0] + [sep] + parts[1] + ([sep] + Join(parts[2..], [sep]))
  {
    JoinTail(parts, sep);
    ConcatAssoc(parts[0] + [sep], parts[1], [sep] + Join(parts[2..], [sep]));
  }

  lemma {:induction false} JoinTail(parts: seq<string>, sep: char)
    requires |parts| > 2
    ensures Join(parts[1..], [sep]) == parts[1] + [sep] + Join(parts[2..], [sep])
  {
    assert parts[1..][1..] == parts[2..];
  }

  lemma ConcatAssoc(a: string, b: string, c: string)
    ensures a + (b + c) == a + b + c
  {
  }

  /** The first separator of `a + [sep] + b` is the one after `a` when `a` has none. */
  lemma {:induction false} IndexOfAfter(a: string, sep: char, b: string)
    requires sep !in a
    ensures IndexOf(a + [sep] + b, sep) == |a|
  {
    var s := a + [sep] + b;
    assert s[|a|] == sep;
    assert s[..|a|] == a;
  }

  /** The second piece of a split is the second field. */
  lemma {:induction false} SplitSecondField(s: string, sep: char)
    requires |Split(s, sep)| >= 2
    ensures SecondField(s, sep, Split(s, sep)[1])
  {
    var f := Split(s, sep);
    var rest := if |f| == 2 then "" else [sep] + Join(f[2..], [sep]);
    JoinFirstTwo(f, sep);
    assert s == f[0] + [sep] + (f[1] + rest);
    IndexOfAfter(f[0], sep, f[1] + rest);
    var i := |f[0]|;
    assert s[i + 1..] == f[1] + rest;
    assert s[i + 1..i + 1 + |f[1]|] == f[1];
  }

  /** The second field is the second piece of the split. */
  lemma {:induction false} SecondFieldSplit(s: string, sep: char, t: string)
    requires SecondField(s, sep, t)
    ensures |Split(s, sep)| >= 2 && Split(s, sep)[1] == t
  {
    var i := IndexOf(s, sep);
    var a, rest := s[..i], s[i + 1 + |t|..];
    assert s == a + [sep] + (t + rest);
    assert rest == "" || rest[0] == sep;
    SplitAfterFirstPiece(a, t + rest, sep);
    SplitStartsWithField(t, rest, sep);
  }

  /** A field followed by nothing or by the separator is the first piece. */
  lemma {:induction false} SplitStartsWithField(t: string, rest: string, sep: char)
    requires sep !in t && (rest == "" || rest[0] == sep)
    ensures Split(t + rest, sep)[0] == t
  {
    if rest == "" {
      assert t + rest == t;
      SplitWithoutSeparator(t, sep);
    } else {
      assert t + rest == t + [sep] + rest[1..];
      SplitAfterFirstPiece(t, rest[1..], sep);
    }
  }

  /** `s.startsWith(p)` */
  predicate StartsWith(s: string, p: string) {
    |p| <= |s| && s[..|p|] == p
  }

  /** `sub` occurs somewhere inside `s`. */
  predicate Contains(s: string, sub: string) {
    exists i | 0 <= i <= |s| - |sub| :: OccursAt(s, sub, i)
  }

  predicate OccursAt(s: string, sub: string, i: int) {
    0 <= i <= |s| - |sub| && s[i..i + |sub|] == sub
  }

  /** ASCII lower-casing of one character. */
  function Lower(c: char): char {
    if 'A' <= c <= 'Z' then (c as int + 32) as char else c
  }

  function LowerAll(s: string): (r: string)
    ensures |r| == |s|
    ensures forall i :: 0 <= i < |s| ==> r[i] == Lower(s[i])
  {
    if |s| == 0 then "" else [Lower(s[0])] + LowerAll(s[1..])
  }

  /** Case-insensitive containment, the meaning of `ilike '%sub%'`. */
  predicate ContainsIgnoreCase(s: string, sub: string) {
    Contains(LowerAll(s), LowerAll(sub))
  }

  /** A character the regular-expression class `\w` matches. */
  predicate IsWordChar(c: char) {
    ('a' <= c <= 'z') || ('A' <= c <= 'Z') || ('0' <= c <= '9') || c == '_'
  }

  predicate IsDigit(c: char) {
    '0' <= c <= '9'
  }

  function Pow10(k: nat): nat {
    if k == 0 then 1 else 10 * Pow10(k - 1)
  }

  function DigitValue(c: char): nat
    requires IsDigit(c)
  {
    c as int - '0' as int
  }

  /** The number a string of decimal digits denotes, most significant first. */
  function DigitsValue(d: string): nat
    requires forall i :: 0 <= i < |d| ==> IsDigit(d[i])
  {
    if |d| == 0 then 0 else 10 * DigitsValue(d[..|d| - 1]) + DigitValue(d[|d| - 1])
  }

  /** `n.toString()` for a natural number: decimal digits that denote `n`. */
  function Decimal(n: nat): (r: string)
    ensures |r| >= 1
    ensures forall i :: 0 <= i < |r| ==> IsDigit(r[i])
    ensures DigitsValue(r) == n
  {
    if n < 10 then [('0' as int + n) as char]
    else
      var r := Decimal(n / 10) + [('0' as int + n % 10) as char];
      assert r[..|r| - 1] == Decimal(n / 10);
      r
  }

  /** A number with exactly `k` digits renders as `k` characters, the first not '0'. */
  lemma {:induction false} DecimalLength(n: nat, k: nat)
    requires k >= 1 && Pow10(k - 1) <= n < Pow10(k)
    ensures |Decimal(n)| == k
    ensures k > 1 ==> Decimal(n)[0] != '0'
  {
    if k == 1 {
      assert n < 10;
    } else {
      assert Pow10(k - 2) <= n / 10 < Pow10(k - 1);
      DecimalLength(n / 10, k - 1);
      assert Decimal(n)[0] == Decimal(n / 10)[0];
      if k == 2 {
        assert 1 <= n / 10;
      }
    }
  }
}

=== FILE: wallet.dfy ===
/** server/src/controllers/walletController.js */
module Wallet {
  import opened Wrappers
  import opened Common
  import opened Store
  import opened WithdrawalModel
  import Notifications
  import Query

  datatype WithdrawalRequest = WithdrawalRequest(amount: real, paymentMethod: string, paymentDetails: string)

  /** The row the insert creates; the table fills in the pending status. */
  function NewWithdrawal(p: Principal, req: WithdrawalRequest, io: Io): (w: Withdrawal)
    ensures w.user == p.id && w.amount == req.amount && w.status == DEFAULT_STATUS
    ensures w.paymentMethod == req.paymentMethod && w.paymentDetails == req.paymentDetails
  {
    Withdrawal(p.id, req.amount, DEFAULT_STATUS, req.paymentMethod, req.paymentDetails, io.now)
  }

  /** The store after a successful insert: the row, then the unchecked debit,
      then the notification. */
  function AfterWithdrawal(s: Store, p: Principal, req: WithdrawalRequest, io: Io): (t: Store)
    requires p.id in s.users
    requires io.rowId !in s.withdrawals && io.noteId !in s.notifications
    ensures t.withdrawals == s.withdrawals[io.rowId := NewWithdrawal(p, req, io)]
    ensures t.users.Keys == s.users.Keys
    ensures forall k :: k in s.users && k != p.id ==> t.users[k] == s.users[k]
    ensures t.users[p.id].walletBalance ==
      if io.followUpOk then s.users[p.id].walletBalance - req.amount else s.users[p.id].walletBalance
    ensures t.users[p.id].(walletBalance := 0.0) == s.users[p.id].(walletBalance := 0.0)
    ensures t.(users := s.users, withdrawals := s.withdrawals, notifications := s.notifications) == s
    ensures t.notifications ==
      if io.notifyOk then s.notifications[io.noteId :=
        Notification(p.id, None, "payment", WithdrawalSubmitted(req.amount), "/dashboard", false, io.now)]
      else s.notifications
  {
    var u := s.users[p.id];
    var s1 := s.(withdrawals := s.withdrawals[io.rowId := NewWithdrawal(p, req, io)]);
    var s2 := if io.followUpOk then s1.(users := s1.users[p.id := u.(walletBalance := u.walletBalance - req.amount)]) else s1;
    Notifications.CreateNotification(s2, p.id, None, "payment", WithdrawalSubmitted(req.amount), "/dashboard", io)
  }

  /** POST /api/wallet/withdraw as written: only the stored balance bounds the
      amount; the schema's minimum, method list and required details are not
      consulted, since the handler writes the table directly. */
  function RequestWithdrawal(s: Store, p: Principal, req: WithdrawalRequest, io: Io): (r: Response<Withdrawal>)
    requires io.rowId !in s.withdrawals && io.noteId !in s.notifications
    ensures p.id !in s.users ==> r == Response(s, Err(NotFound("User not found")))
    ensures p.id in s.users && s.users[p.id].walletBalance < req.amount ==>
      r == Response(s, Err(BadRequest("Insufficient balance")))
    ensures r.result.Ok? <==> p.id in s.users && req.amount <= s.users[p.id].walletBalance && io.writeOk
    ensures r.result.Err? ==> r.store == s
    ensures r.result.Ok? ==> r.result.value == NewWithdrawal(p, req, io) && r.store == AfterWithdrawal(s, p, req, io)
  {
    if p.id !in s.users then Response(s, Err(NotFound("User not found")))
    else if s.users[p.id].walletBalance < req.amount then Response(s, Err(BadRequest("Insufficient balance")))
    else if !io.writeOk then Response(s, Err(ServerError))
    else Response(AfterWithdrawal(s, p, req, io), Ok(NewWithdrawal(p, req, io)))
  }

  /** The balance moves by exactly the amount when the debit lands, and a
      successful request never leaves a negative balance behind. */
  lemma WithdrawalDebits(s: Store, p: Principal, req: WithdrawalRequest, io: Io)
    requires io.rowId !in s.withdrawals && io.noteId !in s.notifications
    requires RequestWithdrawal(s, p, req, io).result.Ok? && io.followUpOk
    ensures RequestWithdrawal(s, p, req, io).store.users[p.id].walletBalance == s.users[p.id].walletBalance - req.amount
    ensures RequestWithdrawal(s, p, req, io).store.users[p.id].walletBalance >= 0.0
  {
  }

  /** The comparison is strict: withdrawing the whole balance is accepted and leaves zero. */
  lemma WholeBalanceAccepted(s: Store, p: Principal, req: WithdrawalRequest, io: Io)
    requires io.rowId !in s.withdrawals && io.noteId !in s.notifications
    requires p.id in s.users && req.amount == s.users[p.id].walletBalance && io.writeOk && io.followUpOk
    ensures RequestWithdrawal(s, p, req, io).result.Ok?
    ensures RequestWithdrawal(s, p, req, io).store.users[p.id].walletBalance == 0.0
  {
  }

  /** A failed insert throws before the debit: nothing changes. */
  lemma FailedInsertKeepsBalance(s: Store, p: Principal, req: WithdrawalRequest, io: Io)
    requires io.rowId !in s.withdrawals && io.noteId !in s.notifications
    requires !io.writeOk
    ensures RequestWithdrawal(s, p, req, io).store == s
  {
  }

  /** With a non-negative balance every wallet stays non-negative, whatever the request. */
  lemma BalancesStayNonNegative(s: Store, p: Principal, req: WithdrawalRequest, io: Io)
    requires io.rowId !in s.withdrawals && io.noteId !in s.notifications
    requires forall k :: k in s.users ==> s.users[k].walletBalance >= 0.0
    ensures forall k :: k in RequestWithdrawal(s, p, req, io).store.users ==>
      RequestWithdrawal(s, p, req, io).store.users[k].walletBalance >= 0.0
  {
  }

  /** As written: a negative amount passes the balance check and the debit
      raises the balance. */
  lemma NegativeAmountCredits(s: Store, p: Principal, io: Io)
    requires io.rowId !in s.withdrawals && io.noteId !in s.notifications
    requires p.id in s.users && s.users[p.id].walletBalance >= 0.0 && io.writeOk && io.followUpOk
    ensures RequestWithdrawal(s, p, WithdrawalRequest(-50.0, "UPI", "me@upi"), io).result.Ok?
    ensures RequestWithdrawal(s, p, WithdrawalRequest(-50.0, "UPI", "me@upi"), io).store.users[p.id].walletBalance
      == s.users[p.id].walletBalance + 50.0
  {
  }

  /** As written: the stored row can break the schema's own rules. */
  lemma BelowMinimumStored(s: Store, p: Principal, io: Io)
    requires io.rowId !in s.withdrawals && io.noteId !in s.notifications
    requires p.id in s.users && s.users[p.id].walletBalance >= 50.0 && io.writeOk
    ensures RequestWithdrawal(s, p, WithdrawalRequest(50.0, "UPI", "me@upi"), io).result.Ok?
    ensures !Valid(RequestWithdrawal(s, p, WithdrawalRequest(50.0, "UPI", "me@upi"), io).result.value)
  {
  }

  /** Corrected: the request is checked against the withdrawal schema before
      the balance, as the ₹100 minimum and the method list intend. */
  function RequestWithdrawalGuarded(s: Store, p: Principal, req: WithdrawalRequest, io: Io): (r: Response<Withdrawal>)
    requires io.rowId !in s.withdrawals && io.noteId !in s.notifications
    ensures !Valid(NewWithdrawal(p, req, io)) ==> r.store == s && r.result.Err? && r.result.error.Status() == 400
    ensures r.result.Ok? ==> Valid(r.result.value)
    ensures Valid(NewWithdrawal(p, req, io)) ==> r == RequestWithdrawal(s, p, req, io)
  {
    if !Valid(NewWithdrawal(p, req, io)) then Response(s, Err(BadRequest("Invalid withdrawal")))
    else RequestWithdrawal(s, p, req, io)
  }

  /** Corrected: no request raises a balance, and every stored withdrawal the
      handler adds obeys the schema. */
  lemma GuardedNeverCredits(s: Store, p: Principal, req: WithdrawalRequest, io: Io)
    requires io.rowId !in s.withdrawals && io.noteId !in s.notifications
    ensures forall k :: k in s.users ==>
      (k in RequestWithdrawalGuarded(s, p, req, io).store.users &&
       RequestWithdrawalGuarded(s, p, req, io).store.users[k].walletBalance <= s.users[k].walletBalance)
    ensures forall k :: k in s.withdrawals && Valid(s.withdrawals[k]) ==> k in RequestWithdrawalGuarded(s, p, req, io).store.withdrawals
    ensures (forall k :: k in s.withdrawals ==> Valid(s.withdrawals[k])) ==>
      forall k :: k in RequestWithdrawalGuarded(s, p, req, io).store.withdrawals ==>
        Valid(RequestWithdrawalGuarded(s, p, req, io).store.withdrawals[k])
  {
  }

  /** GET /api/wallet/withdrawals: the caller's withdrawals, newest first. */
  method GetWithdrawals(s: Store, p: Principal) returns (ids: seq<Id>)
    ensures Query.Distinct(ids)
    ensures forall k :: k in ids <==> k in s.withdrawals && s.withdrawals[k].user == p.id
    ensures forall i, j :: 0 <= i < j < |ids| ==> s.withdrawals[ids[i]].createdAt >= s.withdrawals[ids[j]].createdAt
  {
    ids := Query.SelectOrdered(s.withdrawals, (w: Withdrawal) => w.user == p.id, (w: Withdrawal) => -w.createdAt);
  }

  /** GET /api/wallet/balance: a read; a missing row is an error thrown to the handler. */
  function GetBalance(s: Store, p: Principal): (r: Result<real>)
    ensures r.Ok? <==> p.id in s.users
    ensures r.Err? ==> r.error == ServerError
    ensures r.Ok? ==> r.value == s.users[p.id].walletBalance
  {
    if p.id in s.users then Ok(s.users[p.id].walletBalance) else Err(ServerError)
  }

  /** The balance read after a successful withdrawal shows the debit. */
  lemma BalanceAfterWithdrawal(s: Store, p: Principal, req: WithdrawalRequest, io: Io)
    requires io.rowId !in s.withdrawals && io.noteId !in s.notifications
    requires RequestWithdrawal(s, p, req, io).result.Ok? && io.followUpOk
    ensures GetBalance(RequestWithdrawal(s, p, req, io).store, p) == Ok(GetBalance(s, p).value - req.amount)
  {
  }
}

=== FILE: wallet_page.dfy ===
/** The withdrawal form of client/src/pages/Wallet.jsx. */
module WalletPage {
  import opened Wrappers
  import opened Common
  import opened Store
  import WithdrawalModel
  import Wallet

  /** The two values the method buttons can set. */
  datatype Method = Upi | Bank

  function MethodName(m: Method): string {
    match m
    case Upi => "UPI"
    case Bank => "Bank"
  }

  /** The form state. `amount` is the number input: `None` while it is empty. */
  datatype Form = Form(balance: real, amount: Option<real>, payout: Method, details: string)

  /** What submitting does: an alert and no request, or one POST. */
  datatype Submit = Alert(message: string) | Post(request: Wallet.WithdrawalRequest)

  const MIN_MESSAGE: string := "Minimum withdrawal is \U{20B9}100"
  const BALANCE_MESSAGE: string := "Insufficient balance"

  /** The state when the page opens with the fetched balance. */
  function Initial(balance: real): (f: Form)
    ensures f.payout == Upi && f.amount.None? && f.details == ""
  {
    Form(balance, None, Upi, "")
  }

  /** `Number(amount)`: the empty input converts to 0. */
  function AmountValue(a: Option<real>): real {
    if a.Some? then a.value else 0.0
  }

  /** `handleWithdraw`: the minimum first, then the displayed balance. */
  function HandleWithdraw(f: Form): (r: Submit)
    ensures AmountValue(f.amount) < WithdrawalModel.MIN_AMOUNT ==> r == Alert(MIN_MESSAGE)
    ensures WithdrawalModel.MIN_AMOUNT <= AmountValue(f.amount) && AmountValue(f.amount) > f.balance ==> r == Alert(BALANCE_MESSAGE)
    ensures r.Post? <==> WithdrawalModel.MIN_AMOUNT <= AmountValue(f.amount) <= f.balance
    ensures r.Post? ==>
      && r.request.amount == AmountValue(f.amount)
      && r.request.paymentMethod == MethodName(f.payout)
      && r.request.paymentDetails == f.details
  {
    var amount := AmountValue(f.amount);
    if amount < WithdrawalModel.MIN_AMOUNT then Alert(MIN_MESSAGE)
    else if amount > f.balance then Alert(BALANCE_MESSAGE)
    else Post(Wallet.WithdrawalRequest(amount, MethodName(f.payout), f.details))
  }

  /** A method button press. */
  function SelectMethod(f: Form, m: Method): (g: Form)
    ensures g.payout == m && g.(payout := f.payout) == f
  {
    f.(payout := m)
  }

  /** After a successful submit the amount and the details are cleared; the
      method stays selected. */
  function ClearAfterSuccess(f: Form): (g: Form)
    ensures g.amount.None? && g.details == ""
    ensures g.payout == f.payout && g.balance == f.balance
  {
    f.(amount := None, details := "")
  }

  /** Whatever button was pressed, the method sent is one the schema lists. */
  lemma MethodAlwaysListed(m: Method)
    ensures MethodName(m) in WithdrawalModel.PAYMENT_METHODS
  {
  }

  /** A cleared form cannot be submitted again: its empty amount is below the minimum. */
  lemma ClearedFormAlerts(f: Form)
    ensures HandleWithdraw(ClearAfterSuccess(f)) == Alert(MIN_MESSAGE)
  {
  }

  /** When the displayed balance is the stored one, a request the page sends is
      accepted by the server, and the row it stores obeys the withdrawal schema
      whenever the details were filled in. */
  lemma PostedRequestAccepted(s: Store, p: Principal, f: Form, io: Io)
    requires io.rowId !in s.withdrawals && io.noteId !in s.notifications
    requires p.id in s.users && s.users[p.id].walletBalance == f.balance && io.writeOk
    requires HandleWithdraw(f).Post?
    ensures Wallet.RequestWithdrawal(s, p, HandleWithdraw(f).request, io).result.Ok?
    ensures f.details != "" ==> WithdrawalModel.Valid(Wallet.RequestWithdrawal(s, p, HandleWithdraw(f).request, io).result.value)
  {
    MethodAlwaysListed(f.payout);
  }
}

=== FILE: withdrawal_model.dfy ===
/** The withdrawal document of server/src/models/Withdrawal.js. The wallet
    controller writes the Supabase `withdrawals` table directly, so these rules
    are stated as a validity predicate rather than enforced on insert. */
module WithdrawalModel {
  import opened Common

  const MIN_AMOUNT: real := 100.0
  const STATUSES: set<string> := {"pending", "approved", "rejected"}
  const PAYMENT_METHODS: set<string> := {"UPI", "Bank"}
  const DEFAULT_STATUS: string := "pending"

  datatype Withdrawal = Withdrawal(
    user: Id,
    amount: real,
    status: string,
    paymentMethod: string,
    paymentDetails: string,
    createdAt: int)

  /** What the schema admits: amount at least 100, a known status and method,
      and non-empty payment details (a required string). */
  predicate Valid(w: Withdrawal) {
    && w.amount >= MIN_AMOUNT
    && w.status in STATUSES
    && w.paymentMethod in PAYMENT_METHODS
    && w.paymentDetails != ""
  }
}

=== FILE: wrappers.dfy ===
/** Failure-carrying datatypes shared by every controller model. */
module Wrappers {

  /** An optional value: `None` stands for a missing (undefined or null) JSON field. */
  datatype Option<T> = None | Some(value: T) {
    /** The value when there is one, otherwise `default`. */
    function GetOr(default: T): T {
      if Some? then value else default
    }
  }

  /** The error answers the Express handlers send. `ServerError` is what the
      shared error middleware answers for anything passed to `next(err)`. */
  datatype Error =
    | BadRequest(message: string)
    | Unauthorized(message: string)
    | Forbidden(message: string)
    | NotFound(message: string)
    | ServerError
  {
    /** The HTTP status code of the answer. */
    function Status(): nat {
      match this
      case BadRequest(_) => 400
      case Unauthorized(_) => 401
      case Forbidden(_) => 403
      case NotFound(_) => 404
      case ServerError => 500
    }
  }

  /** Either a success value or one of the error answers above. */
  datatype Result<T> = Ok(value: T) | Err(error: Error) {
    predicate IsFailure() {
      Err?
    }

    function PropagateFailure<U>(): Result<U>
      requires Err?
    {
      Err(error)
    }

    function Extract(): T
      requires Ok?
    {
      value
    }
  }

  /** JavaScript truthiness of an optional string field: present and non-empty. */
  predicate Truthy(s: Option<string>) {
    s.Some? && s.value != ""
  }
}
